=== FILE: README.md ===
# BeeHouse shop core in Dafny

This project models the core of the BeeHouse honey shop. The shop is a Django
web application with a few browser scripts. Its customers live in Algeria's
wilayas (provinces). The model is written as immutable datatypes and pure
functions; the two loops that matter are methods. Every file is one Dafny
module:

- `Shipping`: the rate table and `ShippingRate.get_shipping_cost`. The cost is
  read through a key-value cache; a missing wilaya falls back to 400 and is
  not cached. Cache expiry has no clock: any entry may be evicted at any time.
- `RateSeed`: the `populate_rates` command. It upserts a tariff, and a listed
  desk price of 0 falls back to the home price.
- `StopDesks`: stop-desk (pickup point) queries and the `populate_shipping`
  upsert loop, keyed on (name, wilaya).
- `Catalog`: `Product.save` slug defaulting and `Product.get_images`.
- `Carts`: `Cart.get_total`, `CartItem.get_total_price` and the cart views:
  add, update, remove, view and count.
- `Orders`: the order model helpers, `checkout`, `place_order` and the
  profile statistics.
- `Accounts`: `register` and `verify` with their session `reg_data`, and the
  wishlist views.
- `Phone`: `clean_phone_number` and the registration page's `validatePhone`.
  The server function is duplicated verbatim in `orders/admin.py` and
  `users/views.py`, so it is modelled once.
- `Admin`: the bulk status actions, their SMS notifications and the
  confirmation message.
- `CheckoutPage`, `CartPage`, `RegisterPage`, `InvoicePage`: the logic of
  `checkout.js`, `cart.js`, `register.js` and `admin_invoice.js`. The page is
  a record of the fields each script reads and writes.
- `PyInt`: Python's `str(int)` and base-10 `int(str)`, with the 4300-digit
  limit on both. The server runs these on form fields.
- `PyDecimal`: Python's `Decimal(text)` for finite values, and the rounding
  Django applies before it writes a value into a `DecimalField` column.
- `OrderExamples`: worked `place_order` cases.
- `Wrappers`: `Option`.

Money is whole dinars (`int`). The order's amounts are stored in
`DecimalField(max_digits=10, decimal_places=2)` columns and its map position in
`DecimalField(max_digits=9, decimal_places=6)` columns. A value that does not
fit its column makes the insert raise, so no order is written. The same holds
for a cart quantity outside the 32-bit `IntegerField` column and for a product
slug that is too long or already taken. The database
tables are sequences in id order, or maps where the table has a unique key:
the rate table and cache by wilaya, carts by owner. Foreign inputs are parameters:

- whether SMS is enabled, and whether each send succeeded;
- the random verification code;
- `slugify`;
- the NFKC normalisation `create_user` applies to a username.

A placed order is a value, so a later catalog price change cannot reach its
item snapshots.

Where the repository's own description and its code disagree, the model
follows the code:

- `place_order` accepts any shipping cost `int()` can read, which means at
  most 4300 digits, as long as the order row fits its columns. Negative costs
  are included (`OrderExamples.NegativeShippingAccepted`): nothing checks that
  the cost is non-negative. A cost of nine or more digits, or a
  latitude `Decimal()` cannot read, fails the insert
  (`OrderExamples.OversizedShippingRejected`,
  `OrderExamples.MalformedLatitudeRejected`).
- A stop-desk order may end up without a desk. When the id is missing or no
  desk has it, the desk is `None` and the order is still placed. A non-numeric
  id makes Django's lookup raise `ValueError`, which `place_order` does not
  catch; this is modelled as the `DeskIdNotInteger` rejection. The lookup does
  not filter on `is_active`, so an inactive desk can be chosen.
- `get_shipping_cost` quotes the home price for every delivery type other
  than `stop_desk`, not just for `home`.
- `Cart.get_total` returns no value (`None`) for an empty cart. Only
  `view_cart` totals an empty cart as 0.
- The code has no transaction or lock around `place_order`. The model proves
  the sequential fact that a second submission after a successful one finds
  an empty cart.
- The client rate table spells some wilayas differently from the server's
  seed tariff: "Sétif" on the page, "Setif" in the tariff.
- JavaScript's `length` counts UTF-16 code units (`RegisterPage.JsLength`).

## Model

| member | source | states |
|---|---|---|
| Shipping.RowPrice | orders/models.py:95 | a row quotes its stop-desk price exactly for `stop_desk` and its home price for every other delivery type |
| Shipping.GetShippingCost | orders/models.py:87-100 | a hit answers the cached value and writes nothing; a miss answers the table price or 400; the key is cached afterwards iff it was before or the row exists, then with the answer; no other key changes |
| Shipping.Evict | orders/models.py:96 | expiry removes exactly the expired keys and keeps every other cached value |
| Shipping.CacheKeyInjective | orders/models.py:89 | for the two real delivery types, distinct (wilaya, type) pairs never share a cache key |
| Shipping.CacheKeyCollision | orders/models.py:89 | with an arbitrary delivery string two different lookups share a key |
| Shipping.CoherentLookup | orders/models.py:87-100 | with a coherent cache a lookup answers exactly the table price, and the cache stays coherent |
| Shipping.EvictionKeepsCoherence | orders/models.py:96 | expiring any entries keeps a coherent cache coherent |
| Shipping.EmptyCacheCoherent | orders/models.py:90 | the empty cache is coherent with any table |
| Shipping.RepeatedLookupStable | orders/models.py:89-96 | a second lookup returns the same answer and leaves the cache as the first left it |
| Shipping.NewRowSeenNextCall | orders/models.py:97-98 | an unknown wilaya costs 400 and is not cached, so a row inserted afterwards is what the next lookup answers |
| Shipping.RateChangeSeenAfterExpiry | orders/models.py:89-96 | a price change is hidden while the old answer is cached and seen once that entry expires |
| RateSeed.SeededStopDeskPrice | orders/management/commands/populate_rates.py:72 | the stored stop-desk price is the desk price when that is positive and the home price otherwise; so it is positive whenever home is, and never above home when the desk is not |
| RateSeed.LastFor | orders/management/commands/populate_rates.py:67-75 | the tariff line the upserts leave behind for a wilaya is a listed line for that wilaya |
| RateSeed.PopulateRates | orders/management/commands/populate_rates.py:67-75 | the table afterwards has the old keys plus the listed wilayas; unlisted rows are untouched; each listed wilaya holds the seed row of its last tariff line |
| RateSeed.PopulateRatesIdempotent | orders/management/commands/populate_rates.py:67-75 | running the seeding twice leaves the table as running it once |
| RateSeed.SeededReturnCosts | orders/management/commands/populate_rates.py:73 | every seeded row has return cost 300 |
| RateSeed.SeededStopNotAboveHome | orders/management/commands/populate_rates.py:72 | when no tariff line quotes its desk above home, no seeded row does |
| RateSeed.TariffDesksNotAboveHome | orders/management/commands/populate_rates.py:8-65 | the shipped tariff never quotes a desk price above the home price |
| RateSeed.PopulateCommand | orders/management/commands/populate_rates.py:67-78 | the command seeds every listed wilaya with stop ≤ home and return cost 300 and reports the number of tariff lines |
| StopDesks.GetByWilaya | orders/models.py:146-149 | exactly the active desks of that wilaya, as a set; the order is not modelled |
| StopDesks.ActiveDesks | orders/views.py:28 | exactly the active desks, as a set; the order is not modelled |
| StopDesks.FindById | orders/views.py:82 | the desk with that id when one exists, none exactly when no desk has it |
| StopDesks.UpsertDesk | orders/management/commands/populate_shipping.py:189-193 | creates iff the (name, wilaya) key is absent, fails iff two rows share it, otherwise stores the listed values under the key and leaves rows with other keys alone |
| StopDesks.UpsertKeepsKeysUnique | orders/management/commands/populate_shipping.py:189-193 | an upsert into a table with unique keys never fails and keeps keys unique |
| StopDesks.UpsertOfPresentKeyUpdates | orders/management/commands/populate_shipping.py:189-200 | a key already present is updated, never created again |
| StopDesks.UpsertKeepsOtherFields | orders/management/commands/populate_shipping.py:189-193 | an upsert keeps the values of every entry with another key |
| StopDesks.RunOutcome | orders/management/commands/populate_shipping.py:185-200 | what a finished run, aborted or not, has achieved (the command's postconditions) |
| StopDesks.PopulateShipping | orders/management/commands/populate_shipping.py:185-200 | created + updated equals the list length; keys grow by the listed keys; unlisted rows untouched; every listed desk present with its values; a second run creates nothing |
| Catalog.Save | products/models.py:25-28 | an existing slug is kept; a missing or empty one becomes `slugify(name)`; no other field changes |
| Catalog.SaveIdempotent | products/models.py:25-28 | saving twice is saving once |
| Catalog.SaveProduct | products/models.py:7-28 | the row is written exactly when the defaulted slug is at most 50 characters and no other row holds it; a write sets only the product's own row and keeps slugs unique |
| Catalog.SecondSameNameRejected | products/models.py:7-28 | a second product with the same name and no slug is refused once the first is stored |
| Catalog.PresentUrls | products/models.py:35-41 | the URLs of exactly the present picture slots |
| Catalog.GetImages | products/models.py:33-43 | 1 to 3 images: the present pictures in slot order, or the single default image |
| Catalog.FirstImageIsMainPicture | products/models.py:36-37 | with a main picture, it is the first image |
| Carts.GetTotal | cart/models.py:13-17 | no value exactly for an empty cart |
| Carts.GetTotalIsViewTotal | cart/models.py:13-17 | for a non-empty cart the aggregate equals Σ `get_total_price`; an empty cart gives no aggregate and a view total of 0 |
| Carts.FindProduct | cart/views.py:13-16 | the position of the product's row, none exactly when no row holds it |
| Carts.FindItem | cart/views.py:49 | the position of the item with that id, none exactly when the cart has none |
| Carts.GetOrCreateCart | cart/views.py:11 | the user has a cart afterwards with the same items; other carts untouched |
| Carts.GetOrCreateIdempotent | cart/views.py:11 | a second get-or-create finds the first one's cart |
| Carts.AddLineQuantities | cart/views.py:13-20 | adding one of a product raises its quantity by 1 and leaves every other product's quantity alone |
| Carts.AddLineSums | cart/views.py:13-24 | adding one of a product raises the count by 1 and the total by its price |
| Carts.AddLineValid | cart/models.py:19-22 | adding keeps one row per product, positive quantities and fresh ids |
| Carts.AddedStoreKeeps | cart/views.py:11-20 | the store `add_to_cart` writes stays valid and changes only the added product's quantity |
| Carts.AddSavesBelowMax | cart/models.py:22 | in a valid cart, adding one more fails to save exactly when the product is already held at the column's maximum, 2^31 − 1 |
| Carts.AddToCart | cart/views.py:7-33 | an unknown product is not found; a row already at the column's maximum fails to save and changes nothing; otherwise the product's quantity rises by 1, the reply's count and total are those of the new cart, and other carts are untouched |
| Carts.CountAtLeastRows | cart/views.py:71 | the count is at least the number of rows |
| Carts.RemoveAt | cart/views.py:50 | the rows with one row deleted, the rest in order |
| Carts.RemoveAtValid | cart/views.py:50 | deleting a row keeps a cart valid |
| Carts.RemoveAtQuantities | cart/views.py:50 | after deleting its row the product's quantity is 0 and every other product's is unchanged |
| Carts.SetQuantityQuantities | cart/views.py:59-61 | after setting a row's quantity to q its product has quantity q and the others are unchanged |
| Carts.RemoveFromCart | cart/views.py:47-51 | an item not in the requester's cart is not found; otherwise exactly that row goes and other carts are untouched |
| Carts.SetItemQuantity | cart/views.py:59-61 | for a q the column holds, the row gets quantity q, the cart stays valid, other carts are untouched |
| Carts.UpdateCartItem | cart/views.py:53-65 | non-POST changes nothing; an item outside the requester's cart is not found; q > 0 sets the quantity to q, or fails to save exactly when q exceeds 2^31 − 1; q ≤ 0 deletes the row; a non-integer field fails; an absent field counts as 1 |
| Carts.GetCartCount | cart/views.py:67-72 | the cart exists afterwards and the count is Σ quantities, at least the number of rows |
| Carts.ViewCart | cart/views.py:35-45 | the cart exists afterwards; the total is 0 for an empty cart and the aggregate otherwise |
| Orders.CreateOrder | orders/models.py:28-35 | a new order is pending, cash on delivery, with no items or tracking number, and shipping defaults to 0 |
| Orders.ItemTotal | orders/models.py:109-116 | quantity × price, 0 when either is missing |
| Orders.GetTotalItems | orders/models.py:66-67 | Σ quantities, at least the number of items when each holds one |
| Orders.CalculateShipping | orders/models.py:69-71 | with a coherent cache and a real delivery type, the order's shipping is the table price |
| Orders.Snapshot | orders/views.py:114-120 | one item per cart line, same product and quantity, the product's price at this instant |
| Orders.SnapshotTotal | orders/views.py:87-120 | the snapshot items total what the cart totalled |
| Orders.SnapshotCount | orders/views.py:114-120 | the snapshot holds as many units as the cart |
| Orders.Checkout | orders/views.py:12-53 | no cart is a 404, an empty cart redirects, otherwise the page shows the cart, its total and exactly the active desks |
| Orders.LookupDesk | orders/views.py:79-84 | a desk only for `stop_desk` with a non-empty id of an existing desk; none otherwise; a non-numeric id is rejected |
| Orders.ParsedShipping | orders/views.py:75-91 | an absent field gives 800; a present one gives exactly what `int()` reads, none when it raises |
| Orders.Commit | orders/views.py:96-123 | placed iff every amount, coordinate and text fits its column, else `SaveFailed` with nothing written; a placed order has the snapshot items, total = subtotal + shipping and the coordinates rounded to six places, and the cart is emptied (its row kept); nothing else changes |
| Orders.PlaceOrderAsWritten | orders/views.py:55-128 | an unparseable shipping cost fails the request with `TypeError`; a placed order's row fits its columns; with the cost absent or readable, the outcome is the corrected `PlaceOrder`'s |
| Orders.PlaceOrder | orders/views.py:55-128 | rejections for non-POST, no cart, empty cart and a non-numeric desk id; `SaveFailed` iff the row does not fit its columns; otherwise total = cart total + shipping, the snapshots, the stored coordinates, exactly one new pending order and an emptied cart |
| Orders.DoubleSubmitRejected | orders/views.py:62-123 | after a successful placement, placing again is rejected as an empty cart |
| Orders.WellFormedSubmissionPlaced | orders/views.py:58-128 | a POST over a non-empty cart with a numeric or no desk id is placed iff its row fits the columns |
| Orders.PlacedCharges | orders/views.py:87-93 | the placed order charges the view total of the cart plus the declared shipping cost |
| Orders.CountOrders | users/views.py:188-189 | the count is at most the number of orders |
| Orders.Stats | users/views.py:188-190 | pending ≤ total orders, and nothing spent when there are no orders |
| Orders.PendingAtMostAll | users/views.py:188-189 | the pending count never exceeds the order count |
| Orders.NoOrdersNothingSpent | users/views.py:190 | with no orders the amount spent is 0 |
| Orders.PlacingUpdatesStats | users/views.py:188-190 | placing an order adds one order and one pending order to the buyer's statistics and its total to the amount spent |
| OrderExamples.WorkedOrder | orders/views.py:87-123 | lines 100×2 and 50×1 with shipping 800 give subtotal 250, total 1050 and item prices 100 and 50 |
| OrderExamples.UnparseableShippingFailsAsWritten | orders/views.py:88-93 | as written, shipping "free" fails the request |
| OrderExamples.UnparseableShippingFallsBack | orders/views.py:88-93 | as intended, shipping "free" is replaced by 800 |
| OrderExamples.NegativeShippingAccepted | orders/views.py:88-93 | a declared cost of -250 is accepted and the total falls below the subtotal |
| OrderExamples.OversizedShippingRejected | orders/models.py:33-35 | a declared cost of 100000000 is read but does not fit the money column, so the order is rejected as `SaveFailed` |
| OrderExamples.MalformedLatitudeRejected | orders/views.py:105 | a latitude of "abc" fails the insert: no order, cart kept |
| OrderExamples.AlgiersPosition | orders/models.py:46-47 | 36.7538 and 3.0588 fit the coordinate columns and are stored as 36.753800 and 3.058800 |
| OrderExamples.PositionStored | orders/views.py:96-111 | an order placed with that map position keeps it, at six places |
| Accounts.Register | users/views.py:105-148 | mismatched passwords and a taken username store nothing; otherwise `reg_data` with the six-digit code is stored whether or not the SMS goes out |
| Accounts.Verify | users/views.py:71-103 | without `reg_data` nothing happens; the matching code creates the account under the normalised username and ends the registration exactly when that name is free and the names fit 150 characters, and otherwise reports the creation error and keeps the registration; any other code keeps it |
| Accounts.RegisterThenVerify | users/views.py:105-148 | registering a name that is fresh also after normalisation, with names that fit, and entering the sent code creates exactly that account |
| Accounts.LookalikeNameFailsAtVerify | users/views.py:80-120 | a name that passes register's exact-match check but normalises to a taken one gets its code sent, and the right code then fails to create the account |
| Accounts.OnlyTheSentCodeVerifies | users/views.py:80-101 | any other code creates nothing |
| Accounts.HasEntry | users/views.py:232-235 | whether the wishlist holds an entry for (user, product) |
| Accounts.AddToWishlist | users/views.py:226-243 | an unknown product is not found; otherwise the pair is wished afterwards, created iff it was not before, and the wishlist stays unique |
| Accounts.AddToWishlistIdempotent | users/views.py:232-240 | a second add changes nothing |
| Accounts.FindEntry | users/views.py:249 | the first entry with that id and owner; the end exactly when no entry has both |
| Accounts.DeleteKeepsValid | users/views.py:251 | deleting one row keeps a valid wishlist valid |
| Accounts.DeleteRemovesOwned | users/views.py:249-251 | deleting the found row keeps every other user's entries and, in a valid wishlist, removes exactly the entries with that id and owner |
| Accounts.RemoveFromWishlist | users/views.py:246-255 | not found iff no entry has that id and owner; otherwise one entry fewer, exactly the entries with that id and owner gone, every other user's entries kept, validity kept |
| Phone.StripSeparators | users/views.py:18 | never longer than the input |
| Phone.StripSeparatorsMembers | users/views.py:18 | exactly spaces, dashes and parentheses are removed |
| Phone.CleanPhoneNumber | users/views.py:16-29 | the result starts with `+` and holds no separator |
| Phone.SeparatorsIrrelevant | users/views.py:18 | the result depends only on the input without separators |
| Phone.CleanPhoneNumberIdempotent | users/views.py:16-29 | normalising twice is normalising once |
| Phone.InternationalUnchanged | users/views.py:26 | a separator-free `+…` number passes unchanged |
| Phone.EquivalentSpellings | users/views.py:20-27 | the `0…`, `00213…`, `213…` and `+213…` spellings of one mobile number normalise to the same `+213…` |
| Phone.CleanPhoneExamples | orders/admin.py:27-40 | "0551234567" and "00213551234567" become "+213551234567", which stays unchanged |
| Phone.SeparatedGroups | users/views.py:18 | separators between digit groups are ignored |
| Phone.SpacedExample | users/views.py:16-29 | "0551 23-45-67" becomes "+213551234567" |
| Phone.JsStrip | static/JS/register.js:33 | never longer than the input |
| Phone.JsStripMembers | static/JS/register.js:33 | exactly white space and dashes are removed |
| Phone.ValidatePhone | static/JS/register.js:31-43 | an accepted number strips to 10 or 13 characters, all digits or `+` |
| Phone.StrippersAgree | static/JS/register.js:33 | with plain spaces as the only white space, the page and the server strip alike |
| Phone.AcceptedPhoneNormalisesToInternational | static/JS/register.js:38-39 | a number the page accepts, typed with plain spaces only, normalises to the page's international form, which is where the verification SMS is sent (the record keeps the raw phone) |
| Phone.TabIsNotNormalised | static/JS/register.js:33 | a phone value with a tab inside a valid local number passes `validatePhone` but is kept by the server's normaliser, so the SMS is sent to a number that is not international; the input handler strips the tab, so such a value arrives only without an input event, as in a hand-made POST |
| PyInt.NatToDigits | orders/views.py:89 | the spelling is a nonempty digit string without a leading zero |
| PyInt.IntToString | orders/views.py:89 | a minus sign exactly for negatives, digits otherwise |
| PyInt.NatDigitsRoundTrip | orders/views.py:89 | reading back the digits of `n` gives `n` |
| PyInt.SixDigitSpelling | users/views.py:125 | a number in 100000..999999 is spelled with six digits |
| PyInt.PyStrip | orders/views.py:105-106 | the `str.isspace()` white space `Decimal()` ignores: none left at either end, and a space-free input is unchanged |
| PyInt.IntStrip | orders/views.py:89 | the white space `int()` skips, which excludes U+001C to U+001F: none left at either end, and a space-free input is unchanged |
| PyInt.IntStripIsPyStrip | orders/views.py:89 | without U+001C to U+001F in the text, `int()` and `strip()` remove the same white space |
| PyInt.SeparatorFailsInt | orders/views.py:89 | `strip()` removes a leading U+001C, but `int()` raises on it |
| PyInt.ParseInt | orders/views.py:89 | a value only for text that is non-blank once `int()`'s white space is removed, and only one whose spelling stays within the 4300-digit limit |
| PyInt.DigitStringLimit | orders/views.py:89 | a plain run of digits is read iff it has at most 4300 of them, and then as its value |
| PyInt.ParseIntOfIntToString | orders/views.py:89 | `int(str(n)) == n` exactly when `str(n)` has at most 4300 digits; past that `int()` raises |
| PyDecimal.ParseDecimal | orders/views.py:105-106 | a value only for non-blank text, negative only with a leading minus |
| PyDecimal.ParseMantissa | orders/views.py:105-106 | a non-negative value scaled down by no more places than the text has characters |
| PyDecimal.PointedDigitsMeaning | orders/views.py:105-106 | `<whole>.<fraction>` in digits reads as all its digits scaled down by the fraction's length |
| PyDecimal.IntSpellingIsDecimal | orders/views.py:105-108 | what `str(n)` writes, `Decimal()` reads back as the integer `n` |
| PyDecimal.RoundHalfEven | orders/models.py:46-47 | the quotient rounded to within half a unit, a tie going to the even quotient |
| PyDecimal.IntegerFitsColumn | orders/models.py:33-35 | an integer fits a column iff its magnitude is below 10^(max_digits − decimal_places) |
| PyDecimal.PointedFits | orders/models.py:46-47 | `<whole>.<fraction>` with at most `decimal_places` fraction digits always reads, and fits iff its whole part is below 10^(max_digits − decimal_places) |
| Orders.AmountFitsBelow | orders/models.py:33-35 | a money column holds exactly the amounts strictly between −10^8 and 10^8 |
| Orders.StoredCoordinate | orders/views.py:105-106 | NULL exactly for an absent or empty field; otherwise the value at six decimal places with at most nine digits |
| Admin.SendNotification | orders/admin.py:66-101 | disabled SMS reports success; otherwise success iff a client exists and accepts |
| Admin.Recipient | orders/admin.py:83 | the SMS goes to the normalised number, which starts with `+` and is already normal |
| Admin.CountTrue | orders/admin.py:305-308 | the number of successes is at most the number of attempts |
| Admin.MarkAs | orders/admin.py:292-380 | every selected order gets the target status whatever its status and the SMS outcome; others unchanged; updated = selection size = sent + failed |
| Admin.MarkAsProcessing | orders/admin.py:286-290 | exactly the selected orders become processing, and the count is their number |
| Admin.ReportSegments | orders/admin.py:310-319 | the report starts with the count, has a sent segment iff SMS is on, a failed segment iff SMS is on and something failed, the disabled suffix iff SMS is off |
| Admin.Render | orders/admin.py:311-319 | the message starts with its first segment |
| Admin.ReportStartsWithCount | orders/admin.py:311 | the message starts with the number of orders updated |
| CheckoutPage.Lookup | static/JS/checkout.js:90 | the table's own entry for that wilaya, none exactly when no entry names it |
| CheckoutPage.RatesFor | static/JS/checkout.js:90 | an unknown wilaya gets 800/800, a listed one its entry |
| CheckoutPage.ClientRatesStopNotAboveHome | static/JS/checkout.js:2-59 | no entry quotes stop above home |
| CheckoutPage.ClientRatesModest | static/JS/checkout.js:2-59 | every entry's prices lie in 0..9999 dinars |
| CheckoutPage.RatesWithinDigitLimit | static/JS/checkout.js:90 | every price the page can quote is short enough for the server's `int()` to read |
| CheckoutPage.SavingNeverNegative | static/JS/checkout.js:94 | the "Save" figure is never negative for the rates `RatesFor` gives |
| CheckoutPage.LookupAppend | static/JS/checkout.js:90 | lookup in two tables end to end prefers the first |
| CheckoutPage.ClientRatesForSetif | static/JS/checkout.js:2-59 | the page quotes Sétif at 800/500 |
| CheckoutPage.TariffLacksSetif | orders/management/commands/populate_rates.py:8-65 | the server tariff has no "Sétif" line |
| CheckoutPage.TariffListsSetif | orders/management/commands/populate_rates.py:8-65 | the server tariff lists "Setif" |
| CheckoutPage.SetifSpelledDifferently | static/JS/checkout.js:2-59 | the page's Sétif rates have no row under that spelling in the seeded server table |
| CheckoutPage.InWilaya | static/JS/checkout.js:234 | exactly the desks of that wilaya |
| CheckoutPage.ClientFilterIsGetByWilaya | static/JS/checkout.js:234 | filtering the active desks by wilaya on the page gives exactly `get_by_wilaya` |
| CheckoutPage.LoadStopDesks | static/JS/checkout.js:225-273 | markers for exactly the wilaya's desks, the alert iff there are none, nothing else changes |
| CheckoutPage.ShowPrices | static/JS/checkout.js:90-109 | labels show home, stop and their difference; the shown and submitted cost is stop iff `stop_desk`; the server reads the field back as that cost whenever its spelling is within the digit limit; grand total = subtotal + cost |
| CheckoutPage.UpdateShippingCost | static/JS/checkout.js:79-105 | no wilaya: only the prompts change; otherwise the prices for the wilaya's rates, with a non-negative saving |
| CheckoutPage.SelectStopDesk | static/JS/checkout.js:276-315 | an unknown id changes nothing; a known one sets the card to the desk and the hidden field to its id, which `int()` reads back as the id within the digit limit |
| CheckoutPage.SubmitBlocked | static/JS/checkout.js:318-328 | blocked iff `stop_desk` with an empty desk id |
| CheckoutPage.PickedDeskReachesOrder | static/JS/checkout.js:276-328 | a desk picked on the map, with an id `int()` can read, unblocks submission and is the desk `place_order` attaches |
| CheckoutPage.ChargeMatchesShownPrices | static/JS/checkout.js:96-109 | for prices within the digit limit, the total the server charges equals the grand total the page showed |
| CheckoutPage.DisplayedTotalIsCharged | static/JS/checkout.js:79-109 | for any chosen wilaya priced by `RatesFor` the charged total equals the displayed one |
| CartPage.Increase | static/JS/cart.js:2-10 | +1 and the update button shows below 99, no change otherwise; 1..99 is kept |
| CartPage.Decrease | static/JS/cart.js:12-20 | -1 and the update button shows above 1, no change otherwise; 1..99 is kept |
| CartPage.IncreaseThenDecrease | static/JS/cart.js:2-20 | below 99, + then - restores the quantity |
| CartPage.PressesStayInBounds | static/JS/cart.js:6-19 | any sequence of presses keeps the input in 1..99 |
| CartPage.MatchAtIsOccurs | static/JS/cart.js:221 | the scanner captures `d` at `i` iff `/d/` occurs there with a maximal digit run |
| CartPage.FindFromFirst | static/JS/cart.js:221 | the scan answers the match at the first position with one |
| CartPage.FindFromMeaning | static/JS/cart.js:221 | the scan's answer is the leftmost `/digits/` of the action, none iff there is none |
| CartPage.ExtractItemId | static/JS/cart.js:218-222 | the digits of the leftmost `/digits/`, or no match |
| CartPage.ExtractsRenderedId | static/JS/cart.js:218-222 | an update URL `<path>/<id>/…` gives back the id's digits, read back as the id itself within the digit limit |
| CartPage.UpdateHidden | static/JS/cart.js:224-228 | only an existing hidden input gets the value |
| CartPage.MobileStep | static/JS/cart.js:187-207 | a card without `/digits/` fails before the bound check; otherwise the step stays in 1..99 and mirrors into the hidden input |
| CartPage.SubtotalIgnoresPartialRows | static/JS/cart.js:47-56 | a row missing a cell leaves the subtotal alone |
| CartPage.Render | cart/views.py:35-45 | one page row per cart line, with its price and quantity |
| CartPage.SummaryMatchesServerTotal | static/JS/cart.js:43-63 | on a fresh page the script's subtotal equals the server's cart total |
| CartPage.CheckEmptyCart | static/JS/cart.js:90-109 | the message replaces the content only when a table body exists and has no rows |
| CartPage.LeaveWarning | static/JS/cart.js:172-185 | as written: a warning only with rows in the table, and then iff some table update button shows; the mobile cards are never read |
| CartPage.FreshPageLeavesQuietly | static/JS/cart.js:172-185 | a freshly rendered cart, whose update buttons the template hides inline, lets the user leave |
| CartPage.PressThenLeaveWarns | static/JS/cart.js:2-20 | a table press that changed a quantity makes leaving warn |
| CartPage.LeaveWarningAllButtons | static/JS/cart.js:172-185 | the corrected guard warns whenever the written one does, and also, with rows, when a mobile card's update button shows; with no card showing the two agree |
| CartPage.MobilePressLeavesQuietly | static/JS/cart.js:187-216 | as written, a mobile press that changed a quantity shows the card's update button, yet with the table's buttons hidden leaving does not warn |
| CartPage.MobilePressWarns | static/JS/cart.js:187-216 | with the corrected guard the same mobile press makes leaving warn |
| InvoicePage.HashMatchAtIsOccurs | static/JS/admin_invoice.js:93 | the scanner captures `d` at `i` iff `#d` occurs there with a maximal digit run |
| InvoicePage.HashFindFrom | static/JS/admin_invoice.js:93 | the scan answers the match at the first position with one |
| InvoicePage.HashFindMeaning | static/JS/admin_invoice.js:93 | the answer is the digits of the leftmost `#digits`, none iff there is none |
| InvoicePage.GetOrderIdFromPage | static/JS/admin_invoice.js:90-95 | no header gives none; otherwise the digits of the leftmost `#digits`, none iff there is none |
| InvoicePage.ReadsRenderedOrderNumber | static/JS/admin_invoice.js:90-95 | a header `<title> #<n>…` yields the digits of `n`, read back as `n` within the digit limit |
| InvoicePage.InvoiceUrl | static/JS/admin_invoice.js:32 | the link is `/orders/print/`, the id, `/` |
| InvoicePage.AddViewInvoiceButton | static/JS/admin_invoice.js:10-56 | no container or no id leaves the page alone; otherwise one new-tab link more, second when there was a first, only link otherwise |
| InvoicePage.StaffPageLinksToOrder | static/JS/admin_invoice.js:1-8 | on a staff page for order n the second button links to `/orders/print/n/` |
| InvoicePage.OnLoadNotIdempotent | static/JS/admin_invoice.js:1-8 | running the handler twice adds two links |
| RegisterPage.JsLength | static/JS/register.js:12 | at least the character count, equal to it inside the Basic Multilingual Plane |
| RegisterPage.JsTrim | static/JS/register.js:120 | no white space left at either end |
| RegisterPage.StrengthBarAsWritten | static/JS/register.js:10-27 | length 0 gives 0%, 1..4 gives 33%, above 8 gives 100%, 5..8 keeps the previous bar |
| RegisterPage.StrengthBar | static/JS/register.js:16-25 | the corrected bar never shows strong below 8 and agrees with the written bar outside 5..8 |
| RegisterPage.StrengthBarIgnoresHistory | static/JS/register.js:16-25 | the corrected bar depends on the password alone and is medium for 5..8 |
| RegisterPage.StaleStrongBar | static/JS/register.js:16-25 | typing nine characters and deleting to five leaves the strong bar on a password the submit check rejects |
| RegisterPage.NoStaleStrongBar | static/JS/register.js:16-25 | with the corrected bar the same keystrokes end on the medium bar |
| RegisterPage.SubmitErrors | static/JS/register.js:104-133 | each failing check is reported, in order: mismatch, invalid phone, too short |
| RegisterPage.SubmitBlocked | static/JS/register.js:134-136 | blocked iff passwords differ, the phone is invalid or the password is shorter than 8 |
| RegisterPage.SubmittedFormPassesServerChecks | static/JS/register.js:104-154 | a form the page lets through passes the server's password comparison, and its phone normalises to the international form the SMS is sent to |
| RegisterPage.TrimKeepsValidity | static/JS/register.js:120 | trimming first does not change the phone verdict |
| RegisterPage.KeepDigits | static/JS/register.js:158 | only digits remain |
| RegisterPage.Kept | static/JS/register.js:161-179 | the digits the grouping keeps are a prefix of the input |
| RegisterPage.FormatPhoneInput | static/JS/register.js:157-182 | the formatted field's digits are the kept prefix of the typed digits |
| RegisterPage.FormatIdempotent | static/JS/register.js:157-182 | formatting the formatted value changes nothing |
| RegisterPage.KeepDigitsOfFormatted | static/JS/register.js:161-181 | the digits of a formatted value are the ones it kept |
| RegisterPage.KeptGroupsAlike | static/JS/register.js:161-179 | grouping the kept digits is grouping the digits |
| RegisterPage.FormattedLocalStaysValid | static/JS/register.js:170-178 | a valid local number stays valid after formatting |
| RegisterPage.InternationalStripped | static/JS/register.js:161-169 | the grouped international form strips to `+213` and nine digits |
| RegisterPage.FormattedInternationalStaysValid | static/JS/register.js:161-169 | a number typed with the country code formats into a valid international number |

## Left out

- Twilio client construction and sending (orders/admin.py:42-64, users/views.py:31-69) are foreign calls. Their results are oracle booleans.
- Django ORM persistence, `get_object_or_404` as an exception, redirects, flash messages, templates, invoice printing, login and logout are framework plumbing. Only the resulting state and outcome are modelled.
- Cache TTL timing: there is no clock, so expiry is arbitrary eviction.
- Transactions and concurrent requests: the code has none, and each operation is one state transition.
- Maps, geolocation, reverse geocoding, marker icons, toasts, CSS injection, `addViewInvoiceButtonCSS`, `confirmRemove`, the `updateCartItem` loading state, `handleDeliveryChange`'s field toggling, the blur and real-time validation handlers and `updateSubmitButton`: these are display only.
- Fractional dinars: prices and rates are whole dinars, so the page's `parseFloat` and the cents of the money columns are not modelled.
- Unicode digits accepted by Python's `int()` and `Decimal()`, and the underscores `Decimal()` accepts between digits: only ASCII digits are read.
- `Decimal()`'s NaN and infinities: they are read as rejections, as Django's field refuses them too.
- The digit limit is CPython's default of 4300; `sys.set_int_max_str_digits` can change it.
- PyInt.IntToString: spells every integer, although `str()` also raises past 4300 digits. No modelled path writes such an integer.
- Text column lengths: whether an over-long text fails the insert depends on the database behind `DATABASE_URL`. The model assumes one that enforces `max_length`.
- Orders.StoredCoordinate: states the rounding Django applies before the insert, not any rounding the database applies afterwards.
- A required POST text field that is absent: form fields are strings.
- StopDesks.GetByWilaya: keeps the desks in id order, while `Meta.ordering` (orders/models.py:139) makes the database return them by wilaya, city, then name.
- StopDesks.ActiveDesks: keeps the desks in id order, while the checkout page receives them by wilaya, city, then name.
- Accounts.Verify: does not model a failure of `UserProfile.objects.create` after the user row exists; users/models.py is not part of this model.
- `__str__` methods, the other models' Meta ordering, admin list configuration and message texts other than the bulk-action report: no behaviour.
- `profile`'s superuser redirect and profile update: outside the order and registration logic.
- CartPage.MobileStep: does not model the thrown exception's message, only that the step fails.
- Orders.CalculateShipping: states the table price only for a coherent cache and the two real delivery types. Otherwise it is whatever the cache holds.
- Shipping.GetShippingCost: the cache's value type is not checked; a cached value is returned as is.
- CheckoutPage.RatesFor: a wilaya named like an `Object.prototype` member (`constructor`, `toString`, `__proto__`, …) is priced 800/800, while the page's lookup finds the inherited member and shows `undefined` prices. The model assumes the wilaya select offers only real wilaya names.
- CheckoutPage.Lookup: answers only the table's own entries, not the names inherited from `Object.prototype`.
- CheckoutPage.SavingNeverNegative: holds for the model's rates only; for an inherited name the page shows a NaN saving.
- CheckoutPage.UpdateShippingCost: for an inherited name the page shows `undefined` prices, a NaN saving and a NaN total, which the model does not represent.
- CheckoutPage.DisplayedTotalIsCharged: does not cover an inherited name, where the page shows NaN and submits "undefined", which makes the server raise `TypeError`.
- Shipping.GetShippingCost: the fallback for a missing row is the float `400.00` in the source and the integer 400 in the model.
- Admin.Render: states only the message's start, not its full text.

## Findings

| source | as written | input that shows it | evidently intended | confidence | as-written member | corrected member |
|---|---|---|---|---|---|---|
| orders/views.py:88-93 | when `int()` rejects the shipping cost, the fallback is the float `800.00`, and `subtotal + shipping_cost` (a `Decimal` plus a `float`) raises `TypeError`, so the request fails | `shipping_cost = "free"` over a non-empty cart | fall back to 800 and place the order | not executed | Orders.PlaceOrderAsWritten, OrderExamples.UnparseableShippingFailsAsWritten | Orders.PlaceOrder, OrderExamples.UnparseableShippingFallsBack |
| static/JS/register.js:16-25 | lengths 5 to 8 match no branch, so the bar keeps its previous width and colour | type "abcdefghi" then delete back to "abcde": the bar stays at 100% green on a password the submit check rejects as too short | a middle band for 5 to 8 characters, so the bar depends on the current password only | not executed | RegisterPage.StrengthBarAsWritten, RegisterPage.StaleStrongBar | RegisterPage.StrengthBar, RegisterPage.StrengthBarIgnoresHistory, RegisterPage.NoStaleStrongBar |
| static/JS/cart.js:172-185 | the `beforeunload` guard reads only the table's `.btn-update` buttons, so a quantity changed with a mobile card's +/- buttons, which shows that card's update button, is not an unsaved change to it | a rendered cart whose table update buttons are all hidden, then one mobile + or - press that changes a quantity, then leaving the page: no warning | warn whenever any update button, table or mobile, shows | not executed | CartPage.LeaveWarning, CartPage.MobilePressLeavesQuietly | CartPage.LeaveWarningAllButtons, CartPage.MobilePressWarns |

=== FILE: accounts.dfy ===
/**
 * Registration by SMS code and the wishlist. Registration is a small session
 * state machine: `register` validates the form and stashes the pending
 * account with a six-digit code in the session; `verify` creates the account
 * when the submitted code matches. The random code and the SMS service are
 * oracles passed in.
 */
module Accounts {
  import opened Wrappers
  import opened PyInt
  import opened Catalog

  type Username = string

  /** A user together with the profile created alongside it. */
  datatype Account = Account(password: string, firstName: string, lastName: string, phone: string, address: string)

  /** The session's `reg_data`: the pending account and the code sent to its phone. */
  datatype RegData = RegData(
    username: Username, firstName: string, lastName: string, phone: string, address: string,
    password: string, verificationCode: string)

  datatype AuthState = AuthState(accounts: map<Username, Account>, session: Option<RegData>)

  datatype RegisterForm = RegisterForm(
    username: Username, firstName: string, lastName: string, phone: string, address: string,
    password1: string, password2: string)

  const CodeLow: int := 100000
  const CodeHigh: int := 999999

  datatype RegisterOutcome = RegisterPage | PasswordMismatch | UsernameTaken | CodeSent | SmsFailed

  /**
   * `register`. `code` is the value `random.randint(100000, 999999)` drew and
   * `smsDelivered` whether `send_verification_sms` returned instead of raising.
   */
  function Register(st: AuthState, isPost: bool, form: RegisterForm, code: int, smsDelivered: bool): (r: (AuthState, RegisterOutcome))
    requires CodeLow <= code <= CodeHigh
    ensures !isPost ==> r == (st, RegisterPage)
    // The password check comes first, then the username check; both leave the state as it was.
    ensures isPost && form.password1 != form.password2 ==> r == (st, PasswordMismatch)
    ensures isPost && form.password1 == form.password2 && form.username in st.accounts ==> r == (st, UsernameTaken)
    ensures r.1 == CodeSent || r.1 == SmsFailed <==>
      isPost && form.password1 == form.password2 && form.username !in st.accounts
    // The pending account is stored before the SMS attempt, so it is there whether or not the SMS went out.
    ensures r.1 == CodeSent || r.1 == SmsFailed ==>
      && r.0.accounts == st.accounts
      && r.0.session.Some?
      && r.0.session.value.username == form.username
      && r.0.session.value.password == form.password1
      && |r.0.session.value.verificationCode| == 6
      && AllDigits(r.0.session.value.verificationCode)
      && ParseInt(r.0.session.value.verificationCode) == Some(code)
    ensures r.1 == CodeSent ==> smsDelivered
    ensures r.1 == SmsFailed ==> !smsDelivered
  {
    if !isPost then (st, RegisterPage)
    else if form.password1 != form.password2 then (st, PasswordMismatch)
    else if form.username in st.accounts then (st, UsernameTaken)
    else
      var spelled := IntToString(code);
      SixDigitSpelling(code);
      ParseIntOfIntToString(code);
      var reg := RegData(form.username, form.firstName, form.lastName, form.phone, form.address, form.password1, spelled);
      (st.(session := Some(reg)), if smsDelivered then CodeSent else SmsFailed)
  }

  datatype VerifyOutcome = NoRegistration | VerifyPage | Verified | WrongCode | CreationFailed

  /** The `max_length` of the user table's `username`, `first_name` and `last_name` columns. */
  const NameLength: nat := 150

  /**
   * Whether `User.objects.create_user` can insert the pending account. It
   * refuses an empty username, then stores the name as `normalize_username`
   * rewrites it (Unicode NFKC, passed in as `nfkc`). The insert fails when
   * that name is taken or a name overflows its column.
   */
  predicate CanCreate(st: AuthState, reg: RegData, nfkc: Username -> Username) {
    && reg.username != ""
    && nfkc(reg.username) !in st.accounts
    && |nfkc(reg.username)| <= NameLength
    && |reg.firstName| <= NameLength && |reg.lastName| <= NameLength
  }

  /**
   * `verify`: without a pending registration nothing happens; a POST whose
   * code equals the stored one creates the account under the normalised
   * name and ends the pending registration; a wrong code keeps it for
   * another try, and so does a failed insert.
   */
  function Verify(st: AuthState, isPost: bool, submitted: Option<string>, nfkc: Username -> Username): (r: (AuthState, VerifyOutcome))
    ensures st.session.None? ==> r == (st, NoRegistration)
    ensures r.1 != Verified ==> r.0 == st
    ensures r.1 == Verified <==>
      isPost && st.session.Some? && submitted == Some(st.session.value.verificationCode)
      && CanCreate(st, st.session.value, nfkc)
    ensures r.1 == CreationFailed <==>
      isPost && st.session.Some? && submitted == Some(st.session.value.verificationCode)
      && !CanCreate(st, st.session.value, nfkc)
    ensures r.1 == Verified ==>
      var reg := st.session.value;
      && r.0.session.None?
      && r.0.accounts == st.accounts[nfkc(reg.username) := Account(reg.password, reg.firstName, reg.lastName, reg.phone, reg.address)]
      && nfkc(reg.username) !in st.accounts
    ensures r.1 == WrongCode <==>
      isPost && st.session.Some? && submitted != Some(st.session.value.verificationCode)
  {
    match st.session
    case None => (st, NoRegistration)
    case Some(reg) =>
      if !isPost then (st, VerifyPage)
      else if submitted == Some(reg.verificationCode) then
        if CanCreate(st, reg, nfkc) then
          var account := Account(reg.password, reg.firstName, reg.lastName, reg.phone, reg.address);
          (AuthState(st.accounts[nfkc(reg.username) := account], None), Verified)
        else (st, CreationFailed)
      else (st, WrongCode)
  }

  /**
   * Registering a username whose normal form is free, with names that fit
   * their columns, and then entering the code that was sent creates exactly
   * that account, under the normal form, with the form's details and password.
   */
  lemma RegisterThenVerify(st: AuthState, form: RegisterForm, code: int, smsDelivered: bool, nfkc: Username -> Username)
    requires CodeLow <= code <= CodeHigh
    requires form.password1 == form.password2
    requires form.username != "" && form.username !in st.accounts && nfkc(form.username) !in st.accounts
    requires |nfkc(form.username)| <= NameLength && |form.firstName| <= NameLength && |form.lastName| <= NameLength
    ensures var (afterRegister, _) := Register(st, true, form, code, smsDelivered);
      var (afterVerify, outcome) := Verify(afterRegister, true, Some(IntToString(code)), nfkc);
      && outcome == Verified
      && afterVerify.session.None?
      && afterVerify.accounts == st.accounts[nfkc(form.username) :=
           Account(form.password1, form.firstName, form.lastName, form.phone, form.address)]
  {
  }

  /**
   * `register` checks the name as typed, `create_user` its normal form: a
   * name that only normalises to a taken one gets its code sent, and
   * entering that code then fails to create the account and keeps the
   * registration pending.
   */
  lemma LookalikeNameFailsAtVerify(st: AuthState, form: RegisterForm, code: int, smsDelivered: bool, nfkc: Username -> Username)
    requires CodeLow <= code <= CodeHigh
    requires form.password1 == form.password2
    requires form.username !in st.accounts && nfkc(form.username) in st.accounts
    ensures var (afterRegister, outcome) := Register(st, true, form, code, smsDelivered);
      && (outcome == CodeSent || outcome == SmsFailed)
      && Verify(afterRegister, true, Some(IntToString(code)), nfkc) == (afterRegister, CreationFailed)
  {
  }

  /** Entering any other text than the code that was sent never creates an account. */
  lemma OnlyTheSentCodeVerifies(st: AuthState, form: RegisterForm, code: int, smsDelivered: bool, typed: string, nfkc: Username -> Username)
    requires CodeLow <= code <= CodeHigh
    requires form.password1 == form.password2 && form.username !in st.accounts
    requires typed != IntToString(code)
    ensures var (afterRegister, _) := Register(st, true, form, code, smsDelivered);
      Verify(afterRegister, true, Some(typed), nfkc) == (afterRegister, WrongCode)
  {
  }

  // ---------------------------------------------------------------------------
  // Wishlist
  // ---------------------------------------------------------------------------

  /** A `Wishlist` row. */
  datatype WishEntry = WishEntry(id: nat, user: Username, product: ProductId)

  datatype Wishlist = Wishlist(entries: seq<WishEntry>, nextId: nat)

  /** The `unique_together` (user, product) constraint, plus ids below the next one. */
  predicate ValidWishlist(w: Wishlist) {
    (forall i :: 0 <= i < |w.entries| ==> w.entries[i].id < w.nextId)
    && (forall i, j :: 0 <= i < j < |w.entries| ==>
          w.entries[i].id != w.entries[j].id
          && (w.entries[i].user, w.entries[i].product) != (w.entries[j].user, w.entries[j].product))
  }

  predicate Wished(w: Wishlist, user: Username, product: ProductId) {
    exists i :: 0 <= i < |w.entries| && w.entries[i].user == user && w.entries[i].product == product
  }

  datatype WishOutcome = WishNotFound | WishDone(wishlist: Wishlist, created: bool)

  function HasEntry(entries: seq<WishEntry>, user: Username, product: ProductId): (b: bool)
    ensures b <==> exists i :: 0 <= i < |entries| && entries[i].user == user && entries[i].product == product
    decreases |entries|
  {
    if |entries| == 0 then false
    else if entries[0].user == user && entries[0].product == product then true
    else
      var b := HasEntry(entries[1..], user, product);
      assert b ==> exists i :: 0 <= i < |entries| && entries[i].user == user && entries[i].product == product by {
        if b {
          var k :| 0 <= k < |entries[1..]| && entries[1..][k].user == user && entries[1..][k].product == product;
          assert entries[k + 1] == entries[1..][k];
        }
      }
      assert (exists i :: 0 <= i < |entries| && entries[i].user == user && entries[i].product == product) ==> b by {
        if exists i :: 0 <= i < |entries| && entries[i].user == user && entries[i].product == product {
          var k :| 0 <= k < |entries| && entries[k].user == user && entries[k].product == product;
          assert k != 0;
          assert entries[1..][k - 1] == entries[k];
        }
      }
      b
  }

  /** `add_to_wishlist`: `get_or_create` on (user, product) for a product that exists. */
  function AddToWishlist(catalog: Catalog, w: Wishlist, user: Username, product: ProductId): (r: WishOutcome)
    ensures product !in catalog <==> r.WishNotFound?
    ensures r.WishDone? ==> Wished(r.wishlist, user, product)
    ensures r.WishDone? ==> (r.created <==> !Wished(w, user, product))
    ensures r.WishDone? && !r.created ==> r.wishlist == w
    ensures r.WishDone? && r.created ==> r.wishlist.entries == w.entries + [WishEntry(w.nextId, user, product)]
    ensures r.WishDone? ==> ValidWishlist(w) ==> ValidWishlist(r.wishlist)
  {
    if product !in catalog then WishNotFound
    else if HasEntry(w.entries, user, product) then WishDone(w, false)
    else
      var e := WishEntry(w.nextId, user, product);
      var nw := Wishlist(w.entries + [e], w.nextId + 1);
      assert nw.entries[|w.entries|] == e;
      WishDone(nw, true)
  }

  /** A second add of the same product changes nothing. */
  lemma AddToWishlistIdempotent(catalog: Catalog, w: Wishlist, user: Username, product: ProductId)
    requires product in catalog
    ensures var once := AddToWishlist(catalog, w, user, product).wishlist;
      AddToWishlist(catalog, once, user, product) == WishDone(once, false)
  {
  }

  /** The entry `get_object_or_404(Wishlist, id=…, user=…)` looks for. */
  predicate Owned(e: WishEntry, user: Username, entryId: nat) {
    e.id == entryId && e.user == user
  }

  /** The position of the first entry with that id and owner, or `|entries|` when there is none. */
  function FindEntry(entries: seq<WishEntry>, user: Username, entryId: nat): (k: nat)
    ensures k <= |entries|
    ensures k < |entries| ==> Owned(entries[k], user, entryId)
    ensures forall j :: 0 <= j < k ==> !Owned(entries[j], user, entryId)
    decreases |entries|
  {
    if |entries| == 0 then 0
    else if Owned(entries[0], user, entryId) then 0
    else 1 + FindEntry(entries[1..], user, entryId)
  }

  /** Deleting one row from a valid wishlist keeps it valid. */
  lemma DeleteKeepsValid(w: Wishlist, k: nat)
    requires k < |w.entries|
    ensures ValidWishlist(w) ==> ValidWishlist(w.(entries := w.entries[..k] + w.entries[k + 1..]))
  {
    var rest := w.entries[..k] + w.entries[k + 1..];
    forall i | 0 <= i < |rest| ensures rest[i] == w.entries[if i < k then i else i + 1] {
    }
  }

  /**
   * In a valid wishlist, deleting the row found for an id and owner deletes
   * exactly the rows with that id and owner: ids are unique, so there is one.
   */
  lemma DeleteRemovesOwned(w: Wishlist, k: nat, user: Username, entryId: nat)
    requires k < |w.entries| && Owned(w.entries[k], user, entryId)
    ensures var rest := w.entries[..k] + w.entries[k + 1..];
      && (forall e :: e in rest ==> e in w.entries)
      && (forall e :: e in w.entries && e.user != user ==> e in rest)
      && (ValidWishlist(w) ==> forall e :: e in w.entries ==> (e in rest <==> !Owned(e, user, entryId)))
  {
    var rest := w.entries[..k] + w.entries[k + 1..];
    assert forall i :: 0 <= i < |rest| ==> rest[i] == w.entries[if i < k then i else i + 1];
    forall e | e in w.entries && !Owned(e, user, entryId) ensures e in rest {
      var i :| 0 <= i < |w.entries| && w.entries[i] == e;
      assert rest[if i < k then i else i - 1] == e;
    }
    if ValidWishlist(w) {
      forall e | e in rest ensures !Owned(e, user, entryId) {
        var i :| 0 <= i < |rest| && rest[i] == e;
      }
    }
  }

  /** `remove_from_wishlist`: delete the entry with that id, only if it is the requesting user's. */
  function RemoveFromWishlist(w: Wishlist, user: Username, entryId: nat): (r: WishOutcome)
    ensures r.WishNotFound? <==>
      forall i :: 0 <= i < |w.entries| ==> w.entries[i].id != entryId || w.entries[i].user != user
    ensures r.WishDone? ==> !r.created && r.wishlist.nextId == w.nextId
    ensures r.WishDone? ==> |r.wishlist.entries| == |w.entries| - 1
    // Every other entry stays, in order; in particular every other user's entries.
    ensures r.WishDone? ==> forall e :: e in r.wishlist.entries ==> e in w.entries
    ensures r.WishDone? ==> forall e :: e in w.entries && e.user != user ==> e in r.wishlist.entries
    ensures r.WishDone? && ValidWishlist(w) ==> ValidWishlist(r.wishlist)
    // The entry removed is the one with that id and owner, and only it.
    ensures r.WishDone? && ValidWishlist(w) ==>
      forall e :: e in w.entries ==> (e in r.wishlist.entries <==> !(e.id == entryId && e.user == user))
  {
    var k := FindEntry(w.entries, user, entryId);
    if k == |w.entries| then WishNotFound
    else
      DeleteKeepsValid(w, k);
      DeleteRemovesOwned(w, k, user, entryId);
      WishDone(w.(entries := w.entries[..k] + w.entries[k + 1..]), false)
  }
}

=== FILE: admin.dfy ===
/**
 * The order admin's bulk status actions and the SMS notifications they send.
 * The SMS service is an oracle: whether SMS is enabled in the settings, and
 * for each attempt whether a client was created and accepted the message.
 */
module Admin {
  import opened PyInt
  import opened Orders
  import Phone

  /**
   * `send_order_shipped` / `_cancelled` / `_delivered`: with SMS disabled the
   * call reports success without contacting anyone; otherwise it succeeds
   * exactly when a client exists and accepts the message.
   */
  function SendNotification(smsEnabled: bool, clientCreated: bool, accepted: bool): (ok: bool)
    ensures !smsEnabled ==> ok
    ensures smsEnabled && !clientCreated ==> !ok
    ensures smsEnabled ==> (ok <==> clientCreated && accepted)
  {
    if !smsEnabled then true
    else if !clientCreated then false
    else accepted
  }

  /** The number the SMS goes to: the order's phone, normalised to `+213…` form. */
  function Recipient(phone: string): (to: string)
    ensures |to| > 0 && to[0] == '+'
    ensures Phone.CleanPhoneNumber(to) == to
  {
    Phone.CleanPhoneNumberIdempotent(phone);
    Phone.CleanPhoneNumber(phone)
  }

  /** How many attempts went through. */
  function CountTrue(attempts: seq<bool>): (n: nat)
    ensures n <= |attempts|
    decreases |attempts|
  {
    if |attempts| == 0 then 0 else (if attempts[0] then 1 else 0) + CountTrue(attempts[1..])
  }

  lemma {:induction false} CountTrueAppend(attempts: seq<bool>, b: bool)
    ensures CountTrue(attempts + [b]) == CountTrue(attempts) + (if b then 1 else 0)
    decreases |attempts|
  {
    if |attempts| > 0 {
      assert (attempts + [b])[1..] == attempts[1..] + [b];
      CountTrueAppend(attempts[1..], b);
    }
  }

  /** The selected rows: distinct positions in the order table. */
  predicate ValidSelection(orders: seq<Order>, selection: seq<nat>) {
    (forall i :: 0 <= i < |selection| ==> selection[i] < |orders|)
    && (forall i, j :: 0 <= i < j < |selection| ==> selection[i] != selection[j])
  }

  /**
   * `mark_as_shipped` / `mark_as_delivered` / `mark_as_cancelled`: every
   * selected order gets the target status whatever its current status and
   * whatever the SMS outcome; `attempts[i]` says whether a client was created
   * and accepted the message for the i-th selected order.
   */
  method MarkAs(orders: seq<Order>, selection: seq<nat>, target: Status, smsEnabled: bool, attempts: seq<bool>)
    returns (result: seq<Order>, updated: nat, smsSent: nat, smsFailed: nat)
    requires ValidSelection(orders, selection)
    requires |attempts| == |selection|
    ensures |result| == |orders|
    ensures forall i :: 0 <= i < |selection| ==> result[selection[i]] == orders[selection[i]].(status := target)
    ensures forall k :: 0 <= k < |orders| && k !in selection ==> result[k] == orders[k]
    ensures updated == |selection|
    ensures smsSent + smsFailed == updated
    ensures !smsEnabled ==> smsSent == updated && smsFailed == 0
    ensures smsEnabled ==> smsSent == CountTrue(attempts)
  {
    result, updated, smsSent, smsFailed := orders, 0, 0, 0;
    var i := 0;
    while i < |selection|
      invariant 0 <= i <= |selection|
      invariant |result| == |orders|
      invariant forall j :: 0 <= j < i ==> result[selection[j]] == orders[selection[j]].(status := target)
      invariant forall k :: 0 <= k < |orders| && k !in selection[..i] ==> result[k] == orders[k]
      invariant updated == i && smsSent + smsFailed == i
      invariant !smsEnabled ==> smsSent == i && smsFailed == 0
      invariant smsEnabled ==> smsSent == CountTrue(attempts[..i])
    {
      var k := selection[i];
      result := result[k := result[k].(status := target)];
      updated := updated + 1;
      if SendNotification(smsEnabled, attempts[i], attempts[i]) {
        smsSent := smsSent + 1;
      } else {
        smsFailed := smsFailed + 1;
      }
      assert attempts[..i + 1] == attempts[..i] + [attempts[i]];
      CountTrueAppend(attempts[..i], attempts[i]);
      assert selection[..i + 1] == selection[..i] + [k];
      i := i + 1;
    }
    assert selection[..i] == selection;
    assert attempts[..i] == attempts;
  }

  /** `mark_as_processing`: one bulk update, no SMS; the count is the number of rows updated. */
  function MarkAsProcessing(orders: seq<Order>, selection: set<nat>): (r: (seq<Order>, nat))
    requires forall k :: k in selection ==> k < |orders|
    ensures |r.0| == |orders| && r.1 == |selection|
    ensures forall k :: 0 <= k < |orders| ==> r.0[k] == if k in selection then orders[k].(status := Processing) else orders[k]
  {
    (seq(|orders|, k requires 0 <= k < |orders| => if k in selection then orders[k].(status := Processing) else orders[k]),
     |selection|)
  }

  /** The segments of the admin's confirmation message, in order. */
  datatype Segment =
    | Marked(count: nat, title: string)
    | SmsSent(count: nat)
    | SmsFailed(count: nat)
    | SmsDisabled

  /** The report of a bulk action: a "failed" segment only when SMS is on and something failed. */
  function ReportSegments(updated: nat, title: string, smsEnabled: bool, sent: nat, failed: nat): (r: seq<Segment>)
    ensures |r| >= 2 && r[0] == Marked(updated, title)
    ensures SmsFailed(failed) in r <==> smsEnabled && failed > 0
    ensures SmsDisabled in r <==> !smsEnabled
    ensures SmsSent(sent) in r <==> smsEnabled
  {
    if smsEnabled then
      [Marked(updated, title), SmsSent(sent)] + (if failed > 0 then [SmsFailed(failed)] else [])
    else [Marked(updated, title), SmsDisabled]
  }

  function RenderSegment(s: Segment): string {
    match s
    case Marked(n, title) => IntToString(n) + " order(s) marked as " + title
    case SmsSent(n) => IntToString(n) + " SMS sent \U{2705}"
    case SmsFailed(n) => IntToString(n) + " SMS failed \U{274C}"
    case SmsDisabled => "SMS notifications disabled in settings"
  }

  /** The message text: the segments joined by " | ". */
  function Render(segments: seq<Segment>): (text: string)
    requires |segments| > 0
    ensures RenderSegment(segments[0]) <= text
    decreases |segments|
  {
    if |segments| == 1 then RenderSegment(segments[0])
    else RenderSegment(segments[0]) + " | " + Render(segments[1..])
  }

  const ShippedLabel: string := "Shipped \U{1F69A}"
  const DeliveredLabel: string := "Delivered \U{2705}"
  const CancelledLabel: string := "Cancelled \U{274C}"

  /** The report always begins with how many orders changed status. */
  lemma ReportStartsWithCount(updated: nat, title: string, smsEnabled: bool, sent: nat, failed: nat)
    ensures IntToString(updated) <= Render(ReportSegments(updated, title, smsEnabled, sent, failed))
  {
    var segs := ReportSegments(updated, title, smsEnabled, sent, failed);
    assert RenderSegment(segs[0]) == IntToString(updated) + (" order(s) marked as " + title);
  }
}

=== FILE: cart.dfy ===
/**
 * The shopping cart: one cart per user, one item per (cart, product), and the
 * add / update / remove / count / total operations of the cart views.
 */
module Carts {
  import opened Wrappers
  import opened PyInt
  import opened Catalog

  type UserId = nat

  /** A `CartItem` row: its id, the product it holds and how many. */
  datatype CartItem = CartItem(id: nat, product: ProductId, quantity: int)

  /**
   * Every cart's items, in row order, keyed by owner (a key present means the
   * `Cart` row exists), and the id the next new item row receives.
   */
  datatype CartStore = CartStore(carts: map<UserId, seq<CartItem>>, nextItemId: nat)

  const DefaultQuantity: int := 1

  /**
   * `quantity` is an `IntegerField`, a 32-bit signed column on a database that
   * enforces column sizes: `save()` fails for a value outside it.
   */
  const QuantityMin: int := -0x8000_0000
  const QuantityMax: int := 0x7FFF_FFFF

  predicate QuantityFits(q: int) {
    QuantityMin <= q <= QuantityMax
  }

  /** The items of a user's cart; a user without a cart row has none. */
  function Items(store: CartStore, user: UserId): seq<CartItem> {
    if user in store.carts then store.carts[user] else []
  }

  /**
   * One cart's rows: positive quantities that fit the column, known products,
   * fresh-enough ids, one row per product.
   */
  predicate ValidItems(catalog: Catalog, items: seq<CartItem>, nextItemId: nat) {
    (forall i :: 0 <= i < |items| ==>
       1 <= items[i].quantity <= QuantityMax && items[i].product in catalog && items[i].id < nextItemId)
    && (forall i, j :: 0 <= i < j < |items| ==> items[i].product != items[j].product && items[i].id != items[j].id)
  }

  predicate ValidStore(catalog: Catalog, store: CartStore) {
    forall u :: u in store.carts ==> ValidItems(catalog, store.carts[u], store.nextItemId)
  }

  // ---------------------------------------------------------------------------
  // Sums
  // ---------------------------------------------------------------------------

  /** Σ f(item) over the rows, left to right (Python's `sum(...)`, which starts from 0). */
  function Sum(items: seq<CartItem>, f: CartItem -> int): int
    decreases |items|
  {
    if |items| == 0 then 0 else f(items[0]) + Sum(items[1..], f)
  }

  lemma {:induction false} SumAppend(items: seq<CartItem>, x: CartItem, f: CartItem -> int)
    ensures Sum(items + [x], f) == Sum(items, f) + f(x)
    decreases |items|
  {
    if |items| > 0 {
      assert (items + [x])[1..] == items[1..] + [x];
      SumAppend(items[1..], x, f);
    }
  }

  lemma {:induction false} SumReplace(items: seq<CartItem>, i: nat, x: CartItem, f: CartItem -> int)
    requires i < |items|
    ensures Sum(items[i := x], f) == Sum(items, f) - f(items[i]) + f(x)
    decreases |items|
  {
    if i > 0 {
      assert items[i := x][1..] == items[1..][i - 1 := x];
      SumReplace(items[1..], i - 1, x, f);
    } else {
      assert items[i := x][1..] == items[1..];
    }
  }

  lemma {:induction false} SumRemove(items: seq<CartItem>, i: nat, f: CartItem -> int)
    requires i < |items|
    ensures Sum(items[..i] + items[i + 1..], f) == Sum(items, f) - f(items[i])
    decreases |items|
  {
    if i > 0 {
      assert (items[..i] + items[i + 1..])[1..] == items[1..][..i - 1] + items[1..][i..];
      SumRemove(items[1..], i - 1, f);
    } else {
      assert items[..i] + items[i + 1..] == items[1..];
    }
  }

  /** `CartItem.get_total_price`: quantity times the product's current price. */
  function LineTotal(catalog: Catalog, item: CartItem): int {
    if item.product in catalog then item.quantity * catalog[item.product].price else 0
  }

  /** `sum(item.quantity …)`: the cart badge count of `add_to_cart` and `get_cart_count`. */
  function CartCount(items: seq<CartItem>): int {
    Sum(items, (it: CartItem) => it.quantity)
  }

  /** `view_cart`'s total: Σ `get_total_price`, which is 0 for an empty cart. */
  function ViewTotal(catalog: Catalog, items: seq<CartItem>): int {
    Sum(items, (it: CartItem) => LineTotal(catalog, it))
  }

  /**
   * `Cart.get_total`: the database aggregate Σ quantity × price. The aggregate
   * has no default, so an empty cart gives no value at all.
   */
  function GetTotal(catalog: Catalog, items: seq<CartItem>): (r: Option<int>)
    ensures r.None? <==> |items| == 0
    decreases |items|
  {
    if |items| == 0 then None
    else
      var last := items[|items| - 1];
      Some(GetTotal(catalog, items[..|items| - 1]).GetOr(0) + LineTotal(catalog, last))
  }

  /** For a cart with items, the aggregate and the view's per-line sum agree. */
  lemma {:induction false} GetTotalIsViewTotal(catalog: Catalog, items: seq<CartItem>)
    ensures |items| > 0 ==> GetTotal(catalog, items) == Some(ViewTotal(catalog, items))
    ensures |items| == 0 ==> GetTotal(catalog, items).None? && ViewTotal(catalog, items) == 0
    decreases |items|
  {
    if |items| > 0 {
      var init := items[..|items| - 1];
      var last := items[|items| - 1];
      GetTotalIsViewTotal(catalog, init);
      assert init + [last] == items;
      SumAppend(init, last, (it: CartItem) => LineTotal(catalog, it));
    }
  }

  // ---------------------------------------------------------------------------
  // Lookups
  // ---------------------------------------------------------------------------

  /** The position of the row holding `product`, if any. */
  function FindProduct(items: seq<CartItem>, product: ProductId): (r: Option<nat>)
    ensures r.Some? ==> r.value < |items| && items[r.value].product == product
    ensures r.None? ==> forall i :: 0 <= i < |items| ==> items[i].product != product
    decreases |items|
  {
    if |items| == 0 then None
    else if items[0].product == product then Some(0)
    else match FindProduct(items[1..], product)
      case Some(i) => Some(i + 1)
      case None => None
  }

  /** The position of the row with id `itemId`, if any. */
  function FindItem(items: seq<CartItem>, itemId: nat): (r: Option<nat>)
    ensures r.Some? ==> r.value < |items| && items[r.value].id == itemId
    ensures r.None? ==> forall i :: 0 <= i < |items| ==> items[i].id != itemId
    decreases |items|
  {
    if |items| == 0 then None
    else if items[0].id == itemId then Some(0)
    else match FindItem(items[1..], itemId)
      case Some(i) => Some(i + 1)
      case None => None
  }

  // ---------------------------------------------------------------------------
  // Operations
  // ---------------------------------------------------------------------------

  /** `Cart.objects.get_or_create(user=…)`. */
  function GetOrCreateCart(store: CartStore, user: UserId): (r: CartStore)
    ensures user in r.carts && r.carts[user] == Items(store, user)
    ensures r.carts.Keys == store.carts.Keys + {user}
    ensures forall u :: u in store.carts ==> r.carts[u] == store.carts[u]
    ensures r.nextItemId == store.nextItemId
  {
    if user in store.carts then store else store.(carts := store.carts[user := []])
  }

  /** A second get-or-create finds the cart the first one made. */
  lemma GetOrCreateIdempotent(store: CartStore, user: UserId)
    ensures GetOrCreateCart(GetOrCreateCart(store, user), user) == GetOrCreateCart(store, user)
  {
  }

  /** The rows after one more of `product`: its row incremented, or a new row with the default quantity. */
  function AddLine(items: seq<CartItem>, product: ProductId, newId: nat): seq<CartItem> {
    match FindProduct(items, product)
    case Some(i) => items[i := items[i].(quantity := items[i].quantity + 1)]
    case None => items + [CartItem(newId, product, DefaultQuantity)]
  }

  /** The cart seen as a map from product to quantity: the quantity held of `product`, 0 when absent. */
  function QuantityOf(items: seq<CartItem>, product: ProductId): int {
    match FindProduct(items, product)
    case Some(i) => items[i].quantity
    case None => 0
  }

  /** Adding one of a product adds one to its quantity and leaves every other product's quantity alone. */
  lemma AddLineQuantities(items: seq<CartItem>, product: ProductId, newId: nat, other: ProductId)
    requires forall i, j :: 0 <= i < j < |items| ==> items[i].product != items[j].product
    ensures QuantityOf(AddLine(items, product, newId), product) == QuantityOf(items, product) + 1
    ensures other != product ==> QuantityOf(AddLine(items, product, newId), other) == QuantityOf(items, other)
  {
    var after := AddLine(items, product, newId);
    match FindProduct(items, product)
    case Some(i) =>
      assert after[i].product == product;
      match FindProduct(after, product) {
        case Some(k) => assert after[k].product == items[k].product;
        case None => assert false;
      }
      if other != product {
        match FindProduct(items, other) {
          case Some(k) => assert after[k].product == other;
          case None =>
        }
        match FindProduct(after, other) {
          case Some(k) => assert items[k].product == other;
          case None =>
        }
      }
    case None =>
      assert after[|items|].product == product;
      match FindProduct(after, product) {
        case Some(k) => assert k == |items|;
        case None =>
      }
      if other != product {
        match FindProduct(items, other) {
          case Some(k) => assert after[k] == items[k];
          case None =>
        }
        match FindProduct(after, other) {
          case Some(k) => assert k < |items|;
          case None =>
        }
      }
  }

  /** Adding one of a product raises the count by one and the total by its price. */
  lemma AddLineSums(catalog: Catalog, items: seq<CartItem>, product: ProductId, newId: nat)
    requires product in catalog
    ensures CartCount(AddLine(items, product, newId)) == CartCount(items) + 1
    ensures ViewTotal(catalog, AddLine(items, product, newId)) == ViewTotal(catalog, items) + catalog[product].price
  {
    var countOf := (it: CartItem) => it.quantity;
    var priceOf := (it: CartItem) => LineTotal(catalog, it);
    match FindProduct(items, product)
    case Some(i) =>
      var x := items[i].(quantity := items[i].quantity + 1);
      SumReplace(items, i, x, countOf);
      SumReplace(items, i, x, priceOf);
    case None =>
      var x := CartItem(newId, product, DefaultQuantity);
      SumAppend(items, x, countOf);
      SumAppend(items, x, priceOf);
  }

  /** A raised id bound keeps a cart valid. */
  lemma ValidItemsRaise(catalog: Catalog, items: seq<CartItem>, n: nat, m: nat)
    requires ValidItems(catalog, items, n) && n <= m
    ensures ValidItems(catalog, items, m)
  {
  }

  /** Adding a catalog product keeps one row per product, positive quantities and fresh ids. */
  lemma AddLineValid(catalog: Catalog, items: seq<CartItem>, product: ProductId, newId: nat)
    requires ValidItems(catalog, items, newId) && product in catalog && AddSaves(items, product)
    ensures ValidItems(catalog, AddLine(items, product, newId),
                       if FindProduct(items, product).Some? then newId else newId + 1)
  {
  }

  /** The store with one user's rows replaced by valid rows stays valid. */
  lemma ReplaceCartValid(catalog: Catalog, store: CartStore, user: UserId, items: seq<CartItem>, nextId: nat)
    requires ValidStore(catalog, store) && store.nextItemId <= nextId
    requires ValidItems(catalog, items, nextId)
    ensures ValidStore(catalog, CartStore(store.carts[user := items], nextId))
  {
    forall u | u in store.carts && u != user
      ensures ValidItems(catalog, store.carts[u], nextId)
    {
      ValidItemsRaise(catalog, store.carts[u], store.nextItemId, nextId);
    }
  }

  datatype AddOutcome =
    | ProductNotFound
    /** `save()` refused the incremented quantity. */
    | AddNotSaved
    /** The new store and the badge count and total the AJAX reply carries. */
    | Added(store: CartStore, count: int, total: int)

  /** Whether the row `add_to_cart` writes fits its column: a new row holds 1, an existing one its quantity plus one. */
  predicate AddSaves(items: seq<CartItem>, product: ProductId) {
    match FindProduct(items, product)
    case Some(i) => QuantityFits(items[i].quantity + 1)
    case None => true
  }

  /** In a valid cart the increment fails exactly for a product already held at the column's maximum. */
  lemma AddSavesBelowMax(catalog: Catalog, items: seq<CartItem>, nextItemId: nat, product: ProductId)
    requires ValidItems(catalog, items, nextItemId)
    ensures AddSaves(items, product) <==> QuantityOf(items, product) < QuantityMax
  {
  }

  /**
   * `add_to_cart`: get or create the cart, then add one of the product. The
   * increment of a row already at the column's maximum fails to save; the
   * cart row it refers to already existed, so nothing changes.
   */
  function AddToCart(catalog: Catalog, store: CartStore, user: UserId, product: ProductId): (r: AddOutcome)
    ensures product !in catalog <==> r.ProductNotFound?
    ensures r.AddNotSaved? <==> product in catalog && !AddSaves(Items(store, user), product)
    ensures r.Added? ==>
      var before := Items(store, user);
      var after := Items(r.store, user);
      && user in r.store.carts
      && after == AddLine(before, product, store.nextItemId)
      && (ValidStore(catalog, store) ==>
            && QuantityOf(after, product) == QuantityOf(before, product) + 1
            && forall p :: p != product ==> QuantityOf(after, p) == QuantityOf(before, p))
      && CartCount(after) == CartCount(before) + 1
      && ViewTotal(catalog, after) == ViewTotal(catalog, before) + catalog[product].price
      && r.count == CartCount(after)
      && GetTotal(catalog, after) == Some(r.total)
    ensures r.Added? ==> forall u :: u != user ==> Items(r.store, u) == Items(store, u)
    ensures r.Added? ==> ValidStore(catalog, store) ==> ValidStore(catalog, r.store)
  {
    if product !in catalog then ProductNotFound
    else if !AddSaves(Items(store, user), product) then AddNotSaved
    else AddOne(catalog, store, user, product)
  }

  /** The saving branch of `add_to_cart`: the cart row is got or created and its item rows rewritten in one step. */
  function AddOne(catalog: Catalog, store: CartStore, user: UserId, product: ProductId): (r: AddOutcome)
    requires product in catalog && AddSaves(Items(store, user), product)
    ensures r.Added?
    ensures var before := Items(store, user);
      var after := Items(r.store, user);
      && user in r.store.carts
      && after == AddLine(before, product, store.nextItemId)
      && (ValidStore(catalog, store) ==>
            && QuantityOf(after, product) == QuantityOf(before, product) + 1
            && forall p :: p != product ==> QuantityOf(after, p) == QuantityOf(before, p))
      && CartCount(after) == CartCount(before) + 1
      && ViewTotal(catalog, after) == ViewTotal(catalog, before) + catalog[product].price
      && r.count == CartCount(after)
      && GetTotal(catalog, after) == Some(r.total)
    ensures forall u :: u != user ==> Items(r.store, u) == Items(store, u)
    ensures ValidStore(catalog, store) ==> ValidStore(catalog, r.store)
  {
    var before := Items(store, user);
    var after := AddLine(before, product, store.nextItemId);
    AddLineSums(catalog, before, product, store.nextItemId);
    var nextId := if FindProduct(before, product).Some? then store.nextItemId else store.nextItemId + 1;
    var r := CartStore(store.carts[user := after], nextId);
    AddedStoreKeeps(catalog, store, user, product);
    GetTotalIsViewTotal(catalog, after);
    assert Items(r, user) == after;
    assert forall u :: u != user ==> Items(r, u) == Items(store, u);
    Added(r, CartCount(after), GetTotal(catalog, after).value)
  }

  /** The store `add_to_cart` writes stays valid and changes only the added product's quantity. */
  lemma AddedStoreKeeps(catalog: Catalog, store: CartStore, user: UserId, product: ProductId)
    requires product in catalog && AddSaves(Items(store, user), product)
    ensures var before := Items(store, user);
      var after := AddLine(before, product, store.nextItemId);
      var nextId := if FindProduct(before, product).Some? then store.nextItemId else store.nextItemId + 1;
      ValidStore(catalog, store) ==>
        && ValidStore(catalog, CartStore(store.carts[user := after], nextId))
        && QuantityOf(after, product) == QuantityOf(before, product) + 1
        && forall p :: p != product ==> QuantityOf(after, p) == QuantityOf(before, p)
  {
    var before := Items(store, user);
    var after := AddLine(before, product, store.nextItemId);
    var nextId := if FindProduct(before, product).Some? then store.nextItemId else store.nextItemId + 1;
    if ValidStore(catalog, store) {
      assert ValidItems(catalog, before, store.nextItemId);
      AddLineValid(catalog, before, product, store.nextItemId);
      ReplaceCartValid(catalog, store, user, after, nextId);
      forall p ensures QuantityOf(after, p) == QuantityOf(before, p) + (if p == product then 1 else 0) {
        AddLineQuantities(before, product, store.nextItemId, p);
      }
    }
  }

  /** With one row per product, the row holding `product` gives its quantity. */
  lemma QuantityOfRow(items: seq<CartItem>, k: nat)
    requires forall i, j :: 0 <= i < j < |items| ==> items[i].product != items[j].product
    requires k < |items|
    ensures QuantityOf(items, items[k].product) == items[k].quantity
  {
    match FindProduct(items, items[k].product) {
      case Some(i) => assert i == k;
      case None => assert false;
    }
  }

  /** A product without a row has quantity 0. */
  lemma QuantityOfAbsent(items: seq<CartItem>, product: ProductId)
    requires forall i :: 0 <= i < |items| ==> items[i].product != product
    ensures QuantityOf(items, product) == 0
  {
  }

  /** Every row holds at least one, so the badge count is at least the number of rows. */
  lemma {:induction false} CountAtLeastRows(items: seq<CartItem>)
    requires forall i :: 0 <= i < |items| ==> items[i].quantity >= 1
    ensures CartCount(items) >= |items|
    decreases |items|
  {
    if |items| > 0 {
      CountAtLeastRows(items[1..]);
    }
  }

  datatype CartOutcome =
    | CartChanged(store: CartStore)
    /** `get_object_or_404` found no such item in the requesting user's cart. */
    | ItemNotFound
    /** `int()` rejected the submitted quantity (a `ValueError`). */
    | QuantityNotInteger
    /** `save()` refused a quantity outside the integer column. */
    | QuantityNotSaved

  function RemoveAt(items: seq<CartItem>, i: nat): (r: seq<CartItem>)
    requires i < |items|
    ensures |r| == |items| - 1
    ensures forall k :: 0 <= k < i ==> r[k] == items[k]
    ensures forall k :: i <= k < |r| ==> r[k] == items[k + 1]
  {
    items[..i] + items[i + 1..]
  }

  /** Deleting a row keeps a cart valid. */
  lemma RemoveAtValid(catalog: Catalog, items: seq<CartItem>, i: nat, nextId: nat)
    requires ValidItems(catalog, items, nextId) && i < |items|
    ensures ValidItems(catalog, RemoveAt(items, i), nextId)
  {
    var r := RemoveAt(items, i);
    forall a, b | 0 <= a < b < |r| ensures r[a].product != r[b].product && r[a].id != r[b].id {
      var a' := if a < i then a else a + 1;
      var b' := if b < i then b else b + 1;
      assert r[a] == items[a'] && r[b] == items[b'];
    }
  }

  /** After deleting the row of a product, the cart holds none of it and the same of every other product. */
  lemma RemoveAtQuantities(items: seq<CartItem>, i: nat, other: ProductId)
    requires forall a, b :: 0 <= a < b < |items| ==> items[a].product != items[b].product
    requires i < |items|
    ensures QuantityOf(RemoveAt(items, i), items[i].product) == 0
    ensures other != items[i].product ==> QuantityOf(RemoveAt(items, i), other) == QuantityOf(items, other)
  {
    var r := RemoveAt(items, i);
    forall k | 0 <= k < |r| ensures r[k].product != items[i].product {
      if k >= i { assert r[k] == items[k + 1]; }
    }
    if other != items[i].product {
      match FindProduct(items, other) {
        case Some(k) =>
          assert k != i;
          var k' := if k < i then k else k - 1;
          assert r[k'] == items[k];
          forall a, b | 0 <= a < b < |r| ensures r[a].product != r[b].product {
            var a' := if a < i then a else a + 1;
            var b' := if b < i then b else b + 1;
            assert r[a] == items[a'] && r[b] == items[b'];
          }
          QuantityOfRow(r, k');
          QuantityOfRow(items, k);
        case None =>
          forall k | 0 <= k < |r| ensures r[k].product != other {
            if k >= i { assert r[k] == items[k + 1]; } else { assert r[k] == items[k]; }
          }
      }
    }
  }

  /** After setting a row's quantity, the cart holds exactly that much of its product and the same of every other. */
  lemma SetQuantityQuantities(items: seq<CartItem>, i: nat, q: int, other: ProductId)
    requires forall a, b :: 0 <= a < b < |items| ==> items[a].product != items[b].product
    requires i < |items|
    ensures QuantityOf(items[i := items[i].(quantity := q)], items[i].product) == q
    ensures other != items[i].product ==>
      QuantityOf(items[i := items[i].(quantity := q)], other) == QuantityOf(items, other)
  {
    var r := items[i := items[i].(quantity := q)];
    assert forall a :: 0 <= a < |r| ==> r[a].product == items[a].product;
    QuantityOfRow(r, i);
    if other != items[i].product {
      match FindProduct(items, other) {
        case Some(k) =>
          QuantityOfRow(r, k);
          QuantityOfRow(items, k);
        case None =>
      }
    }
  }

  /** `remove_from_cart`: delete one item of the requesting user's cart. */
  function RemoveFromCart(catalog: Catalog, store: CartStore, user: UserId, itemId: nat): (r: CartOutcome)
    ensures !r.QuantityNotInteger? && !r.QuantityNotSaved?
    ensures r.ItemNotFound? <==> FindItem(Items(store, user), itemId).None?
    ensures r.CartChanged? ==>
      var before := Items(store, user);
      var i := FindItem(before, itemId).value;
      && Items(r.store, user) == RemoveAt(before, i)
      && CartCount(Items(r.store, user)) == CartCount(before) - before[i].quantity
      && r.store.carts.Keys == store.carts.Keys
      && (ValidStore(catalog, store) ==>
            && ValidStore(catalog, r.store)
            && QuantityOf(Items(r.store, user), before[i].product) == 0
            && forall p :: p != before[i].product ==> QuantityOf(Items(r.store, user), p) == QuantityOf(before, p))
    ensures r.CartChanged? ==> forall u :: u != user ==> Items(r.store, u) == Items(store, u)
  {
    var before := Items(store, user);
    match FindItem(before, itemId)
    case None => ItemNotFound
    case Some(i) =>
      var after := RemoveAt(before, i);
      var s := store.(carts := store.carts[user := after]);
      assert before[..i] + before[i + 1..] == after;
      SumRemove(before, i, (it: CartItem) => it.quantity);
      assert ValidStore(catalog, store) ==>
            && ValidStore(catalog, s)
            && QuantityOf(after, before[i].product) == 0
            && forall p :: p != before[i].product ==> QuantityOf(after, p) == QuantityOf(before, p) by {
        if ValidStore(catalog, store) {
          assert ValidItems(catalog, before, store.nextItemId);
          RemoveAtValid(catalog, before, i, store.nextItemId);
          ReplaceCartValid(catalog, store, user, after, store.nextItemId);
          assert s == CartStore(store.carts[user := after], store.nextItemId);
          forall p ensures p != before[i].product ==> QuantityOf(after, p) == QuantityOf(before, p) {
            RemoveAtQuantities(before, i, p);
          }
          RemoveAtQuantities(before, i, before[i].product);
        }
      }
      CartChanged(s)
  }

  /** The positive branch of `update_cart_item` when the save succeeds: row `i` of the user's cart gets quantity `q`. */
  function SetItemQuantity(catalog: Catalog, store: CartStore, user: UserId, i: nat, q: int): (s: CartStore)
    requires i < |Items(store, user)| && q > 0 && QuantityFits(q)
    ensures var before := Items(store, user);
      && s.carts.Keys == store.carts.Keys
      && Items(s, user) == before[i := before[i].(quantity := q)]
      && CartCount(Items(s, user)) == CartCount(before) - before[i].quantity + q
      && (ValidStore(catalog, store) ==>
            && ValidStore(catalog, s)
            && QuantityOf(Items(s, user), before[i].product) == q
            && forall p :: p != before[i].product ==> QuantityOf(Items(s, user), p) == QuantityOf(before, p))
    ensures forall u :: u != user ==> Items(s, u) == Items(store, u)
  {
    var before := Items(store, user);
    var after := before[i := before[i].(quantity := q)];
    SetItemQuantityKeeps(catalog, store, user, i, q);
    store.(carts := store.carts[user := after])
  }

  lemma SetItemQuantityKeeps(catalog: Catalog, store: CartStore, user: UserId, i: nat, q: int)
    requires i < |Items(store, user)| && q > 0 && QuantityFits(q)
    ensures var before := Items(store, user);
      var after := before[i := before[i].(quantity := q)];
      && CartCount(after) == CartCount(before) - before[i].quantity + q
      && (ValidStore(catalog, store) ==>
            && ValidStore(catalog, store.(carts := store.carts[user := after]))
            && QuantityOf(after, before[i].product) == q
            && forall p :: p != before[i].product ==> QuantityOf(after, p) == QuantityOf(before, p))
  {
    var before := Items(store, user);
    var x := before[i].(quantity := q);
    var after := before[i := x];
    SumReplace(before, i, x, (it: CartItem) => it.quantity);
    if ValidStore(catalog, store) {
      assert ValidItems(catalog, before, store.nextItemId);
      ReplaceCartValid(catalog, store, user, after, store.nextItemId);
      assert store.(carts := store.carts[user := after]) == CartStore(store.carts[user := after], store.nextItemId);
      forall p | p != before[i].product ensures QuantityOf(after, p) == QuantityOf(before, p) {
        SetQuantityQuantities(before, i, q, p);
      }
      SetQuantityQuantities(before, i, q, before[i].product);
    }
  }

  /**
   * `update_cart_item`: for a POST, set the quantity of one item of the
   * requesting user's cart when the submitted number is positive, delete the
   * item otherwise. An absent field counts as 1. Any other method changes
   * nothing. A positive number too large for the integer column fails to save.
   */
  function UpdateCartItem(catalog: Catalog, store: CartStore, user: UserId, itemId: nat,
                          isPost: bool, quantityField: Option<string>): (r: CartOutcome)
    ensures !isPost ==> r == CartChanged(store)
    ensures isPost ==> (r.ItemNotFound? <==> FindItem(Items(store, user), itemId).None?)
    ensures isPost && quantityField.Some? && FindItem(Items(store, user), itemId).Some? ==>
      (r.QuantityNotInteger? <==> ParseInt(quantityField.value).None?)
    ensures quantityField.None? ==> !r.QuantityNotInteger? && !r.QuantityNotSaved?
    ensures r.QuantityNotSaved? <==>
      isPost && FindItem(Items(store, user), itemId).Some? && quantityField.Some?
      && ParseInt(quantityField.value).Some? && ParseInt(quantityField.value).value > QuantityMax
    ensures isPost && r.CartChanged? ==>
      var before := Items(store, user);
      var i := FindItem(before, itemId).value;
      var q := if quantityField.Some? then ParseInt(quantityField.value).value else DefaultQuantity;
      && r.store.carts.Keys == store.carts.Keys
      && (q > 0 ==> QuantityFits(q) && Items(r.store, user) == before[i := before[i].(quantity := q)])
      && (q <= 0 ==> Items(r.store, user) == RemoveAt(before, i))
      && CartCount(Items(r.store, user)) == CartCount(before) - before[i].quantity + (if q > 0 then q else 0)
      && (ValidStore(catalog, store) ==>
            && ValidStore(catalog, r.store)
            && QuantityOf(Items(r.store, user), before[i].product) == (if q > 0 then q else 0)
            && forall p :: p != before[i].product ==> QuantityOf(Items(r.store, user), p) == QuantityOf(before, p))
    ensures r.CartChanged? ==> forall u :: u != user ==> Items(r.store, u) == Items(store, u)
  {
    if !isPost then CartChanged(store)
    else
      var before := Items(store, user);
      match FindItem(before, itemId)
      case None => ItemNotFound
      case Some(i) =>
        var parsed := if quantityField.Some? then ParseInt(quantityField.value) else Some(DefaultQuantity);
        match parsed
        case None => QuantityNotInteger
        case Some(q) =>
          if q > QuantityMax then QuantityNotSaved
          else if q > 0 then CartChanged(SetItemQuantity(catalog, store, user, i, q))
          else
            RemoveFromCart(catalog, store, user, itemId)
  }

  /** `get_cart_count`: get or create the cart, then report Σ quantities. */
  function GetCartCount(catalog: Catalog, store: CartStore, user: UserId): (r: (CartStore, int))
    ensures r.0 == GetOrCreateCart(store, user)
    ensures r.1 == CartCount(Items(store, user))
    ensures ValidStore(catalog, store) ==> r.1 >= |Items(store, user)| >= 0
  {
    assert ValidStore(catalog, store) ==> CartCount(Items(store, user)) >= |Items(store, user)| by {
      if ValidStore(catalog, store) && user in store.carts {
        assert ValidItems(catalog, store.carts[user], store.nextItemId);
        CountAtLeastRows(store.carts[user]);
      }
    }
    (GetOrCreateCart(store, user), CartCount(Items(store, user)))
  }

  /** What `view_cart` renders: the rows and their total. */
  datatype CartView = CartView(store: CartStore, items: seq<CartItem>, total: int)

  /** `view_cart`: get or create the cart and total its rows; an empty cart totals 0. */
  function ViewCart(catalog: Catalog, store: CartStore, user: UserId): (r: CartView)
    ensures r.store == GetOrCreateCart(store, user)
    ensures r.items == Items(store, user)
    ensures |r.items| == 0 ==> r.total == 0
    ensures |r.items| > 0 ==> GetTotal(catalog, r.items) == Some(r.total)
  {
    var items := Items(store, user);
    GetTotalIsViewTotal(catalog, items);
    CartView(GetOrCreateCart(store, user), items, ViewTotal(catalog, items))
  }
}

=== FILE: cart_page.dfy ===
/**
 * The cart page script: the +/- quantity buttons of the desktop table and of
 * the mobile cards, the summary total, the item-id extraction from a form's
 * action URL, the empty-cart message and the leave-page warning.
 *
 * A quantity input is modelled by the integer it holds; the DOM by the few
 * facts the script reads (which cells a row has, whether its update button is
 * showing, which hidden quantity inputs exist).
 */
module CartPage {
  import opened Wrappers
  import opened PyInt
  import Catalog
  import Carts

  const MaxQuantity: int := 99
  const MinQuantity: int := 1

  // ---------------------------------------------------------------------------
  // Quantity buttons
  // ---------------------------------------------------------------------------

  /** One table row: its price cell, its quantity input, and whether its update button shows. */
  datatype Row = Row(price: Option<int>, quantity: Option<int>, updateShown: bool)

  /** `increaseQuantity`: one more, and the update button shows, unless the input already reads 99 or more. */
  function Increase(row: Row): (r: Row)
    requires row.quantity.Some?
    ensures row.quantity.value < MaxQuantity ==> r == row.(quantity := Some(row.quantity.value + 1), updateShown := true)
    ensures row.quantity.value >= MaxQuantity ==> r == row
    // The bounds the buttons keep: a value inside 1..99 stays inside.
    ensures MinQuantity <= row.quantity.value <= MaxQuantity ==> MinQuantity <= r.quantity.value <= MaxQuantity
  {
    var q := row.quantity.value;
    if q < MaxQuantity then row.(quantity := Some(q + 1), updateShown := true) else row
  }

  /** `decreaseQuantity`: one fewer, and the update button shows, unless the input reads 1 or less. */
  function Decrease(row: Row): (r: Row)
    requires row.quantity.Some?
    ensures row.quantity.value > MinQuantity ==> r == row.(quantity := Some(row.quantity.value - 1), updateShown := true)
    ensures row.quantity.value <= MinQuantity ==> r == row
    ensures MinQuantity <= row.quantity.value <= MaxQuantity ==> MinQuantity <= r.quantity.value <= MaxQuantity
  {
    var q := row.quantity.value;
    if q > MinQuantity then row.(quantity := Some(q - 1), updateShown := true) else row
  }

  /** Increasing then decreasing returns a value below 99 to where it was. */
  lemma IncreaseThenDecrease(row: Row)
    requires row.quantity.Some? && MinQuantity <= row.quantity.value < MaxQuantity
    ensures Decrease(Increase(row)).quantity == row.quantity
  { }

  /** Every press keeps the input in 1..99, however many presses in whatever order. */
  lemma {:induction false} PressesStayInBounds(row: Row, presses: seq<bool>)
    requires row.quantity.Some? && MinQuantity <= row.quantity.value <= MaxQuantity
    ensures Press(row, presses).quantity.Some?
    ensures MinQuantity <= Press(row, presses).quantity.value <= MaxQuantity
    decreases |presses|
  {
    if |presses| > 0 {
      var next := if presses[0] then Increase(row) else Decrease(row);
      PressesStayInBounds(next, presses[1..]);
    }
  }

  /** A run of presses: `true` for +, `false` for -. */
  function Press(row: Row, presses: seq<bool>): Row
    requires row.quantity.Some?
    decreases |presses|
  {
    if |presses| == 0 then row
    else
      var next := if presses[0] then Increase(row) else Decrease(row);
      if next.quantity.Some? then Press(next, presses[1..]) else next
  }

  // ---------------------------------------------------------------------------
  // Item id of a form action
  // ---------------------------------------------------------------------------

  /** The end of the run of digits starting at `j`. */
  function DigitRunEnd(s: string, j: nat): (k: nat)
    requires j <= |s|
    ensures j <= k <= |s|
    ensures forall m :: j <= m < k ==> IsDigit(s[m])
    ensures k < |s| ==> !IsDigit(s[k])
    decreases |s| - j
  {
    if j < |s| && IsDigit(s[j]) then DigitRunEnd(s, j + 1) else j
  }

  /** What `/\/(\d+)\//` captures when its match starts at position `i`, if it matches there. */
  function MatchAt(s: string, i: nat): Option<string> {
    if i + 1 < |s| && s[i] == '/' then
      var k := DigitRunEnd(s, i + 1);
      if k > i + 1 && k < |s| && s[k] == '/' then Some(s[i + 1..k]) else None
    else None
  }

  /** The regular expression's own meaning: a slash, one or more digits `d`, a slash, starting at `i`. */
  ghost predicate Occurs(s: string, i: nat, d: string) {
    |d| > 0 && AllDigits(d) && i + |d| + 2 <= |s|
    && s[i] == '/' && s[i + 1..i + 1 + |d|] == d && s[i + 1 + |d|] == '/'
  }

  /** The scanner agrees with the pattern: it captures `d` at `i` exactly when `/d/` occurs there. */
  lemma MatchAtIsOccurs(s: string, i: nat, d: string)
    ensures MatchAt(s, i) == Some(d) <==> Occurs(s, i, d)
  {
    if Occurs(s, i, d) {
      var k := DigitRunEnd(s, i + 1);
      var e := i + 1 + |d|;
      forall m | i + 1 <= m < e ensures IsDigit(s[m]) {
        assert s[m] == d[m - i - 1];
      }
      DigitRunEndAt(s, i + 1, e);
    }
  }

  /** A run of digits ended by a non-digit ends exactly there. */
  lemma {:induction false} DigitRunEndAt(s: string, j: nat, e: nat)
    requires j <= e < |s| && !IsDigit(s[e])
    requires forall m :: j <= m < e ==> IsDigit(s[m])
    ensures DigitRunEnd(s, j) == e
    decreases e - j
  {
    if j < e {
      DigitRunEndAt(s, j + 1, e);
    }
  }

  /** The leftmost match at or after position `i`. */
  function FindFrom(s: string, i: nat): Option<string>
    decreases |s| - i
  {
    if i >= |s| then None
    else if MatchAt(s, i).Some? then MatchAt(s, i)
    else FindFrom(s, i + 1)
  }

  /** The scan's result is the match at the first position from `i` where there is one. */
  lemma {:induction false} FindFromFirst(s: string, i: nat)
    ensures FindFrom(s, i).Some? ==>
      exists p :: i <= p < |s| && MatchAt(s, p) == FindFrom(s, i) && forall q :: i <= q < p ==> MatchAt(s, q).None?
    ensures FindFrom(s, i).None? ==> forall q :: i <= q < |s| ==> MatchAt(s, q).None?
    decreases |s| - i
  {
    if i < |s| && MatchAt(s, i).None? {
      FindFromFirst(s, i + 1);
      if FindFrom(s, i + 1).Some? {
        var p :| i + 1 <= p < |s| && MatchAt(s, p) == FindFrom(s, i + 1) && forall q :: i + 1 <= q < p ==> MatchAt(s, q).None?;
        assert forall q :: i <= q < p ==> MatchAt(s, q).None?;
      }
    }
  }

  /** The leftmost scanner result, read as the regular expression's meaning. */
  lemma FindFromMeaning(action: string)
    ensures FindFrom(action, 0).Some? ==>
      var d := FindFrom(action, 0).value;
      |d| > 0 && AllDigits(d)
      && exists p: nat :: Occurs(action, p, d) && forall q :: 0 <= q < p ==> MatchAt(action, q).None?
    ensures FindFrom(action, 0).None? ==> forall q, d :: 0 <= q < |action| ==> !Occurs(action, q, d)
  {
    var r := FindFrom(action, 0);
    FindFromFirst(action, 0);
    if r.Some? {
      var p :| 0 <= p < |action| && MatchAt(action, p) == r && forall q :: 0 <= q < p ==> MatchAt(action, q).None?;
      MatchAtIsOccurs(action, p, r.value);
    } else {
      forall q, d | 0 <= q < |action| ensures !Occurs(action, q, d) {
        MatchAtIsOccurs(action, q, d);
      }
    }
  }

  /** `extractItemId` before it indexes the match: the digits of the leftmost `/digits/`, or no match. */
  function ExtractItemId(action: string): (r: Option<string>)
    ensures r.Some? ==> |r.value| > 0 && AllDigits(r.value)
    ensures r.Some? ==> exists p: nat :: Occurs(action, p, r.value) && forall q :: 0 <= q < p ==> MatchAt(action, q).None?
    ensures r.None? ==> forall q, d :: 0 <= q < |action| ==> !Occurs(action, q, d)
  {
    FindFromMeaning(action);
    FindFrom(action, 0)
  }

  predicate NoDigits(s: string) {
    forall i :: 0 <= i < |s| ==> !IsDigit(s[i])
  }

  /**
   * An update URL built as `<path>/<id>/<rest>` from a path with no digits
   * gives back the id, and reading it as an integer gives the id itself.
   */
  lemma ExtractsRenderedId(path: string, id: nat, rest: string)
    requires NoDigits(path)
    ensures ExtractItemId(path + "/" + IntToString(id) + "/" + rest) == Some(IntToString(id))
    ensures WithinDigitLimit(id) ==> ParseInt(IntToString(id)) == Some(id)
  {
    var digits := IntToString(id);
    var s := path + "/" + digits + "/" + rest;
    var p := |path|;
    assert s[p] == '/';
    assert s[p + 1..p + 1 + |digits|] == digits;
    assert s[p + 1 + |digits|] == '/';
    assert Occurs(s, p, digits);
    MatchAtIsOccurs(s, p, digits);
    forall q | 0 <= q < p ensures MatchAt(s, q).None? {
      assert s[q + 1] == (path + "/")[q + 1];
      if q + 1 < p {
        assert !IsDigit(s[q + 1]);
      } else {
        assert s[q + 1] == '/';
      }
      assert q + 1 < |s| ==> DigitRunEnd(s, q + 1) == q + 1;
    }
    FindFromPassesOver(s, 0, p);
    FindFromStops(s, p);
    ParseIntOfIntToString(id);
  }

  /** When nothing matches from `i` up to `p`, the scan from `i` goes on as the scan from `p`. */
  lemma {:induction false} FindFromPassesOver(s: string, i: nat, p: nat)
    requires i <= p <= |s|
    requires forall q :: i <= q < p ==> MatchAt(s, q).None?
    ensures FindFrom(s, i) == FindFrom(s, p)
    decreases p - i
  {
    if i < p {
      FindFromSkips(s, i);
      FindFromPassesOver(s, i + 1, p);
    }
  }

  lemma FindFromSkips(s: string, i: nat)
    requires i < |s| && MatchAt(s, i).None?
    ensures FindFrom(s, i) == FindFrom(s, i + 1)
  {
  }

  lemma FindFromStops(s: string, i: nat)
    requires i < |s| && MatchAt(s, i).Some?
    ensures FindFrom(s, i) == MatchAt(s, i)
  {
  }

  // ---------------------------------------------------------------------------
  // Mobile cards
  // ---------------------------------------------------------------------------

  /**
   * A mobile card: the action URL of its form, its quantity, whether its
   * update button shows. The hidden per-item quantity inputs live in `hidden`,
   * keyed by the item id their element id carries.
   */
  datatype Card = Card(action: string, quantity: int, updateShown: bool)

  /**
   * The mobile buttons read the item id before checking the bound, and
   * indexing a failed match throws, so a card whose URL holds no `/digits/`
   * fails even when the bound would have left it alone.
   */
  datatype MobileOutcome = MatchFailed | Stepped(card: Card, hidden: map<string, int>)

  /** `updateHiddenInput`: write the value when that hidden input exists. */
  function UpdateHidden(hidden: map<string, int>, id: string, value: int): (r: map<string, int>)
    ensures r.Keys == hidden.Keys
    ensures id in hidden ==> r[id] == value
    ensures forall k :: k in hidden && k != id ==> r[k] == hidden[k]
  {
    if id in hidden then hidden[id := value] else hidden
  }

  /** `mobileIncreaseQty` / `mobileDecreaseQty`; `up` picks the button. */
  function MobileStep(card: Card, hidden: map<string, int>, up: bool): (r: MobileOutcome)
    ensures r.MatchFailed? <==> ExtractItemId(card.action).None?
    ensures r.Stepped? ==>
      var id := ExtractItemId(card.action).value;
      var moves := if up then card.quantity < MaxQuantity else card.quantity > MinQuantity;
      && r.card.action == card.action
      && (moves ==> r.card.quantity == (if up then card.quantity + 1 else card.quantity - 1)
                    && r.card.updateShown && r.hidden == UpdateHidden(hidden, id, r.card.quantity))
      && (!moves ==> r.card == card && r.hidden == hidden)
    ensures r.Stepped? && MinQuantity <= card.quantity <= MaxQuantity ==>
      MinQuantity <= r.card.quantity <= MaxQuantity
  {
    match ExtractItemId(card.action)
    case None => MatchFailed
    case Some(id) =>
      var moves := if up then card.quantity < MaxQuantity else card.quantity > MinQuantity;
      if !moves then Stepped(card, hidden)
      else
        var q := if up then card.quantity + 1 else card.quantity - 1;
        // `updateHiddenInput`, then `showMobileUpdateBtn` writes the same value again.
        var once := UpdateHidden(hidden, id, q);
        Stepped(card.(quantity := q, updateShown := true), UpdateHidden(once, id, q))
  }

  // ---------------------------------------------------------------------------
  // Summary, empty cart, leave warning
  // ---------------------------------------------------------------------------

  /** `updateCartSummary`'s sum: price × quantity over the rows that have both cells. */
  function Subtotal(rows: seq<Row>): int
    decreases |rows|
  {
    if |rows| == 0 then 0
    else
      var here := if rows[0].price.Some? && rows[0].quantity.Some? then rows[0].price.value * rows[0].quantity.value else 0;
      here + Subtotal(rows[1..])
  }

  /** Rows missing a cell are ignored: a row without a price or a quantity, inserted anywhere, leaves the sum alone. */
  lemma {:induction false} SubtotalIgnoresPartialRows(rows: seq<Row>, k: nat, partial: Row)
    requires k <= |rows|
    requires partial.price.None? || partial.quantity.None?
    ensures Subtotal(rows[..k] + [partial] + rows[k..]) == Subtotal(rows)
    decreases k
  {
    var grown := rows[..k] + [partial] + rows[k..];
    if k == 0 {
      assert grown[1..] == rows;
    } else {
      SubtotalIgnoresPartialRows(rows[1..], k - 1, partial);
      assert grown[0] == rows[0];
      assert grown[1..] == rows[1..][..k - 1] + [partial] + rows[1..][k - 1..];
    }
  }

  /**
   * How `view_cart` lays out one cart line: its product's price and its
   * quantity, with the update button hidden.
   */
  function RenderRow(catalog: Catalog.Catalog, item: Carts.CartItem): Row
    requires item.product in catalog
  {
    Row(Some(catalog[item.product].price), Some(item.quantity), false)
  }

  function Render(catalog: Catalog.Catalog, items: seq<Carts.CartItem>): (rows: seq<Row>)
    requires forall i :: 0 <= i < |items| ==> items[i].product in catalog
    ensures |rows| == |items|
    ensures forall i :: 0 <= i < |items| ==> rows[i] == RenderRow(catalog, items[i])
    decreases |items|
  {
    if |items| == 0 then [] else [RenderRow(catalog, items[0])] + Render(catalog, items[1..])
  }

  /** On a freshly rendered cart, the script's summary equals the total the server computed. */
  lemma {:induction false} SummaryMatchesServerTotal(catalog: Catalog.Catalog, items: seq<Carts.CartItem>)
    requires forall i :: 0 <= i < |items| ==> items[i].product in catalog
    ensures Subtotal(Render(catalog, items)) == Carts.ViewTotal(catalog, items)
    decreases |items|
  {
    if |items| > 0 {
      SummaryMatchesServerTotal(catalog, items[1..]);
      assert Render(catalog, items)[1..] == Render(catalog, items[1..]);
    }
  }

  /** What the cart container shows. */
  datatype Container = ItemsTable | EmptyMessage

  /** `checkEmptyCart`: the message replaces the content only when a table body exists and has no rows. */
  function CheckEmptyCart(tbody: Option<seq<Row>>, container: Option<Container>): (r: Option<Container>)
    ensures r.None? <==> container.None?
    ensures r != container ==> tbody.Some? && |tbody.value| == 0
    ensures container.Some? && tbody.Some? && |tbody.value| == 0 ==> r == Some(EmptyMessage)
  {
    if tbody.Some? && |tbody.value| == 0 && container.Some? then Some(EmptyMessage) else container
  }

  /**
   * The `beforeunload` guard as written: with rows in the table, warn when
   * some `.btn-update` is not hidden by an inline `display: none`. It reads
   * the table's buttons only; the mobile update button is shown through its
   * `show` class and never consulted.
   */
  function LeaveWarning(rows: seq<Row>): (warn: bool)
    ensures warn ==> |rows| > 0
    ensures !warn ==> |rows| == 0 || forall i :: 0 <= i < |rows| ==> !rows[i].updateShown
  {
    |rows| > 0 && exists i :: 0 <= i < |rows| && rows[i].updateShown
  }

  /**
   * A freshly rendered cart, before any press, lets the user leave. This
   * rests on the template rendering every `.btn-update` with an inline
   * `display: none`, as `RenderRow` assumes: the script never hides them on
   * load, and a button hidden only by a style sheet would read as showing.
   */
  lemma FreshPageLeavesQuietly(catalog: Catalog.Catalog, items: seq<Carts.CartItem>)
    requires forall i :: 0 <= i < |items| ==> items[i].product in catalog
    ensures !LeaveWarning(Render(catalog, items))
  { }

  /** A press that changed a quantity leaves an unsaved change, so leaving the page warns. */
  lemma PressThenLeaveWarns(rows: seq<Row>, k: nat, up: bool)
    requires k < |rows| && rows[k].quantity.Some?
    requires (if up then Increase(rows[k]) else Decrease(rows[k])) != rows[k]
    ensures LeaveWarning(rows[k := if up then Increase(rows[k]) else Decrease(rows[k])])
  {
    var after := rows[k := if up then Increase(rows[k]) else Decrease(rows[k])];
    assert after[k].updateShown;
  }

  /**
   * The guard the warning's text promises ("You have unsaved changes"): an
   * update button showing on a table row or on a mobile card is an unsaved
   * change. It differs from the guard as written only on the cards.
   */
  function LeaveWarningAllButtons(rows: seq<Row>, cards: seq<Card>): (warn: bool)
    ensures warn ==> |rows| > 0
    ensures LeaveWarning(rows) ==> warn
    ensures (forall j :: 0 <= j < |cards| ==> !cards[j].updateShown) ==> (warn <==> LeaveWarning(rows))
    ensures !warn ==> |rows| == 0 || forall j :: 0 <= j < |cards| ==> !cards[j].updateShown
  {
    |rows| > 0
    && ((exists i :: 0 <= i < |rows| && rows[i].updateShown) || (exists j :: 0 <= j < |cards| && cards[j].updateShown))
  }

  /** A `+` or `-` on mobile card `k` that changed its quantity. */
  predicate MobilePressChanged(cards: seq<Card>, k: nat, hidden: map<string, int>, up: bool) {
    k < |cards| && MobileStep(cards[k], hidden, up).Stepped? && MobileStep(cards[k], hidden, up).card != cards[k]
  }

  /**
   * As written, a quantity changed on a mobile card is an unsaved change the
   * guard does not see: with the table's buttons all hidden, leaving the page
   * after the press does not warn, although the card's update button shows.
   */
  lemma MobilePressLeavesQuietly(rows: seq<Row>, cards: seq<Card>, k: nat, hidden: map<string, int>, up: bool)
    requires |rows| > 0 && forall i :: 0 <= i < |rows| ==> !rows[i].updateShown
    requires MobilePressChanged(cards, k, hidden, up)
    ensures var after := cards[k := MobileStep(cards[k], hidden, up).card];
      after[k].updateShown && !LeaveWarning(rows)
  {
  }

  /** With the guard that reads every update button, the same press makes leaving warn. */
  lemma MobilePressWarns(rows: seq<Row>, cards: seq<Card>, k: nat, hidden: map<string, int>, up: bool)
    requires |rows| > 0
    requires MobilePressChanged(cards, k, hidden, up)
    ensures LeaveWarningAllButtons(rows, cards[k := MobileStep(cards[k], hidden, up).card])
  {
    var after := cards[k := MobileStep(cards[k], hidden, up).card];
    assert after[k].updateShown;
  }
}

=== FILE: catalog.dfy ===
/**
 * Products: slug defaulting on save and the image list shown on the shop pages.
 * `slugify` is Django's text utility; it is taken as a parameter because only
 * its being a function of the name matters here.
 */
module Catalog {
  import opened Wrappers

  type ProductId = nat

  /** A product. Money is whole dinars; a picture is present when it carries a URL. */
  datatype Product = Product(
    id: ProductId, name: string, slug: Option<string>, category: string, price: int,
    picture: Option<string>, picture2: Option<string>, picture3: Option<string>)

  /** The catalog: products by id. */
  type Catalog = map<ProductId, Product>

  const DefaultImage: string := "/static/Images/jarofhoney.jpg"

  /** Python truthiness of the slug: `None` and the empty string are both "no slug". */
  predicate HasSlug(p: Product) {
    p.slug.Some? && p.slug.value != ""
  }

  /** `Product.save`: a missing slug is derived from the name, an existing one is kept. */
  function Save(p: Product, slugify: string -> string): (r: Product)
    ensures HasSlug(p) ==> r == p
    ensures !HasSlug(p) ==> r.slug == Some(slugify(p.name))
    ensures r.(slug := p.slug) == p
  {
    if HasSlug(p) then p else p.(slug := Some(slugify(p.name)))
  }

  /** Saving twice is saving once: the second save keeps or recomputes the same slug. */
  lemma SaveIdempotent(p: Product, slugify: string -> string)
    ensures Save(Save(p, slugify), slugify) == Save(p, slugify)
  {
    var q := Save(p, slugify);
    if !HasSlug(q) {
      assert q.slug == Some(slugify(p.name));
    }
  }

  /** `slug` is a `SlugField`, whose `max_length` defaults to 50. */
  const SlugLength: nat := 50

  /**
   * Whether `p`'s slug may be stored beside the other rows: within its length
   * and distinct from every other row's slug. A NULL slug clashes with nothing.
   */
  predicate SlugFree(catalog: Catalog, p: Product) {
    match p.slug
    case None => true
    case Some(s) => |s| <= SlugLength && forall id :: id in catalog && id != p.id ==> catalog[id].slug != Some(s)
  }

  /** The `unique=True` constraint on `slug`: no two rows share a non-NULL slug. */
  predicate UniqueSlugs(catalog: Catalog) {
    forall a, b :: a in catalog && b in catalog && a != b && catalog[a].slug.Some? ==> catalog[a].slug != catalog[b].slug
  }

  /** The outcome of writing a product's row. */
  datatype SaveOutcome =
    /** The database refused the slug: too long, or already another row's (an `IntegrityError`). */
    | SlugRejected
    | Saved(catalog: Catalog)

  /**
   * `Product.save` against the table: the slug is defaulted, then the row with
   * the product's id is written, unless the slug breaks the column's limits.
   */
  function SaveProduct(catalog: Catalog, p: Product, slugify: string -> string): (r: SaveOutcome)
    ensures r.Saved? <==> SlugFree(catalog, Save(p, slugify))
    ensures r.Saved? ==> r.catalog.Keys == catalog.Keys + {p.id}
                         && r.catalog[p.id] == Save(p, slugify)
                         && forall id :: id in catalog && id != p.id ==> r.catalog[id] == catalog[id]
    ensures r.Saved? && UniqueSlugs(catalog) ==> UniqueSlugs(r.catalog)
  {
    var q := Save(p, slugify);
    if SlugFree(catalog, q) then Saved(catalog[p.id := q]) else SlugRejected
  }

  /**
   * Two products with the same name and no slug of their own get the same
   * default slug, so the second one's save is refused once the first is stored.
   */
  lemma SecondSameNameRejected(catalog: Catalog, first: Product, second: Product, slugify: string -> string)
    requires !HasSlug(first) && !HasSlug(second) && first.name == second.name && first.id != second.id
    requires SaveProduct(catalog, first, slugify).Saved?
    ensures SaveProduct(SaveProduct(catalog, first, slugify).catalog, second, slugify) == SlugRejected
  {
    var stored := SaveProduct(catalog, first, slugify).catalog;
    assert stored[first.id].slug == Save(second, slugify).slug;
  }

  /** The URLs of the present pictures, in slot order (the reference reading of `get_images`). */
  function PresentUrls(slots: seq<Option<string>>): (r: seq<string>)
    ensures |r| <= |slots|
    ensures forall u :: u in r <==> Some(u) in slots
    decreases |slots|
  {
    if |slots| == 0 then []
    else
      var rest := PresentUrls(slots[1..]);
      assert forall o :: o in slots <==> o == slots[0] || o in slots[1..];
      match slots[0]
      case Some(u) => [u] + rest
      case None => rest
  }

  /** `Product.get_images`: the present pictures in order, or the default jar image when none is. */
  function GetImages(p: Product): (r: seq<string>)
    ensures 1 <= |r| <= 3
    ensures var listed := PresentUrls([p.picture, p.picture2, p.picture3]);
      (|listed| > 0 ==> r == listed) && (|listed| == 0 ==> r == [DefaultImage])
  {
    var images := if p.picture.Some? then [p.picture.value] else [];
    var images := if p.picture2.Some? then images + [p.picture2.value] else images;
    var images := if p.picture3.Some? then images + [p.picture3.value] else images;
    assert images == PresentUrls([p.picture, p.picture2, p.picture3]) by {
      var s := [p.picture, p.picture2, p.picture3];
      assert s[1..] == [p.picture2, p.picture3];
      assert s[1..][1..] == [p.picture3];
      assert s[1..][1..][1..] == [];
      var tail3 := if p.picture3.Some? then [p.picture3.value] else [];
      assert PresentUrls(s[1..][1..]) == tail3;
      var tail2 := (if p.picture2.Some? then [p.picture2.value] else []) + tail3;
      assert PresentUrls(s[1..]) == tail2;
    }
    if |images| > 0 then images else [DefaultImage]
  }

  /** The first image is the first present picture, so the main photo never changes when later slots are filled. */
  lemma FirstImageIsMainPicture(p: Product, url: string)
    requires p.picture == Some(url)
    ensures GetImages(p)[0] == url
  {
    var s := [p.picture, p.picture2, p.picture3];
    assert s[0] == Some(url);
  }
}

=== FILE: checkout_page.dfy ===
/**
 * The checkout page's script: the client-side tariff table, the shipping-cost
 * and grand-total display, the stop-desk markers for the chosen wilaya, the
 * desk selection and the submit check. The page is modelled as the values it
 * shows and the hidden form fields it fills.
 */
module CheckoutPage {
  import opened Wrappers
  import opened PyInt
  import StopDesks
  import RateSeed
  import Shipping
  import Orders
  import Carts

  /** One entry of the client table: home and stop-desk prices in DZD. */
  datatype ClientRate = ClientRate(wilaya: string, home: int, stop: int)

  /** The `shippingRates` object, in source order (written in parts of eight entries). */
  const ClientRates: seq<ClientRate> :=
    ClientPart1 + ClientPart2 + ClientPart3 + ClientPart4 + ClientPart5 + ClientPart6 + ClientPart7

  const ClientPart1: seq<ClientRate> := [
    ClientRate("Mostaganem", 600, 400),
    ClientRate("Mascara", 750, 450),
    ClientRate("Saida", 750, 450),
    ClientRate("Oran", 750, 450),
    ClientRate("Alger", 700, 450),
    ClientRate("Boumerdès", 800, 500),
    ClientRate("Blida", 800, 500),
    ClientRate("Tipaza", 800, 500)
  ]

  const ClientPart2: seq<ClientRate> := [
    ClientRate("Tizi Ouzou", 800, 500),
    ClientRate("Bouira", 800, 500),
    ClientRate("Béjaïa", 800, 500),
    ClientRate("Médéa", 800, 500),
    ClientRate("Aïn Defla", 800, 500),
    ClientRate("Aïn Témouchent", 800, 500),
    ClientRate("Chlef", 800, 500),
    ClientRate("Constantine", 800, 500)
  ]

  const ClientPart3: seq<ClientRate> := [
    ClientRate("Sétif", 800, 500),
    ClientRate("Tiaret", 800, 500),
    ClientRate("Tlemcen", 800, 500),
    ClientRate("Relizane", 800, 500),
    ClientRate("Sidi Bel Abbès", 800, 500),
    ClientRate("Jijel", 900, 600),
    ClientRate("Bordj Bou Arréridj", 900, 600),
    ClientRate("Annaba", 900, 600)
  ]

  const ClientPart4: seq<ClientRate> := [
    ClientRate("Batna", 900, 600),
    ClientRate("Tissemsilt", 900, 600),
    ClientRate("Skikda", 900, 600),
    ClientRate("Mila", 900, 600),
    ClientRate("M'Sila", 900, 600),
    ClientRate("El Tarf", 950, 600),
    ClientRate("Guelma", 950, 600),
    ClientRate("Khenchela", 950, 600)
  ]

  const ClientPart5: seq<ClientRate> := [
    ClientRate("Oum El Bouaghi", 950, 600),
    ClientRate("Souk Ahras", 950, 600),
    ClientRate("Tébessa", 1000, 600),
    ClientRate("Laghouat", 1000, 600),
    ClientRate("Djelfa", 1000, 600),
    ClientRate("Biskra", 1000, 600),
    ClientRate("Ouled Djellal", 1000, 1000),
    ClientRate("Ghardaïa", 1100, 700)
  ]

  const ClientPart6: seq<ClientRate> := [
    ClientRate("El Meniaa", 1100, 700),
    ClientRate("El Oued", 1100, 700),
    ClientRate("El M'Ghair", 1100, 1100),
    ClientRate("Ouargla", 1100, 700),
    ClientRate("Touggourt", 1100, 700),
    ClientRate("El Bayadh", 1200, 800),
    ClientRate("Naâma", 1200, 800),
    ClientRate("Béchar", 1200, 800)
  ]

  const ClientPart7: seq<ClientRate> := [
    ClientRate("Béni Abbès", 1200, 1200),
    ClientRate("Adrar", 1500, 1000),
    ClientRate("Timimoun", 1500, 1000),
    ClientRate("Tindouf", 1700, 1000),
    ClientRate("In Salah", 1800, 1200),
    ClientRate("Illizi", 1900, 1500),
    ClientRate("Tamanrasset", 2000, 1500),
    ClientRate("Djanet", 2200, 2200)
  ]

  /** The rates used for a wilaya the table does not list. */
  const UnknownWilayaRate: int := 800

  /**
   * `shippingRates[wilaya]`: the table's own entry for that wilaya, if any.
   * The names an object literal inherits from `Object.prototype` are not
   * modelled; they are taken to be unlisted.
   */
  function Lookup(table: seq<ClientRate>, wilaya: string): (r: Option<ClientRate>)
    ensures r.Some? ==> r.value in table && r.value.wilaya == wilaya
    ensures r.None? ==> forall e :: e in table ==> e.wilaya != wilaya
    decreases |table|
  {
    if |table| == 0 then None
    else if table[0].wilaya == wilaya then Some(table[0])
    else Lookup(table[1..], wilaya)
  }

  /**
   * `shippingRates[wilaya] || { home: 800, stop: 800 }` as a (home, stop)
   * pair, for a wilaya that is not an `Object.prototype` member name.
   */
  function RatesFor(wilaya: string): (r: (int, int))
    ensures Lookup(ClientRates, wilaya).None? ==> r == (UnknownWilayaRate, UnknownWilayaRate)
    ensures Lookup(ClientRates, wilaya).Some? ==>
      r == (Lookup(ClientRates, wilaya).value.home, Lookup(ClientRates, wilaya).value.stop)
  {
    match Lookup(ClientRates, wilaya)
    case Some(e) => (e.home, e.stop)
    case None => (UnknownWilayaRate, UnknownWilayaRate)
  }

  predicate StopNotAboveHome(table: seq<ClientRate>) {
    forall i :: 0 <= i < |table| ==> table[i].stop <= table[i].home
  }

  lemma StopNotAboveHomeAppend(a: seq<ClientRate>, b: seq<ClientRate>)
    requires StopNotAboveHome(a) && StopNotAboveHome(b)
    ensures StopNotAboveHome(a + b)
  {
    forall i | 0 <= i < |a + b| ensures (a + b)[i].stop <= (a + b)[i].home {
      if i >= |a| { assert (a + b)[i] == b[i - |a|]; }
    }
  }

  lemma ClientRatesStopNotAboveHome()
    ensures StopNotAboveHome(ClientRates)
  {
    assert StopNotAboveHome(ClientPart1) && StopNotAboveHome(ClientPart2) && StopNotAboveHome(ClientPart3);
    assert StopNotAboveHome(ClientPart4) && StopNotAboveHome(ClientPart5);
    assert StopNotAboveHome(ClientPart6) && StopNotAboveHome(ClientPart7);
    StopNotAboveHomeAppend(ClientPart1, ClientPart2);
    StopNotAboveHomeAppend(ClientPart1 + ClientPart2, ClientPart3);
    StopNotAboveHomeAppend(ClientPart1 + ClientPart2 + ClientPart3, ClientPart4);
    StopNotAboveHomeAppend(ClientPart1 + ClientPart2 + ClientPart3 + ClientPart4, ClientPart5);
    StopNotAboveHomeAppend(ClientPart1 + ClientPart2 + ClientPart3 + ClientPart4 + ClientPart5, ClientPart6);
    StopNotAboveHomeAppend(ClientPart1 + ClientPart2 + ClientPart3 + ClientPart4 + ClientPart5 + ClientPart6, ClientPart7);
  }

  /** Every price in the table is a whole number of dinars below 10000. */
  predicate ModestPrices(table: seq<ClientRate>) {
    forall i :: 0 <= i < |table| ==> 0 <= table[i].stop < 10000 && 0 <= table[i].home < 10000
  }

  lemma ModestPricesAppend(a: seq<ClientRate>, b: seq<ClientRate>)
    requires ModestPrices(a) && ModestPrices(b)
    ensures ModestPrices(a + b)
  {
    forall i | 0 <= i < |a + b| ensures 0 <= (a + b)[i].stop < 10000 && 0 <= (a + b)[i].home < 10000 {
      if i >= |a| { assert (a + b)[i] == b[i - |a|]; }
    }
  }

  lemma ClientPartsModest()
    ensures ModestPrices(ClientPart1) && ModestPrices(ClientPart2) && ModestPrices(ClientPart3)
    ensures ModestPrices(ClientPart4) && ModestPrices(ClientPart5)
    ensures ModestPrices(ClientPart6) && ModestPrices(ClientPart7)
  {
  }

  /** Every row of the page's table is priced below 10000 dinars. */
  lemma ClientRatesModest()
    ensures ModestPrices(ClientRates)
  {
    ClientPartsModest();
    ModestPricesAppend(ClientPart1, ClientPart2);
    ModestPricesAppend(ClientPart1 + ClientPart2, ClientPart3);
    ModestPricesAppend(ClientPart1 + ClientPart2 + ClientPart3, ClientPart4);
    ModestPricesAppend(ClientPart1 + ClientPart2 + ClientPart3 + ClientPart4, ClientPart5);
    ModestPricesAppend(ClientPart1 + ClientPart2 + ClientPart3 + ClientPart4 + ClientPart5, ClientPart6);
    ModestPricesAppend(ClientPart1 + ClientPart2 + ClientPart3 + ClientPart4 + ClientPart5 + ClientPart6, ClientPart7);
  }

  /** The prices the page can show are short enough for the server's `int()` to read back. */
  lemma RatesWithinDigitLimit(wilaya: string)
    ensures WithinDigitLimit(RatesFor(wilaya).0) && WithinDigitLimit(RatesFor(wilaya).1)
  {
    var (home, stop) := RatesFor(wilaya);
    assert 0 <= home < 10000 && 0 <= stop < 10000 by {
      ClientRatesModest();
      match Lookup(ClientRates, wilaya) {
        case Some(e) =>
          var i :| 0 <= i < |ClientRates| && ClientRates[i] == e;
        case None =>
      }
    }
    assert Pow10(4) == 10000;
    SpellingWithin(home, 4);
    SpellingWithin(stop, 4);
  }

  /** The "Save … DZD" figure is never negative, whatever wilaya `RatesFor` prices. */
  lemma SavingNeverNegative(wilaya: string)
    ensures RatesFor(wilaya).0 - RatesFor(wilaya).1 >= 0
  {
    ClientRatesStopNotAboveHome();
    match Lookup(ClientRates, wilaya) {
      case Some(e) =>
        var i :| 0 <= i < |ClientRates| && ClientRates[i] == e;
      case None =>
    }
  }

  /** A lookup in two tables laid end to end finds the first table's entry when it has one. */
  lemma {:induction false} LookupAppend(a: seq<ClientRate>, b: seq<ClientRate>, wilaya: string)
    ensures Lookup(a + b, wilaya) == if Lookup(a, wilaya).Some? then Lookup(a, wilaya) else Lookup(b, wilaya)
    decreases |a|
  {
    if |a| > 0 {
      assert (a + b)[0] == a[0];
      assert (a + b)[1..] == a[1..] + b;
      LookupAppend(a[1..], b, wilaya);
    } else {
      assert a + b == b;
    }
  }

  /** Two names differ when their lengths or one of their first two letters do. */
  predicate ClearlyDiffer(a: string, b: string) {
    |a| != |b| || (|a| >= 2 && (a[0] != b[0] || a[1] != b[1]))
  }

  /** A wilaya every entry's name clearly differs from has no rate. */
  lemma LookupAbsent(table: seq<ClientRate>, wilaya: string)
    requires forall i :: 0 <= i < |table| ==> ClearlyDiffer(table[i].wilaya, wilaya)
    ensures Lookup(table, wilaya).None?
  {
  }

  /** A part of the page's table whose every name clearly differs from "Sétif" has no row for it. */
  lemma PartLacksSetif(part: seq<ClientRate>)
    requires part == ClientPart1 || part == ClientPart2
    ensures Lookup(part, "Sétif").None?
  {
    if part == ClientPart1 {
      LookupAbsent(ClientPart1, "Sétif");
    } else {
      LookupAbsent(ClientPart2, "Sétif");
    }
  }

  /** The client's rates for "Sétif": 800 for home delivery, 500 at a stop desk. */
  lemma ClientRatesForSetif()
    ensures RatesFor("Sétif") == (800, 500)
  {
    var w := "Sétif";
    PartLacksSetif(ClientPart1);
    PartLacksSetif(ClientPart2);
    assert Lookup(ClientPart3, w) == Some(ClientRate(w, 800, 500));
    LookupAppend(ClientPart1, ClientPart2, w);
    var p3 := ClientPart1 + ClientPart2;
    LookupAppend(p3, ClientPart3, w);
    var p4 := p3 + ClientPart3;
    LookupAppend(p4, ClientPart4, w);
    var p5 := p4 + ClientPart4;
    LookupAppend(p5, ClientPart5, w);
    var p6 := p5 + ClientPart5;
    LookupAppend(p6, ClientPart6, w);
    var p7 := p6 + ClientPart6;
    LookupAppend(p7, ClientPart7, w);
    assert p7 + ClientPart7 == ClientRates;
  }

  /** No tariff line names `wilaya`. */
  predicate Avoids(tariffs: seq<RateSeed.Tariff>, wilaya: string) {
    forall i :: 0 <= i < |tariffs| ==> tariffs[i].wilaya != wilaya
  }

  lemma AvoidsAppend(a: seq<RateSeed.Tariff>, b: seq<RateSeed.Tariff>, wilaya: string)
    requires Avoids(a, wilaya) && Avoids(b, wilaya)
    ensures Avoids(a + b, wilaya)
  {
    forall i | 0 <= i < |a + b| ensures (a + b)[i].wilaya != wilaya {
      if i >= |a| { assert (a + b)[i] == b[i - |a|]; }
    }
  }

  /** The server's tariff has no line spelled "Sétif". */
  lemma TariffLacksSetif()
    ensures "Sétif" !in RateSeed.Listed(RateSeed.Tariffs)
  {
    var w := "Sétif";
    assert Avoids(RateSeed.TariffPart1, w);
    assert Avoids(RateSeed.TariffPart2, w);
    assert Avoids(RateSeed.TariffPart3, w);
    assert Avoids(RateSeed.TariffPart4, w);
    assert Avoids(RateSeed.TariffPart5, w);
    assert Avoids(RateSeed.TariffPart6, w);
    assert Avoids(RateSeed.TariffPart7, w);
    var p1 := RateSeed.TariffPart1;
    var p2 := p1 + RateSeed.TariffPart2;
    var p3 := p2 + RateSeed.TariffPart3;
    var p4 := p3 + RateSeed.TariffPart4;
    var p5 := p4 + RateSeed.TariffPart5;
    var p6 := p5 + RateSeed.TariffPart6;
    var p7 := p6 + RateSeed.TariffPart7;
    AvoidsAppend(p1, RateSeed.TariffPart2, w);
    AvoidsAppend(p2, RateSeed.TariffPart3, w);
    AvoidsAppend(p3, RateSeed.TariffPart4, w);
    AvoidsAppend(p4, RateSeed.TariffPart5, w);
    AvoidsAppend(p5, RateSeed.TariffPart6, w);
    AvoidsAppend(p6, RateSeed.TariffPart7, w);
    assert p7 == RateSeed.Tariffs;
    forall t | t in RateSeed.Tariffs ensures t.wilaya != w {
      var i :| 0 <= i < |p7| && p7[i] == t;
    }
  }

  /** The server's tariff names the wilaya "Setif". */
  lemma TariffListsSetif()
    ensures "Setif" in RateSeed.Listed(RateSeed.Tariffs)
  {
    var t := RateSeed.TariffPart3[0];
    assert t.wilaya == "Setif";
    var p3 := RateSeed.TariffPart1 + RateSeed.TariffPart2 + RateSeed.TariffPart3;
    assert t in p3;
    var p7 := p3 + RateSeed.TariffPart4 + RateSeed.TariffPart5 + RateSeed.TariffPart6 + RateSeed.TariffPart7;
    assert t in p7;
    assert p7 == RateSeed.Tariffs;
  }

  /**
   * The client spells some wilayas differently from the server's tariff. For
   * "Sétif" the page shows 800 / 500 while the seeded table has no row under
   * that spelling (it lists "Setif"), so the server's resolver answers the
   * 400 fallback for it.
   */
  lemma SetifSpelledDifferently(table: Shipping.RateTable)
    requires "Sétif" !in table
    ensures RatesFor("Sétif") == (800, 500)
    ensures var seeded := RateSeed.PopulateRates(table, RateSeed.Tariffs);
      && "Setif" in seeded
      && Shipping.GetShippingCost(seeded, map[], "Sétif", "home") == Shipping.Lookup(Shipping.FallbackCost, map[])
  {
    ClientRatesForSetif();
    TariffLacksSetif();
    TariffListsSetif();
  }
  // ---------------------------------------------------------------------------
  // The page
  // ---------------------------------------------------------------------------

  /**
   * What the page shows and holds: the price labels (home, stop, saving) or
   * "Select wilaya", the shipping cost shown or "Select wilaya first", the
   * hidden `shipping_cost` and `stop_desk_id` fields, the grand total, the
   * desk markers on the map, and whether the "no stop desk" alert fired.
   */
  datatype Page = Page(
    labels: Option<(int, int, int)>, shippingShown: Option<int>, shippingField: string,
    grandTotal: Option<int>, markers: seq<StopDesks.StopDesk>, noDeskAlert: bool,
    stopDeskId: string, selectedDesk: Option<StopDesks.StopDesk>)

  const StopDeskChoice: string := "stop_desk"

  /** `desks.filter(desk => desk.wilaya === wilaya)`. */
  function InWilaya(desks: seq<StopDesks.StopDesk>, wilaya: string): (r: seq<StopDesks.StopDesk>)
    ensures forall d :: d in r <==> d in desks && d.wilaya == wilaya
    decreases |desks|
  {
    if |desks| == 0 then []
    else
      var rest := InWilaya(desks[1..], wilaya);
      assert forall d :: d in desks <==> d == desks[0] || d in desks[1..];
      if desks[0].wilaya == wilaya then [desks[0]] + rest else rest
  }

  /**
   * The page receives only the active desks, so its per-wilaya filter shows
   * exactly what the server's `get_by_wilaya` returns, in the same order.
   */
  lemma {:induction false} ClientFilterIsGetByWilaya(desks: seq<StopDesks.StopDesk>, wilaya: string)
    ensures InWilaya(StopDesks.ActiveDesks(desks), wilaya) == StopDesks.GetByWilaya(desks, wilaya)
    decreases |desks|
  {
    if |desks| > 0 {
      ClientFilterIsGetByWilaya(desks[1..], wilaya);
      var active := StopDesks.ActiveDesks(desks);
      if desks[0].isActive {
        assert active[0] == desks[0] && active[1..] == StopDesks.ActiveDesks(desks[1..]);
      }
    }
  }

  /** `loadStopDesks`: clear the markers, then mark every desk of the wilaya, or alert when there is none. */
  function LoadStopDesks(page: Page, desksData: seq<StopDesks.StopDesk>, wilaya: string): (r: Page)
    ensures forall d :: d in r.markers <==> d in desksData && d.wilaya == wilaya
    ensures r.noDeskAlert <==> |r.markers| == 0
    ensures r.(markers := page.markers, noDeskAlert := page.noDeskAlert) == page
  {
    var shown := InWilaya(desksData, wilaya);
    page.(markers := shown, noDeskAlert := |shown| == 0)
  }

  /** The part of `updateShippingCost` after the two prices are known. */
  function ShowPrices(page: Page, subtotal: int, desksData: seq<StopDesks.StopDesk>,
                      wilaya: string, deliveryType: string, home: int, stop: int): (r: Page)
    ensures var cost := if deliveryType == StopDeskChoice then stop else home;
      && r.labels == Some((home, stop, home - stop))
      && r.shippingShown == Some(cost)
      // The server reads the hidden field back as the cost the total adds, when `int()` can read it at all.
      && (WithinDigitLimit(cost) ==>
            ParseInt(r.shippingField) == Some(cost) && Orders.ParsedShipping(Some(r.shippingField)) == Some(cost))
      && r.grandTotal == Some(subtotal + cost)
      && r.stopDeskId == page.stopDeskId
    ensures deliveryType == StopDeskChoice ==>
      (forall d :: d in r.markers <==> d in desksData && d.wilaya == wilaya)
      && (r.noDeskAlert <==> |r.markers| == 0)
    ensures deliveryType != StopDeskChoice ==> r.markers == page.markers && r.noDeskAlert == page.noDeskAlert
  {
    var cost := if deliveryType == StopDeskChoice then stop else home;
    ParseIntOfIntToString(cost);
    // `updateGrandTotal`: the subtotal plus the shipping cost.
    var shown := page.(labels := Some((home, stop, home - stop)), shippingShown := Some(cost),
                       shippingField := IntToString(cost), grandTotal := Some(subtotal + cost));
    if deliveryType == StopDeskChoice then LoadStopDesks(shown, desksData, wilaya) else shown
  }

  /** `updateShippingCost`, run when the wilaya or the delivery type changes. */
  function UpdateShippingCost(page: Page, subtotal: int, desksData: seq<StopDesks.StopDesk>,
                              wilaya: string, deliveryType: string): (r: Page)
    // No wilaya: the labels ask for one and nothing else changes.
    ensures wilaya == "" ==> r == page.(labels := None, shippingShown := None)
    ensures wilaya != "" ==>
      r == ShowPrices(page, subtotal, desksData, wilaya, deliveryType, RatesFor(wilaya).0, RatesFor(wilaya).1)
      && r.labels.value.2 >= 0
  {
    if wilaya == "" then page.(labels := None, shippingShown := None)
    else
      SavingNeverNegative(wilaya);
      ShowPrices(page, subtotal, desksData, wilaya, deliveryType, RatesFor(wilaya).0, RatesFor(wilaya).1)
  }

  /**
   * `selectStopDesk`: `stopDesksData.find(d => d.id === deskId)` is the same
   * search as the server's lookup by id. An unknown id changes nothing; a
   * known one fills the hidden field and the info card.
   */
  function SelectStopDesk(page: Page, desksData: seq<StopDesks.StopDesk>, id: int): (r: Page)
    ensures StopDesks.FindById(desksData, id).None? ==> r == page
    ensures StopDesks.FindById(desksData, id).Some? ==>
      && r.selectedDesk == StopDesks.FindById(desksData, id)
      && (WithinDigitLimit(id) ==> ParseInt(r.stopDeskId) == Some(id))
      && r.stopDeskId != ""
      && r.(stopDeskId := page.stopDeskId, selectedDesk := page.selectedDesk) == page
  {
    match StopDesks.FindById(desksData, id)
    case None => page
    case Some(d) =>
      ParseIntOfIntToString(id);
      page.(stopDeskId := IntToString(id), selectedDesk := Some(d))
  }

  /** `validateCheckoutForm`: submission is blocked iff a stop desk is required but none is chosen. */
  function SubmitBlocked(deliveryType: string, stopDeskId: string): (blocked: bool)
    ensures blocked ==> deliveryType == StopDeskChoice
    ensures deliveryType == StopDeskChoice ==> (blocked <==> stopDeskId == "")
  {
    deliveryType == StopDeskChoice && stopDeskId == ""
  }

  /**
   * A desk picked on the map unblocks the form, and the id it submits is one
   * the server's `place_order` lookup resolves to that very desk (for any id
   * short enough for `int()` to read, as every id the database hands out is).
   */
  lemma PickedDeskReachesOrder(page: Page, desks: seq<StopDesks.StopDesk>, d: StopDesks.StopDesk)
    requires d in StopDesks.ActiveDesks(desks)
    requires WithinDigitLimit(d.id)
    ensures var picked := SelectStopDesk(page, StopDesks.ActiveDesks(desks), d.id);
      && !SubmitBlocked(StopDeskChoice, picked.stopDeskId)
      && Orders.LookupDesk(desks, StopDeskChoice, Some(picked.stopDeskId)) == Orders.DeskChosen(Some(d.id))
  {
    var data := StopDesks.ActiveDesks(desks);
    assert StopDesks.FindById(data, d.id).Some?;
    assert d in desks;
    assert StopDesks.FindById(desks, d.id).Some?;
  }

  /** The charge matches the shown total whatever the two prices are, as long as `int()` can read them back. */
  lemma ChargeMatchesShownPrices(page: Page, subtotal: int, desksData: seq<StopDesks.StopDesk>,
                                 wilaya: string, deliveryType: string, home: int, stop: int,
                                 shop: Orders.Shop, user: Carts.UserId, req: Orders.OrderRequest)
    requires WithinDigitLimit(home) && WithinDigitLimit(stop)
    requires user in shop.carts.carts ==> Orders.CartPriced(shop, user)
    requires req.shippingCost == Some(ShowPrices(page, subtotal, desksData, wilaya, deliveryType, home, stop).shippingField)
    requires Orders.PlaceOrder(shop, user, req).Placed?
    requires Carts.ViewTotal(shop.catalog, shop.carts.carts[user]) == subtotal
    ensures Some(Orders.PlaceOrder(shop, user, req).order.totalPrice)
         == ShowPrices(page, subtotal, desksData, wilaya, deliveryType, home, stop).grandTotal
  {
    var shown := ShowPrices(page, subtotal, desksData, wilaya, deliveryType, home, stop);
    var cost := if deliveryType == StopDeskChoice then stop else home;
    assert Orders.ParsedShipping(Some(shown.shippingField)) == Some(cost);
    assert Orders.ParsedShipping(req.shippingCost) == Some(cost);
    Orders.PlacedCharges(shop, user, req);
    var o := Orders.PlaceOrder(shop, user, req).order;
    assert o.totalPrice == subtotal + cost;
  }

  /**
   * With a wilaya chosen, the order `place_order` creates from the page's
   * hidden shipping field charges exactly the grand total the page showed,
   * when the server's cart total is the subtotal the page displayed.
   */
  lemma DisplayedTotalIsCharged(page: Page, subtotal: int, desksData: seq<StopDesks.StopDesk>,
                                wilaya: string, deliveryType: string,
                                shop: Orders.Shop, user: Carts.UserId, req: Orders.OrderRequest)
    requires wilaya != ""
    requires user in shop.carts.carts ==> Orders.CartPriced(shop, user)
    requires req.shippingCost == Some(UpdateShippingCost(page, subtotal, desksData, wilaya, deliveryType).shippingField)
    requires Orders.PlaceOrder(shop, user, req).Placed?
    requires Carts.ViewTotal(shop.catalog, shop.carts.carts[user]) == subtotal
    ensures Some(Orders.PlaceOrder(shop, user, req).order.totalPrice)
         == UpdateShippingCost(page, subtotal, desksData, wilaya, deliveryType).grandTotal
  {
    var home, stop := RatesFor(wilaya).0, RatesFor(wilaya).1;
    RatesWithinDigitLimit(wilaya);
    ChargeMatchesShownPrices(page, subtotal, desksData, wilaya, deliveryType, home, stop, shop, user, req);
  }
}

=== FILE: invoice_page.dfy ===
/**
 * The admin order page script: on a page flagged as staff or admin, read the
 * order number out of the page header and add a "View Invoice" link to the
 * action buttons, in second position.
 */
module InvoicePage {
  import opened Wrappers
  import opened PyInt
  import CartPage

  // ---------------------------------------------------------------------------
  // Order id in the header
  // ---------------------------------------------------------------------------

  /** What `/#(\d+)/` captures when its match starts at position `i`: the whole run of digits after `#`. */
  function HashMatchAt(s: string, i: nat): Option<string> {
    if i + 1 < |s| && s[i] == '#' then
      var k := CartPage.DigitRunEnd(s, i + 1);
      if k > i + 1 then Some(s[i + 1..k]) else None
    else None
  }

  /** The pattern's own meaning: `#`, then digits `d` that the greedy `\d+` cannot extend. */
  ghost predicate HashOccurs(s: string, i: nat, d: string) {
    |d| > 0 && AllDigits(d) && i + |d| + 1 <= |s|
    && s[i] == '#' && s[i + 1..i + 1 + |d|] == d
    && (i + 1 + |d| == |s| || !IsDigit(s[i + 1 + |d|]))
  }

  /** A run of digits reaching the end of the string ends there. */
  lemma {:induction false} DigitRunToEnd(s: string, j: nat)
    requires j <= |s|
    requires forall m :: j <= m < |s| ==> IsDigit(s[m])
    ensures CartPage.DigitRunEnd(s, j) == |s|
    decreases |s| - j
  {
    if j < |s| {
      DigitRunToEnd(s, j + 1);
    }
  }

  lemma HashMatchAtIsOccurs(s: string, i: nat, d: string)
    ensures HashMatchAt(s, i) == Some(d) <==> HashOccurs(s, i, d)
  {
    if HashOccurs(s, i, d) {
      var e := i + 1 + |d|;
      forall m | i + 1 <= m < e ensures IsDigit(s[m]) {
        assert s[m] == d[m - i - 1];
      }
      if e == |s| {
        DigitRunToEnd(s, i + 1);
      } else {
        CartPage.DigitRunEndAt(s, i + 1, e);
      }
    }
  }

  /** The leftmost match at or after `i`. */
  function HashFindFrom(s: string, i: nat): (r: Option<string>)
    ensures r.Some? ==> exists p :: i <= p < |s| && HashMatchAt(s, p) == r && forall q :: i <= q < p ==> HashMatchAt(s, q).None?
    ensures r.None? ==> forall q :: i <= q < |s| ==> HashMatchAt(s, q).None?
    decreases |s| - i
  {
    if i >= |s| then None
    else if HashMatchAt(s, i).Some? then HashMatchAt(s, i)
    else HashFindFrom(s, i + 1)
  }

  lemma HashFindMeaning(text: string)
    ensures HashFindFrom(text, 0).Some? ==>
      var d := HashFindFrom(text, 0).value;
      |d| > 0 && AllDigits(d)
      && exists p: nat :: HashOccurs(text, p, d) && forall q :: 0 <= q < p ==> HashMatchAt(text, q).None?
    ensures HashFindFrom(text, 0).None? ==> forall q, d :: 0 <= q < |text| ==> !HashOccurs(text, q, d)
  {
    var r := HashFindFrom(text, 0);
    if r.Some? {
      var p :| 0 <= p < |text| && HashMatchAt(text, p) == r && forall q :: 0 <= q < p ==> HashMatchAt(text, q).None?;
      HashMatchAtIsOccurs(text, p, r.value);
    } else {
      forall q, d | 0 <= q < |text| ensures !HashOccurs(text, q, d) {
        HashMatchAtIsOccurs(text, q, d);
      }
    }
  }

  /**
   * `getOrderIdFromPage`: the header's text, or the empty string when there
   * is no header, searched for the leftmost `#digits`.
   */
  function GetOrderIdFromPage(header: Option<string>): (r: Option<string>)
    ensures header.None? ==> r.None?
    ensures r.Some? ==> |r.value| > 0 && AllDigits(r.value)
    ensures r.Some? ==> exists p: nat ::
      (HashOccurs(header.value, p, r.value) && forall q :: 0 <= q < p ==> HashMatchAt(header.value, q).None?)
    ensures header.Some? && r.None? ==> forall q, d :: 0 <= q < |header.value| ==> !HashOccurs(header.value, q, d)
  {
    var text := if header.Some? then header.value else "";
    HashFindMeaning(text);
    HashFindFrom(text, 0)
  }

  /** A header written as `<title> #<n><rest>`, with no `#` in the title and no digit opening the rest, yields `n`. */
  lemma ReadsRenderedOrderNumber(title: string, n: nat, rest: string)
    requires forall i :: 0 <= i < |title| ==> title[i] != '#'
    requires |rest| > 0 ==> !IsDigit(rest[0])
    ensures GetOrderIdFromPage(Some(title + "#" + IntToString(n) + rest)) == Some(IntToString(n))
    ensures WithinDigitLimit(n) ==> ParseInt(IntToString(n)) == Some(n)
  {
    var digits := IntToString(n);
    var s := title + "#" + digits + rest;
    var p := |title|;
    assert s[p] == '#';
    assert s[p + 1..p + 1 + |digits|] == digits;
    assert p + 1 + |digits| < |s| ==> s[p + 1 + |digits|] == rest[0];
    assert HashOccurs(s, p, digits);
    HashMatchAtIsOccurs(s, p, digits);
    forall q | 0 <= q < p ensures HashMatchAt(s, q).None? {
      assert s[q] == title[q];
    }
    HashFindPicksFirst(s, 0, p);
    ParseIntOfIntToString(n);
  }

  lemma {:induction false} HashFindPicksFirst(s: string, i: nat, p: nat)
    requires i <= p < |s| && HashMatchAt(s, p).Some?
    requires forall q :: i <= q < p ==> HashMatchAt(s, q).None?
    ensures HashFindFrom(s, i) == HashMatchAt(s, p)
    decreases p - i
  {
    if i < p {
      HashFindPicksFirst(s, i + 1, p);
    }
  }

  // ---------------------------------------------------------------------------
  // The button
  // ---------------------------------------------------------------------------

  /** A link among the action buttons, by its target. */
  datatype Link = Link(href: string, newTab: bool)

  /** The parts of the page the script reads and writes. */
  datatype Page = Page(
    isStaffAttr: Option<string>, isAdminAttr: Option<string>,
    actionButtons: Option<seq<Link>>, header: Option<string>)

  const InvoicePrefix: string := "/orders/print/"

  /** The invoice link's target. */
  function InvoiceUrl(orderId: string): (url: string)
    ensures |url| == |InvoicePrefix| + |orderId| + 1
    ensures url[..|InvoicePrefix|] == InvoicePrefix
    ensures url[|InvoicePrefix|..|url| - 1] == orderId
    ensures url[|url| - 1] == '/'
  {
    InvoicePrefix + orderId + "/"
  }

  /** `addViewInvoiceButton`. */
  function AddViewInvoiceButton(page: Page): (r: Page)
    // Only the action buttons can change.
    ensures r.(actionButtons := page.actionButtons) == page
    ensures r.actionButtons.Some? <==> page.actionButtons.Some?
    // No container or no order number: nothing happens.
    ensures page.actionButtons.None? || GetOrderIdFromPage(page.header).None? ==> r == page
    ensures page.actionButtons.Some? && GetOrderIdFromPage(page.header).Some? ==>
      var before := page.actionButtons.value;
      var after := r.actionButtons.value;
      var link := Link(InvoiceUrl(GetOrderIdFromPage(page.header).value), true);
      // One link more, in second place when there was a first, else the only one.
      && |after| == |before| + 1
      && (|before| >= 1 ==> after[0] == before[0] && after[1] == link && after[2..] == before[1..])
      && (|before| == 0 ==> after == [link])
  {
    match (page.actionButtons, GetOrderIdFromPage(page.header))
    case (Some(buttons), Some(id)) =>
      var link := Link(InvoiceUrl(id), true);
      // `insertBefore(link, children[1])`; with a single child that reference is absent and the link is appended, which is also second place.
      var placed := if |buttons| >= 1 then buttons[..1] + [link] + buttons[1..] else [link];
      page.(actionButtons := Some(placed))
    case _ => page
  }

  /** Both flags are `data-` attributes compared with the string `'true'`. */
  predicate IsStaff(page: Page) {
    page.isStaffAttr == Some("true") || page.isAdminAttr == Some("true")
  }

  /** The `DOMContentLoaded` handler: only a staff or admin page gets the button. */
  function OnLoad(page: Page): (r: Page)
    ensures !IsStaff(page) ==> r == page
    ensures IsStaff(page) ==> r == AddViewInvoiceButton(page)
  {
    if IsStaff(page) then AddViewInvoiceButton(page) else page
  }

  /**
   * On a staff page for order `n` whose header reads `<title> #<n><rest>`, the
   * link added in second place points at `/orders/print/<n>/`.
   */
  lemma StaffPageLinksToOrder(page: Page, title: string, n: nat, rest: string)
    requires IsStaff(page) && page.actionButtons.Some? && |page.actionButtons.value| >= 1
    requires page.header == Some(title + "#" + IntToString(n) + rest)
    requires forall i :: 0 <= i < |title| ==> title[i] != '#'
    requires |rest| > 0 ==> !IsDigit(rest[0])
    ensures var buttons := OnLoad(page).actionButtons;
      buttons.Some? && |buttons.value| >= 2 && buttons.value[1] == Link(InvoicePrefix + IntToString(n) + "/", true)
  {
    ReadsRenderedOrderNumber(title, n, rest);
  }

  /** Loading the script twice adds two links: the handler does not look for an earlier one. */
  lemma OnLoadNotIdempotent(page: Page)
    requires IsStaff(page) && page.actionButtons.Some? && GetOrderIdFromPage(page.header).Some?
    ensures |OnLoad(OnLoad(page)).actionButtons.value| == |page.actionButtons.value| + 2
  { }
}

=== FILE: order_examples.dfy ===
/** Concrete checkout scenarios for the `place_order` transition. */
module OrderExamples {
  import opened Wrappers
  import opened PyInt
  import opened PyDecimal
  import opened Catalog
  import opened Carts
  import opened Orders

  function Jar(id: ProductId, price: int): Product {
    Product(id, "Honey", None, "honey", price, None, None, None)
  }

  /** A cart of two jars at 100 and one at 50, owned by user 7. */
  function TwoLineShop(): Shop {
    Shop(map[1 := Jar(1, 100), 2 := Jar(2, 50)],
         CartStore(map[7 := [CartItem(1, 1, 2), CartItem(2, 2, 1)]], 3), [], [])
  }

  /** A home-delivery form from Oran with the map position left empty. */
  function HomeRequest(shipping: Option<string>): OrderRequest {
    MapRequest(shipping, None, None)
  }

  function MapRequest(shipping: Option<string>, latitude: Option<string>, longitude: Option<string>): OrderRequest {
    OrderRequest(true, "Amina", "0551234567", "12 rue des Oliviers", "Oran", "Oran", Some("home"),
                 latitude, longitude, shipping, None)
  }

  /** The form's texts fit their columns, so only the amounts and the position decide whether the row fits. */
  lemma MapRequestFits(shipping: Option<string>, latitude: Option<string>, longitude: Option<string>,
                       subtotal: int, cost: int)
    requires -100_000_000 < subtotal < 100_000_000 && -100_000_000 < cost < 100_000_000
    requires -100_000_000 < subtotal + cost < 100_000_000
    requires CoordinateStorable(latitude) && CoordinateStorable(longitude)
    ensures RowFits(MapRequest(shipping, latitude, longitude), subtotal, cost)
  {
    AmountFitsBelow(subtotal);
    AmountFitsBelow(cost);
    AmountFitsBelow(subtotal + cost);
  }

  lemma ParseEightHundred()
    ensures ParseInt("800") == Some(800)
  {
    assert IntToString(800) == "800";
    assert |NatToDigits(800)| == 3;
    ParseIntOfIntToString(800);
  }

  lemma ParseWordFails()
    ensures ParseInt("free") == None
  {
    assert PyStrip("free") == "free";
    assert !IsDigit("free"[0]);
  }

  lemma TwoLineShopPriced()
    ensures CartPriced(TwoLineShop(), 7)
  {
  }

  /**
   * Lines (100 × 2) and (50 × 1) with a declared cost of 800: subtotal 250,
   * total 1050, and the items keep the prices 100 and 50.
   */
  lemma WorkedOrder()
    ensures var r := PlaceOrder(TwoLineShop(), 7, HomeRequest(Some("800")));
      && r.Placed?
      && r.order.subtotal == 250 && r.order.shippingCost == 800 && r.order.totalPrice == 1050
      && r.order.items == [OrderItem(1, Some(2), Some(100)), OrderItem(2, Some(1), Some(50))]
      && r.shop.carts.carts[7] == []
  {
    TwoLineShopPriced();
    ParseEightHundred();
    TwoLineShopSubtotal();
    MapRequestFits(Some("800"), None, None, 250, 800);
  }

  /** As written, a shipping cost `int()` rejects makes the request fail instead of falling back to 800. */
  lemma UnparseableShippingFailsAsWritten()
    ensures PlaceOrderAsWritten(TwoLineShop(), 7, HomeRequest(Some("free"))) == Rejected(ShippingTypeError)
  {
    TwoLineShopPriced();
    ParseWordFails();
  }

  /** With the intended fallback, the same request is placed with a shipping cost of 800. */
  lemma UnparseableShippingFallsBack()
    ensures var r := PlaceOrder(TwoLineShop(), 7, HomeRequest(Some("free")));
      r.Placed? && r.order.shippingCost == 800 && r.order.totalPrice == 1050
  {
    TwoLineShopPriced();
    ParseWordFails();
    TwoLineShopSubtotal();
    MapRequestFits(Some("free"), None, None, 250, 800);
  }

  lemma TwoLineShopSubtotal()
    ensures ViewTotal(TwoLineShop().catalog, TwoLineShop().carts.carts[7]) == 250
  {
    var shop := TwoLineShop();
    assert ViewTotal(shop.catalog, shop.carts.carts[7]) == 250;
  }

  lemma SpellMinusTwoFifty()
    ensures IntToString(-250) == "-250"
  {
    assert NatToDigits(25) == NatToDigits(2) + [DigitChar(5)];
    assert NatToDigits(250) == NatToDigits(25) + [DigitChar(0)];
  }

  lemma ParseMinusTwoFifty()
    ensures ParsedShipping(Some("-250")) == Some(-250)
  {
    SpellMinusTwoFifty();
    assert |NatToDigits(250)| == 3;
    ParseIntOfIntToString(-250);
  }

  /** The declared cost is trusted: a negative one is accepted and lowers the total below the subtotal. */
  lemma NegativeShippingAccepted()
    ensures var r := PlaceOrder(TwoLineShop(), 7, HomeRequest(Some("-250")));
      r.Placed? && r.order.shippingCost == -250 && r.order.totalPrice == 0
  {
    var shop, req := TwoLineShop(), HomeRequest(Some("-250"));
    TwoLineShopPriced();
    TwoLineShopSubtotal();
    ParseMinusTwoFifty();
    MapRequestFits(Some("-250"), None, None, 250, -250);
    WellFormedSubmissionPlaced(shop, 7, req);
    PlacedCharges(shop, 7, req);
  }

  lemma HundredMillionDigits()
    ensures DigitsToNat("100000000") == 100000000
  {
    assert "100000000"[..8] == "10000000";
    assert "10000000"[..7] == "1000000";
    assert "1000000"[..6] == "100000";
    assert "100000"[..5] == "10000";
    assert "10000"[..4] == "1000";
    assert "1000"[..3] == "100";
    assert "100"[..2] == "10";
    assert "10"[..1] == "1";
  }

  lemma LatitudeDigits()
    ensures DigitsToNat("367538") == 367538
  {
    assert "367538"[..5] == "36753";
    assert "36753"[..4] == "3675";
    assert "3675"[..3] == "367";
    assert "367"[..2] == "36";
    assert "36"[..1] == "3";
  }

  lemma LongitudeDigits()
    ensures DigitsToNat("30588") == 30588
  {
    assert "30588"[..4] == "3058";
    assert "3058"[..3] == "305";
    assert "305"[..2] == "30";
    assert "30"[..1] == "3";
  }

  lemma ParseHundredMillion()
    ensures ParseInt("100000000") == Some(100_000_000)
  {
    DigitStringLimit("100000000");
    HundredMillionDigits();
  }

  /**
   * A declared cost of 100000000 is read, but the money columns hold at most
   * eight integer digits, so the insert fails and nothing is written.
   */
  lemma OversizedShippingRejected()
    ensures PlaceOrder(TwoLineShop(), 7, HomeRequest(Some("100000000"))) == Rejected(SaveFailed)
  {
    TwoLineShopPriced();
    TwoLineShopSubtotal();
    ParseHundredMillion();
    AmountFitsBelow(100_000_000);
  }

  lemma WordIsNotDecimal()
    ensures ParseDecimal("abc").None?
  {
    assert PyStrip("abc") == "abc";
    assert FindMark("abc", {'e', 'E'}) == 3;
    assert FindMark("abc", {'.'}) == 3;
    assert "abc"[..3] == "abc";
  }

  /** A latitude `Decimal()` cannot read makes the insert fail: the order is not placed and the cart is kept. */
  lemma MalformedLatitudeRejected()
    ensures PlaceOrder(TwoLineShop(), 7, MapRequest(Some("800"), Some("abc"), None)) == Rejected(SaveFailed)
  {
    TwoLineShopPriced();
    ParseEightHundred();
    WordIsNotDecimal();
  }

  lemma AlgiersLatitudeReads()
    ensures ParseDecimal("36.7538") == Some(Decimal(false, 367538, -4))
  {
    PointedDigitsMeaning("36", "7538");
    LatitudeSpelling();
    LatitudeDigits();
  }

  lemma LatitudeSpelling()
    ensures "36" + "." + "7538" == "36.7538" && "36" + "7538" == "367538"
  {
  }

  lemma AlgiersLongitudeReads()
    ensures ParseDecimal("3.0588") == Some(Decimal(false, 30588, -4))
  {
    PointedDigitsMeaning("3", "0588");
    LongitudeSpelling();
    LongitudeDigits();
  }

  lemma LongitudeSpelling()
    ensures "3" + "." + "0588" == "3.0588" && "3" + "0588" == "30588"
  {
  }

  /** Both numbers have four decimals and a whole part below 1000, so both fit `DecimalField(9, 6)`. */
  lemma AlgiersPosition()
    ensures CoordinateStorable(Some("36.7538")) && CoordinateStorable(Some("3.0588"))
    ensures StoredCoordinate(Some("36.7538")) == Some(Decimal(false, 36753800, -6))
    ensures StoredCoordinate(Some("3.0588")) == Some(Decimal(false, 3058800, -6))
  {
    LatitudeStored();
    LongitudeStored();
  }

  lemma LatitudeStored()
    ensures CoordinateStorable(Some("36.7538"))
    ensures StoredCoordinate(Some("36.7538")) == Some(Decimal(false, 36753800, -6))
  {
    AlgiersLatitudeReads();
    assert Pow10(2) == 100;
    assert Pow10(CoordinateDigits) == 1_000_000_000;
  }

  lemma LongitudeStored()
    ensures CoordinateStorable(Some("3.0588"))
    ensures StoredCoordinate(Some("3.0588")) == Some(Decimal(false, 3058800, -6))
  {
    AlgiersLongitudeReads();
    assert Pow10(2) == 100;
    assert Pow10(CoordinateDigits) == 1_000_000_000;
  }

  /** A position picked on the map is kept, padded to the column's six places. */
  lemma PositionStored()
    ensures var r := PlaceOrder(TwoLineShop(), 7, MapRequest(Some("800"), Some("36.7538"), Some("3.0588")));
      && r.Placed?
      && r.order.latitude == Some(Decimal(false, 36753800, -6))
      && r.order.longitude == Some(Decimal(false, 3058800, -6))
  {
    TwoLineShopPriced();
    TwoLineShopSubtotal();
    ParseEightHundred();
    AlgiersPosition();
    MapRequestFits(Some("800"), Some("36.7538"), Some("3.0588"), 250, 800);
  }
}

=== FILE: orders.dfy ===
/**
 * Orders: the `Order` / `OrderItem` records, the `checkout` page, the
 * `place_order` transition from a cart to an order, the order helpers, and
 * the profile page's order statistics.
 */
module Orders {
  import opened Wrappers
  import opened PyInt
  import opened PyDecimal
  import opened Catalog
  import opened Carts
  import StopDesks
  import Shipping

  datatype Status = Pending | Processing | Shipped | Delivered | Cancelled

  const CashOnDelivery: string := "cod"
  /** The shipping cost `place_order` uses when the form carries none. */
  const DefaultOrderShipping: int := 800
  /** The `shipping_cost` column default for orders created without one. */
  const ShippingColumnDefault: int := 0
  const HomeDelivery: string := "home"
  const StopDeskDelivery: string := "stop_desk"

  /** An `OrderItem`: a snapshot of one cart line. Unsaved rows may lack a quantity or a price. */
  datatype OrderItem = OrderItem(product: ProductId, quantity: Option<int>, price: Option<int>)

  datatype Order = Order(
    id: nat, user: UserId, status: Status, paymentMethod: string,
    subtotal: int, shippingCost: int, totalPrice: int,
    fullName: string, phone: string, address: string, city: string, wilaya: string,
    deliveryType: string, stopDesk: Option<nat>, latitude: Option<Decimal>, longitude: Option<Decimal>,
    trackingNumber: Option<string>, items: seq<OrderItem>)

  /** The state `place_order` reads and writes. Orders are kept in id order, id = position + 1. */
  datatype Shop = Shop(catalog: Catalog, carts: CartStore, desks: seq<StopDesks.StopDesk>, orders: seq<Order>)

  /** The submitted checkout form; an absent optional field is `None`. */
  datatype OrderRequest = OrderRequest(
    isPost: bool, fullName: string, phone: string, address: string, city: string, wilaya: string,
    deliveryType: Option<string>, latitude: Option<string>, longitude: Option<string>,
    shippingCost: Option<string>, stopDeskId: Option<string>)

  // ---------------------------------------------------------------------------
  // Order helpers
  // ---------------------------------------------------------------------------

  /** `Order.objects.create(...)`: the column defaults fill what the call leaves out. */
  function CreateOrder(id: nat, user: UserId, subtotal: int, shippingCost: Option<int>, totalPrice: int,
                       fullName: string, phone: string, address: string, city: string, wilaya: string,
                       deliveryType: string, stopDesk: Option<nat>,
                       latitude: Option<Decimal>, longitude: Option<Decimal>): (o: Order)
    ensures o.status == Pending && o.paymentMethod == CashOnDelivery
    ensures o.shippingCost == shippingCost.GetOr(ShippingColumnDefault)
    ensures o.trackingNumber.None? && o.items == []
    ensures o.id == id && o.user == user && o.subtotal == subtotal && o.totalPrice == totalPrice
  {
    Order(id, user, Pending, CashOnDelivery, subtotal, shippingCost.GetOr(ShippingColumnDefault), totalPrice,
          fullName, phone, address, city, wilaya, deliveryType, stopDesk, latitude, longitude, None, [])
  }

  /** `OrderItem.get_total_price`: quantity times price, a missing value counting as 0. */
  function ItemTotal(item: OrderItem): (t: int)
    ensures item.quantity.None? || item.price.None? ==> t == 0
    ensures item.quantity.Some? && item.price.Some? ==> t == item.quantity.value * item.price.value
  {
    item.quantity.GetOr(0) * item.price.GetOr(0)
  }

  /** Σ `get_total_price` over an order's items. */
  function ItemsTotal(items: seq<OrderItem>): int
    decreases |items|
  {
    if |items| == 0 then 0 else ItemTotal(items[0]) + ItemsTotal(items[1..])
  }

  /** Σ quantity over stored items (`get_total_items`); stored rows always have a quantity. */
  function QuantitySum(items: seq<OrderItem>): int
    requires forall i :: 0 <= i < |items| ==> items[i].quantity.Some?
    decreases |items|
  {
    if |items| == 0 then 0 else items[0].quantity.value + QuantitySum(items[1..])
  }

  /** `Order.get_total_items`. */
  function GetTotalItems(o: Order): (n: int)
    requires forall i :: 0 <= i < |o.items| ==> o.items[i].quantity.Some?
    ensures (forall i :: 0 <= i < |o.items| ==> o.items[i].quantity.value >= 1) ==> n >= |o.items|
  {
    PositiveQuantitiesBound(o.items);
    QuantitySum(o.items)
  }

  lemma {:induction false} PositiveQuantitiesBound(items: seq<OrderItem>)
    requires forall i :: 0 <= i < |items| ==> items[i].quantity.Some?
    ensures (forall i :: 0 <= i < |items| ==> items[i].quantity.value >= 1) ==> QuantitySum(items) >= |items|
    decreases |items|
  {
    if |items| > 0 {
      PositiveQuantitiesBound(items[1..]);
    }
  }

  /** `Order.calculate_shipping`: the resolver's price for the order's wilaya and delivery type. */
  function CalculateShipping(rates: Shipping.RateTable, cache: Shipping.Cache, o: Order): (r: Shipping.Lookup)
    ensures Shipping.IsDeliveryChoice(o.deliveryType) && Shipping.Coherent(rates, cache) ==>
      r.cost == Shipping.TablePrice(rates, o.wilaya, o.deliveryType) && Shipping.Coherent(rates, r.cache)
    ensures o.wilaya !in rates && Shipping.CacheKey(o.wilaya, o.deliveryType) !in cache ==>
      r.cost == Shipping.FallbackCost && r.cache == cache
  {
    var r := Shipping.GetShippingCost(rates, cache, o.wilaya, o.deliveryType);
    assert Shipping.IsDeliveryChoice(o.deliveryType) && Shipping.Coherent(rates, cache) ==>
      r.cost == Shipping.TablePrice(rates, o.wilaya, o.deliveryType) && Shipping.Coherent(rates, r.cache) by {
      if Shipping.IsDeliveryChoice(o.deliveryType) && Shipping.Coherent(rates, cache) {
        Shipping.CoherentLookup(rates, cache, o.wilaya, o.deliveryType);
      }
    }
    r
  }

  // ---------------------------------------------------------------------------
  // Snapshots of the cart
  // ---------------------------------------------------------------------------

  /** One `OrderItem` per cart line: same product and quantity, the product's price at this instant. */
  function Snapshot(catalog: Catalog, lines: seq<CartItem>): (r: seq<OrderItem>)
    requires forall i :: 0 <= i < |lines| ==> lines[i].product in catalog
    ensures |r| == |lines|
    ensures forall i :: 0 <= i < |lines| ==>
      r[i] == OrderItem(lines[i].product, Some(lines[i].quantity), Some(catalog[lines[i].product].price))
    decreases |lines|
  {
    if |lines| == 0 then []
    else
      [OrderItem(lines[0].product, Some(lines[0].quantity), Some(catalog[lines[0].product].price))]
      + Snapshot(catalog, lines[1..])
  }

  /** The snapshot items total what the cart totalled when the order was placed. */
  lemma {:induction false} SnapshotTotal(catalog: Catalog, lines: seq<CartItem>)
    requires forall i :: 0 <= i < |lines| ==> lines[i].product in catalog
    ensures ItemsTotal(Snapshot(catalog, lines)) == ViewTotal(catalog, lines)
    decreases |lines|
  {
    if |lines| > 0 {
      SnapshotTotal(catalog, lines[1..]);
      assert Snapshot(catalog, lines)[1..] == Snapshot(catalog, lines[1..]);
    }
  }

  /** The snapshot holds as many units as the cart did. */
  lemma {:induction false} SnapshotCount(catalog: Catalog, lines: seq<CartItem>)
    requires forall i :: 0 <= i < |lines| ==> lines[i].product in catalog
    ensures QuantitySum(Snapshot(catalog, lines)) == CartCount(lines)
    decreases |lines|
  {
    if |lines| > 0 {
      SnapshotCount(catalog, lines[1..]);
      assert Snapshot(catalog, lines)[1..] == Snapshot(catalog, lines[1..]);
    }
  }

  // ---------------------------------------------------------------------------
  // checkout
  // ---------------------------------------------------------------------------

  datatype CheckoutOutcome =
    | CheckoutCartNotFound
    | CheckoutCartEmpty
    /** The page: the cart's rows, its total and the desks offered on the map. */
    | CheckoutPage(items: seq<CartItem>, total: int, desks: seq<StopDesks.StopDesk>)

  /** `checkout`: a 404 without a cart row, a redirect for an empty cart, otherwise the page. */
  function Checkout(shop: Shop, user: UserId): (r: CheckoutOutcome)
    ensures r.CheckoutCartNotFound? <==> user !in shop.carts.carts
    ensures r.CheckoutCartEmpty? <==> user in shop.carts.carts && |shop.carts.carts[user]| == 0
    ensures r.CheckoutPage? ==>
      && r.items == shop.carts.carts[user]
      && r.total == ViewTotal(shop.catalog, r.items)
      && (forall d :: d in r.desks <==> d in shop.desks && d.isActive)
  {
    if user !in shop.carts.carts then CheckoutCartNotFound
    else
      var items := shop.carts.carts[user];
      if |items| == 0 then CheckoutCartEmpty
      else
        GetTotalIsViewTotal(shop.catalog, items);
        CheckoutPage(items, GetTotal(shop.catalog, items).value, StopDesks.ActiveDesks(shop.desks))
  }

  // ---------------------------------------------------------------------------
  // place_order
  // ---------------------------------------------------------------------------

  datatype Rejection =
    | NotPost
    | CartNotFound
    | EmptyCart
    /** `StopDesk.objects.get(id=…)` raised `ValueError` on a non-numeric id. */
    | DeskIdNotInteger
    /** `Decimal + float` raised `TypeError` (the as-written fallback path). */
    | ShippingTypeError
    /** `Order.objects.create` raised: a value does not fit its column. */
    | SaveFailed

  datatype PlaceOutcome = Placed(shop: Shop, order: Order) | Rejected(reason: Rejection)

  /** The delivery type as submitted, `home` when absent. */
  function DeliveryTypeOf(req: OrderRequest): string {
    req.deliveryType.GetOr(HomeDelivery)
  }

  /** The desk lookup of `place_order`: skipped, found, not found, or a `ValueError`. */
  datatype DeskLookup = DeskChosen(desk: Option<nat>) | DeskIdRejected

  function LookupDesk(desks: seq<StopDesks.StopDesk>, deliveryType: string, stopDeskId: Option<string>): (r: DeskLookup)
    ensures r.DeskChosen? && r.desk.Some? ==>
      deliveryType == StopDeskDelivery && exists d :: d in desks && d.id == r.desk.value
    ensures deliveryType != StopDeskDelivery || stopDeskId.None? || stopDeskId == Some("") ==> r == DeskChosen(None)
    ensures r.DeskIdRejected? <==>
      deliveryType == StopDeskDelivery && stopDeskId.Some? && stopDeskId.value != "" && ParseInt(stopDeskId.value).None?
    ensures (deliveryType == StopDeskDelivery && stopDeskId.Some? && ParseInt(stopDeskId.value).Some?
             && exists d :: d in desks && d.id == ParseInt(stopDeskId.value).value)
            ==> r.DeskChosen? && r.desk.Some?
  {
    if deliveryType == StopDeskDelivery && stopDeskId.Some? && stopDeskId.value != "" then
      match ParseInt(stopDeskId.value)
      case None => DeskIdRejected
      case Some(n) =>
        match StopDesks.FindById(desks, n)
        case Some(d) => DeskChosen(Some(d.id))
        case None => DeskChosen(None)
    else DeskChosen(None)
  }

  /** `int(request.POST.get('shipping_cost', 800))`: `None` when `int()` raises. */
  function ParsedShipping(field: Option<string>): (r: Option<int>)
    ensures field.None? ==> r == Some(DefaultOrderShipping)
    ensures field.Some? ==> r == ParseInt(field.value)
  {
    match field
    case None => Some(DefaultOrderShipping)
    case Some(text) => ParseInt(text)
  }

  /** The user's cart holds rows of known products, so it can be priced. */
  predicate CartPriced(shop: Shop, user: UserId) {
    user in shop.carts.carts
    && forall i :: 0 <= i < |shop.carts.carts[user]| ==> shop.carts.carts[user][i].product in shop.catalog
  }

  // ---------------------------------------------------------------------------
  // The order row's columns
  // ---------------------------------------------------------------------------

  /** `subtotal`, `shipping_cost` and `total_price` are `DecimalField(max_digits=10, decimal_places=2)`. */
  const AmountDigits: nat := 10
  const AmountPlaces: nat := 2
  /** `latitude` and `longitude` are `DecimalField(max_digits=9, decimal_places=6)`. */
  const CoordinateDigits: nat := 9
  const CoordinatePlaces: nat := 6
  /** The `max_length` of each `CharField` the row fills from the form (`address` is a `TextField`). */
  const FullNameLength: nat := 200
  const PhoneLength: nat := 20
  const CityLength: nat := 100
  const WilayaLength: nat := 100
  const DeliveryTypeLength: nat := 20

  /** Whether an amount in dinars can be written into a money column. */
  predicate AmountFits(v: int) {
    FitsColumn(FromInt(v), AmountDigits, AmountPlaces)
  }

  /** A money column holds exactly the amounts of at most eight integer digits. */
  lemma AmountFitsBelow(v: int)
    ensures AmountFits(v) <==> -100_000_000 < v < 100_000_000
  {
    IntegerFitsColumn(v, AmountDigits, AmountPlaces);
    assert Pow10(AmountDigits - AmountPlaces) == 100_000_000;
  }

  /** `latitude if latitude else None`: an absent or empty field is stored as NULL. */
  function SubmittedCoordinate(field: Option<string>): Option<string> {
    if field.Some? && field.value != "" then field else None
  }

  /**
   * Whether the column accepts a submitted coordinate: NULL always, and text
   * only when `Decimal()` reads it and it fits `DecimalField(9, 6)`.
   */
  predicate CoordinateStorable(field: Option<string>) {
    match SubmittedCoordinate(field)
    case None => true
    case Some(t) => ParseDecimal(t).Some? && FitsColumn(ParseDecimal(t).value, CoordinateDigits, CoordinatePlaces)
  }

  /** The value the column holds afterwards: the submitted number rounded to six places. */
  function StoredCoordinate(field: Option<string>): (r: Option<Decimal>)
    requires CoordinateStorable(field)
    ensures r.None? <==> SubmittedCoordinate(field).None?
    ensures r.Some? ==> r.value.exponent == -(CoordinatePlaces as int) && r.value.coefficient < Pow10(CoordinateDigits)
  {
    match SubmittedCoordinate(field)
    case None => None
    case Some(t) => Some(Quantized(ParseDecimal(t).value, CoordinatePlaces))
  }

  /**
   * Whether `Order.objects.create` can write the row: every amount fits its
   * money column, every coordinate its coordinate column, and every text its
   * `max_length`.
   */
  predicate RowFits(req: OrderRequest, subtotal: int, shipping: int) {
    && AmountFits(subtotal) && AmountFits(shipping) && AmountFits(subtotal + shipping)
    && CoordinateStorable(req.latitude) && CoordinateStorable(req.longitude)
    && |req.fullName| <= FullNameLength && |req.phone| <= PhoneLength
    && |req.city| <= CityLength && |req.wilaya| <= WilayaLength
    && |DeliveryTypeOf(req)| <= DeliveryTypeLength
  }

  /**
   * The order creation, item snapshots and cart clearing once every check has
   * passed. When a value does not fit its column the insert raises and
   * nothing is written; the items are only created after the order row.
   */
  function Commit(shop: Shop, user: UserId, req: OrderRequest, desk: Option<nat>, shipping: int): (r: PlaceOutcome)
    requires CartPriced(shop, user) && |shop.carts.carts[user]| > 0
    ensures r.Placed? <==> RowFits(req, ViewTotal(shop.catalog, shop.carts.carts[user]), shipping)
    ensures r.Rejected? ==> r.reason == SaveFailed
    ensures r.Placed? ==> var lines := shop.carts.carts[user];
      && r.order.subtotal == ViewTotal(shop.catalog, lines)
      && Some(r.order.subtotal) == GetTotal(shop.catalog, lines)
      && r.order.shippingCost == shipping
      && r.order.totalPrice == r.order.subtotal + r.order.shippingCost
      && r.order.items == Snapshot(shop.catalog, lines)
      && ItemsTotal(r.order.items) == r.order.subtotal
      && QuantitySum(r.order.items) == CartCount(lines)
    ensures r.Placed? ==> r.order.id == |shop.orders| + 1 && r.order.user == user
    ensures r.Placed? ==> r.order.status == Pending && r.order.paymentMethod == CashOnDelivery
    ensures r.Placed? ==> r.order.deliveryType == DeliveryTypeOf(req) && r.order.stopDesk == desk
    ensures r.Placed? ==> r.order.latitude == StoredCoordinate(req.latitude) && r.order.longitude == StoredCoordinate(req.longitude)
    ensures r.Placed? ==> r.shop.orders == shop.orders + [r.order]
    ensures r.Placed? ==> r.shop.carts.carts == shop.carts.carts[user := []]
    ensures r.Placed? ==> r.shop.carts.nextItemId == shop.carts.nextItemId
    ensures r.Placed? ==> r.shop.catalog == shop.catalog && r.shop.desks == shop.desks
  {
    var lines := shop.carts.carts[user];
    GetTotalIsViewTotal(shop.catalog, lines);
    SnapshotTotal(shop.catalog, lines);
    SnapshotCount(shop.catalog, lines);
    var subtotal := GetTotal(shop.catalog, lines).value;
    if !RowFits(req, subtotal, shipping) then Rejected(SaveFailed)
    else
      var o := CreateOrder(|shop.orders| + 1, user, subtotal, Some(shipping), subtotal + shipping,
                           req.fullName, req.phone, req.address, req.city, req.wilaya,
                           DeliveryTypeOf(req), desk, StoredCoordinate(req.latitude), StoredCoordinate(req.longitude));
      var o := o.(items := Snapshot(shop.catalog, lines));
      Placed(shop.(orders := shop.orders + [o], carts := shop.carts.(carts := shop.carts.carts[user := []])), o)
  }

  /**
   * `place_order` as written: when `int()` rejects the submitted shipping
   * cost, the fallback `800.00` is a float and adding it to the Decimal
   * subtotal raises `TypeError`, so no order is placed.
   */
  function PlaceOrderAsWritten(shop: Shop, user: UserId, req: OrderRequest): (r: PlaceOutcome)
    requires user in shop.carts.carts ==> CartPriced(shop, user)
    ensures req.isPost && req.shippingCost.Some? && ParseInt(req.shippingCost.value).None?
            && user in shop.carts.carts && |shop.carts.carts[user]| > 0 ==>
      r.Rejected? && (r.reason == ShippingTypeError || r.reason == DeskIdNotInteger)
    ensures r.Placed? ==> ParsedShipping(req.shippingCost).Some?
                          && r.order.shippingCost == ParsedShipping(req.shippingCost).value
                          && RowFits(req, r.order.subtotal, r.order.shippingCost)
    ensures req.shippingCost.None? || ParseInt(req.shippingCost.value).Some? ==>
      r == PlaceOrder(shop, user, req)
  {
    if !req.isPost then Rejected(NotPost)
    else if user !in shop.carts.carts then Rejected(CartNotFound)
    else if |shop.carts.carts[user]| == 0 then Rejected(EmptyCart)
    else
      match LookupDesk(shop.desks, DeliveryTypeOf(req), req.stopDeskId)
      case DeskIdRejected => Rejected(DeskIdNotInteger)
      case DeskChosen(desk) =>
        match ParsedShipping(req.shippingCost)
        case None => Rejected(ShippingTypeError)
        case Some(shipping) => Commit(shop, user, req, desk, shipping)
  }

  /**
   * `place_order` with the evident intent of its fallback: a shipping cost
   * `int()` rejects is replaced by 800. Every other step is as written,
   * including that a negative submitted cost is accepted.
   */
  function PlaceOrder(shop: Shop, user: UserId, req: OrderRequest): (r: PlaceOutcome)
    requires user in shop.carts.carts ==> CartPriced(shop, user)
    ensures !req.isPost ==> r == Rejected(NotPost)
    ensures req.isPost && user !in shop.carts.carts ==> r == Rejected(CartNotFound)
    ensures req.isPost && user in shop.carts.carts && |shop.carts.carts[user]| == 0 ==> r == Rejected(EmptyCart)
    ensures r.Rejected? ==> r.reason != ShippingTypeError
    ensures r == Rejected(DeskIdNotInteger) <==>
      req.isPost && user in shop.carts.carts && |shop.carts.carts[user]| > 0
      && LookupDesk(shop.desks, DeliveryTypeOf(req), req.stopDeskId).DeskIdRejected?
    ensures r == Rejected(SaveFailed) <==>
      req.isPost && user in shop.carts.carts && |shop.carts.carts[user]| > 0
      && LookupDesk(shop.desks, DeliveryTypeOf(req), req.stopDeskId).DeskChosen?
      && !RowFits(req, ViewTotal(shop.catalog, shop.carts.carts[user]),
                  ParsedShipping(req.shippingCost).GetOr(DefaultOrderShipping))
    ensures r.Placed? ==>
      var lines := shop.carts.carts[user];
      && |lines| > 0
      && Some(r.order.subtotal) == GetTotal(shop.catalog, lines)
      && r.order.shippingCost == ParsedShipping(req.shippingCost).GetOr(DefaultOrderShipping)
      && r.order.totalPrice == r.order.subtotal + r.order.shippingCost
      && r.order.items == Snapshot(shop.catalog, lines)
      && ItemsTotal(r.order.items) == r.order.subtotal
      && QuantitySum(r.order.items) == CartCount(lines)
      && r.order.status == Pending && r.order.paymentMethod == CashOnDelivery
      && r.order.deliveryType == DeliveryTypeOf(req)
      && r.order.latitude == StoredCoordinate(req.latitude) && r.order.longitude == StoredCoordinate(req.longitude)
      && LookupDesk(shop.desks, DeliveryTypeOf(req), req.stopDeskId) == DeskChosen(r.order.stopDesk)
      // Exactly one order more; every earlier order untouched.
      && r.shop.orders == shop.orders + [r.order] && r.order.id == |shop.orders| + 1
      // The cart row stays, emptied; every other cart, the catalog and the desks are untouched.
      && user in r.shop.carts.carts && r.shop.carts.carts[user] == []
      && (forall u :: u != user ==> Items(r.shop.carts, u) == Items(shop.carts, u))
      && r.shop.carts.carts.Keys == shop.carts.carts.Keys
      && r.shop.catalog == shop.catalog && r.shop.desks == shop.desks
  {
    if !req.isPost then Rejected(NotPost)
    else if user !in shop.carts.carts then Rejected(CartNotFound)
    else if |shop.carts.carts[user]| == 0 then Rejected(EmptyCart)
    else
      match LookupDesk(shop.desks, DeliveryTypeOf(req), req.stopDeskId)
      case DeskIdRejected => Rejected(DeskIdNotInteger)
      case DeskChosen(desk) =>
        Commit(shop, user, req, desk, ParsedShipping(req.shippingCost).GetOr(DefaultOrderShipping))
  }

  /** A place_order that succeeds leaves the shop in a state from which placing again is rejected as an empty cart. */
  lemma DoubleSubmitRejected(shop: Shop, user: UserId, req: OrderRequest, again: OrderRequest)
    requires user in shop.carts.carts ==> CartPriced(shop, user)
    requires PlaceOrder(shop, user, req).Placed?
    requires again.isPost
    ensures var next := PlaceOrder(shop, user, req).shop;
      PlaceOrder(next, user, again) == Rejected(EmptyCart)
  {
  }

  /**
   * A POST over a non-empty cart whose desk id (if any) is numeric is placed
   * exactly when the row fits its columns: no other check can reject it.
   */
  lemma WellFormedSubmissionPlaced(shop: Shop, user: UserId, req: OrderRequest)
    requires user in shop.carts.carts ==> CartPriced(shop, user)
    requires req.isPost && user in shop.carts.carts && |shop.carts.carts[user]| > 0
    requires LookupDesk(shop.desks, DeliveryTypeOf(req), req.stopDeskId).DeskChosen?
    ensures PlaceOrder(shop, user, req).Placed?
        <==> RowFits(req, ViewTotal(shop.catalog, shop.carts.carts[user]),
                     ParsedShipping(req.shippingCost).GetOr(DefaultOrderShipping))
  {
  }

  /** What a placed order charges: the cart's per-line total plus the shipping cost read from the request. */
  lemma PlacedCharges(shop: Shop, user: UserId, req: OrderRequest)
    requires user in shop.carts.carts ==> CartPriced(shop, user)
    requires PlaceOrder(shop, user, req).Placed?
    ensures PlaceOrder(shop, user, req).order.subtotal == ViewTotal(shop.catalog, shop.carts.carts[user])
    ensures PlaceOrder(shop, user, req).order.shippingCost == ParsedShipping(req.shippingCost).GetOr(DefaultOrderShipping)
    ensures PlaceOrder(shop, user, req).order.totalPrice
         == ViewTotal(shop.catalog, shop.carts.carts[user]) + ParsedShipping(req.shippingCost).GetOr(DefaultOrderShipping)
  {
    GetTotalIsViewTotal(shop.catalog, shop.carts.carts[user]);
  }

  // ---------------------------------------------------------------------------
  // Profile statistics
  // ---------------------------------------------------------------------------

  /** How many of `orders` belong to `user` (and, when `onlyPending`, are pending). */
  function CountOrders(orders: seq<Order>, user: UserId, onlyPending: bool): (n: nat)
    ensures n <= |orders|
    decreases |orders|
  {
    if |orders| == 0 then 0
    else
      var hit := orders[0].user == user && (!onlyPending || orders[0].status == Pending);
      (if hit then 1 else 0) + CountOrders(orders[1..], user, onlyPending)
  }

  /** Σ `total_price` of the user's orders, 0 when there are none (the `or 0` of the aggregate). */
  function SpentBy(orders: seq<Order>, user: UserId): int
    decreases |orders|
  {
    if |orders| == 0 then 0
    else (if orders[0].user == user then orders[0].totalPrice else 0) + SpentBy(orders[1..], user)
  }

  datatype ProfileStats = ProfileStats(totalOrders: nat, pendingOrders: nat, totalSpent: int)

  /** The statistics block of `profile`. */
  function Stats(orders: seq<Order>, user: UserId): (r: ProfileStats)
    ensures r.pendingOrders <= r.totalOrders
    ensures r.totalOrders == 0 ==> r.totalSpent == 0
  {
    PendingAtMostAll(orders, user);
    NoOrdersNothingSpent(orders, user);
    ProfileStats(CountOrders(orders, user, false), CountOrders(orders, user, true), SpentBy(orders, user))
  }

  lemma {:induction false} PendingAtMostAll(orders: seq<Order>, user: UserId)
    ensures CountOrders(orders, user, true) <= CountOrders(orders, user, false)
    decreases |orders|
  {
    if |orders| > 0 {
      PendingAtMostAll(orders[1..], user);
    }
  }

  lemma {:induction false} NoOrdersNothingSpent(orders: seq<Order>, user: UserId)
    ensures CountOrders(orders, user, false) == 0 ==> SpentBy(orders, user) == 0
    decreases |orders|
  {
    if |orders| > 0 {
      NoOrdersNothingSpent(orders[1..], user);
    }
  }

  lemma {:induction false} CountAppend(orders: seq<Order>, o: Order, user: UserId, onlyPending: bool)
    ensures CountOrders(orders + [o], user, onlyPending)
         == CountOrders(orders, user, onlyPending) + (if o.user == user && (!onlyPending || o.status == Pending) then 1 else 0)
    decreases |orders|
  {
    if |orders| > 0 {
      assert (orders + [o])[1..] == orders[1..] + [o];
      CountAppend(orders[1..], o, user, onlyPending);
    }
  }

  lemma {:induction false} SpentAppend(orders: seq<Order>, o: Order, user: UserId)
    ensures SpentBy(orders + [o], user) == SpentBy(orders, user) + (if o.user == user then o.totalPrice else 0)
    decreases |orders|
  {
    if |orders| > 0 {
      assert (orders + [o])[1..] == orders[1..] + [o];
      SpentAppend(orders[1..], o, user);
    }
  }

  /** Placing an order adds one order and one pending order to the buyer's statistics, and its total to the amount spent. */
  lemma PlacingUpdatesStats(shop: Shop, user: UserId, req: OrderRequest)
    requires user in shop.carts.carts ==> CartPriced(shop, user)
    requires PlaceOrder(shop, user, req).Placed?
    ensures var r := PlaceOrder(shop, user, req);
      var before := Stats(shop.orders, user);
      var after := Stats(r.shop.orders, user);
      && after.totalOrders == before.totalOrders + 1
      && after.pendingOrders == before.pendingOrders + 1
      && after.totalSpent == before.totalSpent + r.order.totalPrice
  {
    var r := PlaceOrder(shop, user, req);
    CountAppend(shop.orders, r.order, user, false);
    CountAppend(shop.orders, r.order, user, true);
    SpentAppend(shop.orders, r.order, user);
  }
}

=== FILE: phone.dfy ===
/**
 * Algerian phone numbers: the server-side normaliser `clean_phone_number`
 * (written out twice, identically, in orders/admin.py and users/views.py and
 * modelled once here), the registration page's `validatePhone`, and the
 * registration page's as-you-type formatter.
 */
module Phone {
  import opened PyInt

  // ---------------------------------------------------------------------------
  // clean_phone_number (server)
  // ---------------------------------------------------------------------------

  /** The four characters the server deletes before looking at prefixes. */
  predicate IsSeparator(c: char) {
    c == ' ' || c == '-' || c == '(' || c == ')'
  }

  /** The chained `.replace(' ', '').replace('-', '')...` of the server normaliser. */
  function StripSeparators(s: string): (r: string)
    ensures |r| <= |s|
    decreases |s|
  {
    if |s| == 0 then ""
    else if IsSeparator(s[0]) then StripSeparators(s[1..])
    else [s[0]] + StripSeparators(s[1..])
  }

  /** Exactly the separators are removed: every other character survives. */
  lemma {:induction false} StripSeparatorsMembers(s: string)
    ensures forall c :: c in StripSeparators(s) <==> c in s && !IsSeparator(c)
    decreases |s|
  {
    if |s| > 0 {
      StripSeparatorsMembers(s[1..]);
      assert s == [s[0]] + s[1..];
    }
  }

  lemma {:induction false} StripSeparatorsAppend(a: string, b: string)
    ensures StripSeparators(a + b) == StripSeparators(a) + StripSeparators(b)
    decreases |a|
  {
    if |a| > 0 {
      assert (a + b)[1..] == a[1..] + b;
      StripSeparatorsAppend(a[1..], b);
    } else {
      assert a + b == b;
    }
  }

  lemma {:induction false} StripSeparatorsIdentity(s: string)
    requires forall c :: c in s ==> !IsSeparator(c)
    ensures StripSeparators(s) == s
    decreases |s|
  {
    if |s| > 0 {
      assert forall c :: c in s[1..] ==> c in s;
      StripSeparatorsIdentity(s[1..]);
      assert s == [s[0]] + s[1..];
    }
  }

  /** `clean_phone_number`: rewrites the local and international spellings to `+213…`. */
  function CleanPhoneNumber(phone: string): (r: string)
    ensures |r| > 0 && r[0] == '+'
    ensures forall c :: c in r ==> !IsSeparator(c)
  {
    StripSeparatorsMembers(phone);
    var p := StripSeparators(phone);
    if "00213" <= p then "+" + p[2..]
    else if "0" <= p then "+213" + p[1..]
    else if "213" <= p then "+" + p
    else if !("+" <= p) then "+213" + p
    else p
  }

  /** The result depends only on what is left once the separators are gone. */
  lemma SeparatorsIrrelevant(phone: string)
    ensures CleanPhoneNumber(phone) == CleanPhoneNumber(StripSeparators(phone))
  {
    StripSeparatorsMembers(phone);
    StripSeparatorsIdentity(StripSeparators(phone));
  }

  /** Normalising twice changes nothing: an already-clean number is passed through. */
  lemma CleanPhoneNumberIdempotent(phone: string)
    ensures CleanPhoneNumber(CleanPhoneNumber(phone)) == CleanPhoneNumber(phone)
  {
    var r := CleanPhoneNumber(phone);
    StripSeparatorsIdentity(r);
  }

  /** A number already written `+…` without separators is left exactly as it is. */
  lemma InternationalUnchanged(phone: string)
    requires |phone| > 0 && phone[0] == '+'
    requires forall c :: c in phone ==> !IsSeparator(c)
    ensures CleanPhoneNumber(phone) == phone
  {
    StripSeparatorsIdentity(phone);
  }

  /**
   * The local (`0…`), international-dialing (`00213…`), bare country code
   * (`213…`) and plus (`+213…`) spellings of one mobile number all normalise to
   * the same `+213…` form.
   */
  lemma EquivalentSpellings(subscriber: string)
    requires |subscriber| > 0 && IsMobileOperator(subscriber[0])
    requires forall c :: c in subscriber ==> !IsSeparator(c)
    ensures CleanPhoneNumber("0" + subscriber) == "+213" + subscriber
    ensures CleanPhoneNumber("00213" + subscriber) == "+213" + subscriber
    ensures CleanPhoneNumber("213" + subscriber) == "+213" + subscriber
    ensures CleanPhoneNumber("+213" + subscriber) == "+213" + subscriber
  {
    LocalSpelling(subscriber);
    DialingSpelling(subscriber);
    CountryCodeSpelling(subscriber);
    InternationalUnchanged("+213" + subscriber);
  }

  lemma LocalSpelling(subscriber: string)
    requires |subscriber| > 0 && IsMobileOperator(subscriber[0])
    requires forall c :: c in subscriber ==> !IsSeparator(c)
    ensures CleanPhoneNumber("0" + subscriber) == "+213" + subscriber
  {
    var p := "0" + subscriber;
    StripSeparatorsIdentity(p);
    assert p[1] == subscriber[0];
    assert !("00213" <= p);
    assert "0" <= p;
    assert p[1..] == subscriber;
  }

  lemma DialingSpelling(subscriber: string)
    requires forall c :: c in subscriber ==> !IsSeparator(c)
    ensures CleanPhoneNumber("00213" + subscriber) == "+213" + subscriber
  {
    var p := "00213" + subscriber;
    StripSeparatorsIdentity(p);
    assert "00213" <= p;
    assert p[2..] == "213" + subscriber;
  }

  lemma CountryCodeSpelling(subscriber: string)
    requires forall c :: c in subscriber ==> !IsSeparator(c)
    ensures CleanPhoneNumber("213" + subscriber) == "+213" + subscriber
  {
    var p := "213" + subscriber;
    StripSeparatorsIdentity(p);
    assert p[0] == '2';
    assert !("00213" <= p) && !("0" <= p);
    assert "213" <= p;
  }

  /** Removing one separator from the middle of a number. */
  lemma StripSeparatorsDropsOne(a: string, sep: char, b: string)
    requires IsSeparator(sep)
    ensures StripSeparators(a + [sep] + b) == StripSeparators(a) + StripSeparators(b)
  {
    StripSeparatorsAppend(a + [sep], b);
    StripSeparatorsAppend(a, [sep]);
  }

  /** The worked examples of the normaliser: local, dialing-prefix and international spellings. */
  lemma CleanPhoneExamples()
    ensures CleanPhoneNumber("0551234567") == "+213551234567"
    ensures CleanPhoneNumber("00213551234567") == "+213551234567"
    ensures CleanPhoneNumber("+213551234567") == "+213551234567"
  {
    var sub := "551234567";
    assert "0" + sub == "0551234567";
    assert "00213" + sub == "00213551234567";
    assert "+213" + sub == "+213551234567";
    EquivalentSpellings(sub);
  }

  lemma {:induction false} DigitsHaveNoSeparator(s: string)
    requires AllDigits(s)
    ensures StripSeparators(s) == s
    decreases |s|
  {
    if |s| > 0 {
      DigitsHaveNoSeparator(s[1..]);
    }
  }

  /** Separators typed between digit groups are ignored. */
  lemma SeparatedGroups(a: string, x: char, b: string, y: char, c: string, z: char, d: string)
    requires AllDigits(a) && AllDigits(b) && AllDigits(c) && AllDigits(d)
    requires IsSeparator(x) && IsSeparator(y) && IsSeparator(z)
    ensures CleanPhoneNumber(a + [x] + b + [y] + c + [z] + d) == CleanPhoneNumber(a + b + c + d)
  {
    var p := a + [x] + b + [y] + c + [z] + d;
    SeparatorsIrrelevant(p);
    StripSeparatorsDropsOne(a + [x] + b + [y] + c, z, d);
    StripSeparatorsDropsOne(a + [x] + b, y, c);
    StripSeparatorsDropsOne(a, x, b);
    DigitsHaveNoSeparator(a);
    DigitsHaveNoSeparator(b);
    DigitsHaveNoSeparator(c);
    DigitsHaveNoSeparator(d);
  }

  /** Spaces and dashes typed between the digit groups are ignored. */
  lemma SpacedExample()
    ensures CleanPhoneNumber("0551 23-45-67") == "+213551234567"
  {
    SeparatedGroups("0551", ' ', "23", '-', "45", '-', "67");
    assert "0551" + [' '] + "23" + ['-'] + "45" + ['-'] + "67" == "0551 23-45-67";
    assert "0551" + "23" + "45" + "67" == "0551234567";
    CleanPhoneExamples();
  }

  // ---------------------------------------------------------------------------
  // validatePhone (registration page)
  // ---------------------------------------------------------------------------

  /** The JavaScript regular-expression class `\s` (also the set `String.prototype.trim` removes). */
  predicate IsJsSpace(c: char) {
    || ('\U{9}' <= c <= '\U{D}') || c == ' ' || c == '\U{A0}' || c == '\U{1680}'
    || ('\U{2000}' <= c <= '\U{200A}') || c == '\U{2028}' || c == '\U{2029}'
    || c == '\U{202F}' || c == '\U{205F}' || c == '\U{3000}' || c == '\U{FEFF}'
  }

  /** `phone.replace(/[\s-]/g, '')`. */
  function JsStrip(s: string): (r: string)
    ensures |r| <= |s|
    decreases |s|
  {
    if |s| == 0 then ""
    else if IsJsSpace(s[0]) || s[0] == '-' then JsStrip(s[1..])
    else [s[0]] + JsStrip(s[1..])
  }

  /** Exactly white space and dashes are removed: every other character survives. */
  lemma {:induction false} JsStripMembers(s: string)
    ensures forall c :: c in JsStrip(s) <==> c in s && !IsJsSpace(c) && c != '-'
    decreases |s|
  {
    if |s| > 0 {
      JsStripMembers(s[1..]);
      assert s == [s[0]] + s[1..];
    }
  }

  predicate IsMobileOperator(c: char) {
    c == '5' || c == '6' || c == '7'
  }

  /** `/^\+213[567]\d{8}$/`. */
  predicate IsInternationalMobile(p: string) {
    |p| == 13 && p[..4] == "+213" && IsMobileOperator(p[4]) && AllDigits(p[5..])
  }

  /** `/^0[567]\d{8}$/`. */
  predicate IsLocalMobile(p: string) {
    |p| == 10 && p[0] == '0' && IsMobileOperator(p[1]) && AllDigits(p[2..])
  }

  /** `validatePhone`: true when one of the two patterns matches the stripped input. */
  function ValidatePhone(phone: string): (ok: bool)
    ensures ok ==> |JsStrip(phone)| == 10 || |JsStrip(phone)| == 13
    ensures ok ==> forall c :: c in JsStrip(phone) ==> c == '+' || IsDigit(c)
  {
    var p := JsStrip(phone);
    IsInternationalMobile(p) || IsLocalMobile(p)
  }

  /** On input whose only white space is the plain space, both strippers agree. */
  lemma {:induction false} StrippersAgree(s: string)
    requires forall i :: 0 <= i < |s| ==> IsJsSpace(s[i]) ==> s[i] == ' '
    requires forall c :: c in s ==> c != '(' && c != ')'
    ensures StripSeparators(s) == JsStrip(s)
    decreases |s|
  {
    if |s| > 0 {
      assert s[0] in s;
      assert forall c :: c in s[1..] ==> c in s;
      StrippersAgree(s[1..]);
    }
  }

  /**
   * Any number the registration page accepts is turned by the server's
   * normaliser into one that matches the page's international pattern, so the
   * verification SMS is sent to `+213` and nine digits, provided the only
   * white space typed is the plain space (the server does not remove tabs or
   * other space characters that the page's `\s` ignores). The user record
   * keeps the phone as typed; only the SMS destination is normalised.
   */
  lemma AcceptedPhoneNormalisesToInternational(phone: string)
    requires ValidatePhone(phone)
    requires forall i :: 0 <= i < |phone| ==> IsJsSpace(phone[i]) ==> phone[i] == ' '
    ensures IsInternationalMobile(CleanPhoneNumber(phone))
  {
    var p := JsStrip(phone);
    JsStripMembers(phone);
    assert forall c :: c in phone ==> c != '(' && c != ')';
    StrippersAgree(phone);
    var r := CleanPhoneNumber(phone);
    if IsLocalMobile(p) {
      assert !("00213" <= p);
      assert r == "+213" + p[1..];
      assert r[5..] == p[2..];
    } else {
      assert r == p;
    }
  }

  lemma {:induction false} JsStripAppend(a: string, b: string)
    ensures JsStrip(a + b) == JsStrip(a) + JsStrip(b)
    decreases |a|
  {
    if |a| > 0 {
      assert (a + b)[1..] == a[1..] + b;
      JsStripAppend(a[1..], b);
    } else {
      assert a + b == b;
    }
  }

  lemma {:induction false} JsStripOfDigits(s: string)
    requires AllDigits(s)
    ensures JsStrip(s) == s
    decreases |s|
  {
    if |s| > 0 {
      JsStripOfDigits(s[1..]);
    }
  }

  lemma JsStripDropsOne(a: string, sep: char, b: string)
    requires IsJsSpace(sep) || sep == '-'
    ensures JsStrip(a + [sep] + b) == JsStrip(a) + JsStrip(b)
  {
    JsStripAppend(a + [sep], b);
    JsStripAppend(a, [sep]);
  }

  /** Both halves of a valid local number are runs of digits. */
  lemma LocalMobileHalves(a: string, b: string)
    requires IsLocalMobile(a + b)
    ensures AllDigits(a) && AllDigits(b)
  {
    var n := a + b;
    forall i | 2 <= i < |n| ensures IsDigit(n[i]) {
      assert n[i] == n[2..][i - 2];
    }
    assert forall i :: 0 <= i < |a| ==> a[i] == n[i];
    assert forall i :: 0 <= i < |b| ==> b[i] == n[|a| + i];
  }

  /** Digit runs around one non-separator character have nothing for the server to strip. */
  lemma NothingToStripAround(a: string, t: char, b: string)
    requires AllDigits(a) && AllDigits(b) && !IsSeparator(t)
    ensures StripSeparators(a + [t] + b) == a + [t] + b
  {
    StripSeparatorsAppend(a + [t], b);
    StripSeparatorsAppend(a, [t]);
    DigitsHaveNoSeparator(a);
    DigitsHaveNoSeparator(b);
  }

  /**
   * A phone value with a tab inside a valid local number passes
   * `validatePhone`, but the server's normaliser keeps the tab, so the number
   * the SMS is sent to is not `+213` and nine digits. The page's input handler
   * strips such a tab, so the value reaches the server only without an input
   * event, as in a hand-made POST.
   */
  lemma TabIsNotNormalised(a: string, b: string)
    requires IsLocalMobile(a + b)
    ensures ValidatePhone(a + ['\t'] + b)
    ensures !IsInternationalMobile(CleanPhoneNumber(a + ['\t'] + b))
  {
    var p := a + ['\t'] + b;
    LocalMobileHalves(a, b);
    JsStripDropsOne(a, '\t', b);
    JsStripOfDigits(a);
    JsStripOfDigits(b);
    NothingToStripAround(a, '\t', b);
    assert |p| == 11;
    if |a| == 0 {
      assert p[0] == '\t';
    } else {
      assert p[0] == '0';
      assert p[1] == '\t' || p[1] == (a + b)[1];
    }
  }
}

=== FILE: pydecimal.dfy ===
/**
 * Python's `decimal.Decimal(text)` for finite values. Also the rounding Django
 * does before it writes a value into a `DecimalField(max_digits,
 * decimal_places)` column: `format_number` quantizes the value to
 * `decimal_places` places, with `max_digits` digits of precision.
 */
module PyDecimal {
  import opened Wrappers
  import opened PyInt

  /** A finite decimal: (-1)^negative × coefficient × 10^exponent. */
  datatype Decimal = Decimal(negative: bool, coefficient: nat, exponent: int)

  /** An integer as a decimal with exponent 0. */
  function FromInt(v: int): (d: Decimal)
    ensures d.exponent == 0 && d.negative == (v < 0)
    ensures d.coefficient == (if v < 0 then -v else v)
  {
    Decimal(v < 0, if v < 0 then -v else v, 0)
  }

  // ---------------------------------------------------------------------------
  // Decimal(text)
  // ---------------------------------------------------------------------------

  /** The first position of `s` that holds one of `marks`, or `|s|` when no position does. */
  function FindMark(s: string, marks: set<char>): (i: nat)
    ensures i <= |s|
    ensures i < |s| ==> s[i] in marks
    ensures forall j :: 0 <= j < i ==> s[j] !in marks
    decreases |s|
  {
    if |s| == 0 then 0
    else if s[0] in marks then 0
    else 1 + FindMark(s[1..], marks)
  }

  /** Any position that is a mark, or the end, with no mark before it, is where the search stops. */
  lemma FindMarkAt(s: string, marks: set<char>, i: nat)
    requires i <= |s| && (i < |s| ==> s[i] in marks)
    requires forall j :: 0 <= j < i ==> s[j] !in marks
    ensures FindMark(s, marks) == i
  {
  }

  /** The exponent after `e` or `E`: an optional sign and at least one digit. */
  function ParseExponent(s: string): (r: Option<int>)
    ensures AllDigits(s) && |s| > 0 ==> r == Some(DigitsToNat(s) as int)
  {
    if |s| > 1 && (s[0] == '+' || s[0] == '-') && AllDigits(s[1..]) then
      Some(if s[0] == '-' then -(DigitsToNat(s[1..]) as int) else DigitsToNat(s[1..]))
    else if |s| > 0 && AllDigits(s) then Some(DigitsToNat(s))
    else None
  }

  /**
   * `digits '.' [digits] | ['.'] digits`: all the digits as the coefficient,
   * scaled down by as many places as follow the point.
   */
  function ParseMantissa(s: string): (r: Option<Decimal>)
    ensures r.Some? ==> !r.value.negative && -(|s| as int) <= r.value.exponent <= 0
  {
    var dot := FindMark(s, {'.'});
    if dot == |s| then
      if AllDigits(s) && |s| > 0 then Some(Decimal(false, DigitsToNat(s), 0)) else None
    else
      var whole := s[..dot];
      var fraction := s[dot + 1..];
      if AllDigits(whole) && AllDigits(fraction) && |whole| + |fraction| > 0 then
        assert AllDigits(whole + fraction);
        Some(Decimal(false, DigitsToNat(whole + fraction), -(|fraction| as int)))
      else None
  }

  /**
   * `Decimal(text)`: surrounding white space, an optional sign, a mantissa and
   * an optional exponent. `None` stands for the `InvalidOperation` it raises,
   * and for the NaN and infinities that Django's field refuses as well.
   */
  function ParseDecimal(text: string): (r: Option<Decimal>)
    ensures r.Some? ==> |PyStrip(text)| > 0
    ensures r.Some? && r.value.negative ==> PyStrip(text)[0] == '-'
  {
    var t := PyStrip(text);
    var unsigned := if |t| > 0 && (t[0] == '-' || t[0] == '+') then t[1..] else t;
    match ParseUnsigned(unsigned)
    case Some(d) => Some(d.(negative := |t| > 0 && t[0] == '-'))
    case None => None
  }

  /** A mantissa and an optional exponent, read as a non-negative value. */
  function ParseUnsigned(u: string): Option<Decimal> {
    var e := FindMark(u, {'e', 'E'});
    if e == |u| then ParseMantissa(u)
    else
      match (ParseMantissa(u[..e]), ParseExponent(u[e + 1..]))
      case (Some(m), Some(x)) => Some(m.(exponent := m.exponent + x))
      case _ => None
  }

  /** `<whole>.<fraction>` in plain digits reads as those digits scaled by the fraction's length. */
  lemma PointedDigitsMeaning(whole: string, fraction: string)
    requires AllDigits(whole) && AllDigits(fraction) && |whole| > 0
    ensures ParseDecimal(whole + "." + fraction)
         == Some(Decimal(false, DigitsToNat(whole + fraction), -(|fraction| as int)))
  {
    var s := whole + "." + fraction;
    PointedDigitsPlain(whole, fraction);
    assert s[0] == whole[0];
    FindMarkAt(s, {'e', 'E'}, |s|);
    PointedMantissa(whole, fraction);
    assert PyStrip(s) == s;
    UnsignedPlainDecimal(s, Decimal(false, DigitsToNat(whole + fraction), -(|fraction| as int)));
  }

  /** Text with no white space, sign or exponent reads as its mantissa. */
  lemma UnsignedPlainDecimal(s: string, d: Decimal)
    requires |s| > 0 && s[0] != '-' && s[0] != '+'
    requires PyStrip(s) == s
    requires FindMark(s, {'e', 'E'}) == |s|
    requires ParseMantissa(s) == Some(d)
    ensures ParseDecimal(s) == Some(d)
  {
  }

  /** Such a spelling has no white space and no exponent mark. */
  lemma PointedDigitsPlain(whole: string, fraction: string)
    requires AllDigits(whole) && AllDigits(fraction)
    ensures var s := whole + "." + fraction;
      forall i :: 0 <= i < |s| ==> !IsPySpace(s[i]) && s[i] != 'e' && s[i] != 'E'
  {
    var s := whole + "." + fraction;
    forall i | 0 <= i < |s| ensures !IsPySpace(s[i]) && s[i] != 'e' && s[i] != 'E' {
      if i < |whole| { assert s[i] == whole[i]; }
      else if i > |whole| { assert s[i] == fraction[i - |whole| - 1]; }
    }
  }

  lemma PointedMantissa(whole: string, fraction: string)
    requires AllDigits(whole) && AllDigits(fraction) && |whole| > 0
    ensures ParseMantissa(whole + "." + fraction) == Some(Decimal(false, DigitsToNat(whole + fraction), -(|fraction| as int)))
  {
    var s := whole + "." + fraction;
    forall j | 0 <= j < |whole| ensures s[j] !in {'.'} {
      assert s[j] == whole[j];
    }
    FindMarkAt(s, {'.'}, |whole|);
    assert s[..|whole|] == whole;
    assert s[|whole| + 1..] == fraction;
  }

  /** The integer `str()` writes reads back as that integer. */
  lemma IntSpellingIsDecimal(n: int)
    ensures ParseDecimal(IntToString(n)) == Some(FromInt(n))
  {
    var s := IntToString(n);
    var m: nat := if n < 0 then -n else n;
    var digits := NatToDigits(m);
    NatDigitsRoundTrip(m);
    SpellingUnstripped(n);
    var unsigned := if n < 0 then s[1..] else s;
    assert unsigned == digits;
    PlainDigitsMantissa(digits);
  }

  /** A plain run of digits has no exponent and reads as a mantissa with no fraction. */
  lemma PlainDigitsMantissa(digits: string)
    requires AllDigits(digits) && |digits| > 0
    ensures FindMark(digits, {'e', 'E'}) == |digits|
    ensures ParseMantissa(digits) == Some(Decimal(false, DigitsToNat(digits), 0))
  {
    FindMarkAt(digits, {'e', 'E'}, |digits|);
    PlainDigitsNoPoint(digits);
  }

  lemma PlainDigitsNoPoint(digits: string)
    requires AllDigits(digits) && |digits| > 0
    ensures ParseMantissa(digits) == Some(Decimal(false, DigitsToNat(digits), 0))
  {
    FindMarkAt(digits, {'.'}, |digits|);
  }

  // ---------------------------------------------------------------------------
  // Fitting a column
  // ---------------------------------------------------------------------------

  /** `n / unit` rounded to the nearest integer, a tie going to the even one. */
  function RoundHalfEven(n: nat, unit: nat): (r: nat)
    requires unit >= 1
    ensures -(unit as int) <= 2 * (r * unit - n) <= unit
    ensures 2 * (r * unit - n) == unit || 2 * (r * unit - n) == -(unit as int) ==> r % 2 == 0
  {
    var q := n / unit;
    var rem := n % unit;
    var up := 2 * rem > unit || (2 * rem == unit && q % 2 == 1);
    RoundStep(n, unit, q, rem, up);
    if up then q + 1 else q
  }

  /** Rounding up exactly when the remainder is past half a unit, or half of one with `q` odd, lands within half a unit. */
  lemma RoundStep(n: nat, unit: nat, q: nat, rem: nat, up: bool)
    requires unit >= 1 && q == n / unit && rem == n % unit
    requires up == (2 * rem > unit || (2 * rem == unit && q % 2 == 1))
    ensures var r := if up then q + 1 else q;
      && -(unit as int) <= 2 * (r * unit - n) <= unit
      && (2 * (r * unit - n) == unit || 2 * (r * unit - n) == -(unit as int) ==> r % 2 == 0)
  {
    assert n == q * unit + rem;
    if up {
      assert (q + 1) * unit == q * unit + unit;
      assert (q + 1) * unit - n == unit - rem;
    } else {
      assert q * unit - n == -(rem as int);
    }
  }

  /** The coefficient of `d` once `quantize` has brought it to `places` decimal places. */
  function QuantizedCoefficient(d: Decimal, places: nat): nat {
    var shift := d.exponent + places;
    if shift >= 0 then d.coefficient * Pow10(shift)
    else RoundHalfEven(d.coefficient, Pow10(-shift))
  }

  /** What the column holds after that rounding. */
  function Quantized(d: Decimal, places: nat): (q: Decimal)
    ensures q.negative == d.negative && q.exponent == -(places as int)
    ensures d.exponent == -(places as int) ==> q == d
  {
    Decimal(d.negative, QuantizedCoefficient(d, places), -(places as int))
  }

  /**
   * Whether Django can write `d` into a `DecimalField(maxDigits, places)`
   * column: the rounded coefficient must have at most `maxDigits` digits, or
   * `quantize` raises `InvalidOperation`.
   */
  predicate FitsColumn(d: Decimal, maxDigits: nat, places: nat) {
    QuantizedCoefficient(d, places) < Pow10(maxDigits)
  }

  /** An integer fits a column exactly when its magnitude stays below 10^(maxDigits − places). */
  lemma {:induction false} IntegerFitsColumn(v: int, maxDigits: nat, places: nat)
    requires places <= maxDigits
    ensures FitsColumn(FromInt(v), maxDigits, places) <==> -(Pow10(maxDigits - places) as int) < v < Pow10(maxDigits - places)
  {
    Pow10Split(maxDigits - places, places);
    var m := if v < 0 then -v else v;
    var k := Pow10(maxDigits - places);
    var p := Pow10(places);
    assert QuantizedCoefficient(FromInt(v), places) == m * p;
    if m < k {
      assert m * p < k * p by { MulStrict(m, k, p); }
    } else {
      assert m * p >= k * p by { MulMono(k, m, p); }
    }
  }

  lemma {:induction false} Pow10Split(a: nat, b: nat)
    ensures Pow10(a + b) == Pow10(a) * Pow10(b)
    decreases b
  {
    if b > 0 {
      Pow10Split(a, b - 1);
      assert Pow10(a + b) == 10 * Pow10(a + b - 1);
    }
  }

  lemma MulStrict(x: nat, y: nat, p: nat)
    requires x < y && p >= 1
    ensures x * p < y * p
  {
  }

  lemma MulMono(x: nat, y: nat, p: nat)
    requires x <= y
    ensures x * p <= y * p
  {
  }

  lemma {:induction false} DigitsAppend(a: string, b: string)
    requires AllDigits(a) && AllDigits(b)
    ensures AllDigits(a + b)
    ensures DigitsToNat(a + b) == DigitsToNat(a) * Pow10(|b|) + DigitsToNat(b)
    decreases |b|
  {
    assert AllDigits(a + b);
    if |b| > 0 {
      var b' := b[..|b| - 1];
      var last := DigitValue(b[|b| - 1]);
      assert (a + b)[..|a + b| - 1] == a + b';
      assert (a + b)[|a + b| - 1] == b[|b| - 1];
      DigitsAppend(a, b');
      assert DigitsToNat(a + b) == DigitsToNat(a + b') * 10 + last;
      assert DigitsToNat(b) == DigitsToNat(b') * 10 + last;
      ShiftOnce(DigitsToNat(a), Pow10(|b'|), DigitsToNat(b'), last);
    } else {
      assert a + b == a;
    }
  }

  lemma ShiftOnce(x: nat, p: nat, y: nat, d: nat)
    ensures (x * p + y) * 10 + d == x * (10 * p) + (y * 10 + d)
  {
  }

  lemma {:induction false} DigitsBelow(b: string)
    requires AllDigits(b)
    ensures DigitsToNat(b) < Pow10(|b|)
    decreases |b|
  {
    if |b| > 0 {
      DigitsBelow(b[..|b| - 1]);
    }
  }

  /** Splitting a number into a whole part and a remainder below the unit. */
  lemma WholePartBound(w: nat, r: nat, unit: nat, big: nat)
    requires r < unit
    ensures w * unit + r < big * unit <==> w < big
  {
    if w < big {
      MulMono(w + 1, big, unit);
    } else {
      MulMono(big, w, unit);
    }
  }

  lemma ScaleSum(w: nat, p: nat, f: nat, up: nat)
    ensures (w * p + f) * up == w * (p * up) + f * up
  {
  }

  /**
   * A plain `<whole>.<fraction>` with at most `places` fraction digits fits a
   * `DecimalField(maxDigits, places)` column exactly when its whole part is
   * below 10^(maxDigits − places): for a latitude in a (9, 6) column, below 1000.
   */
  lemma PointedFits(whole: string, fraction: string, maxDigits: nat, places: nat)
    requires AllDigits(whole) && AllDigits(fraction) && |whole| > 0
    requires |fraction| <= places <= maxDigits
    ensures ParseDecimal(whole + "." + fraction).Some?
    ensures FitsColumn(ParseDecimal(whole + "." + fraction).value, maxDigits, places)
        <==> DigitsToNat(whole) < Pow10(maxDigits - places)
  {
    PointedDigitsMeaning(whole, fraction);
    DigitsAppend(whole, fraction);
    DigitsBelow(fraction);
    var d := ParseDecimal(whole + "." + fraction).value;
    assert d == Decimal(false, DigitsToNat(whole) * Pow10(|fraction|) + DigitsToNat(fraction), -(|fraction| as int));
    ScaledFits(d, DigitsToNat(whole), DigitsToNat(fraction), |fraction|, maxDigits, places);
  }

  /** The arithmetic behind `PointedFits`, for the value `w.f` with `k` fraction digits. */
  lemma ScaledFits(d: Decimal, w: nat, f: nat, k: nat, maxDigits: nat, places: nat)
    requires k <= places <= maxDigits && f < Pow10(k)
    requires d == Decimal(false, w * Pow10(k) + f, -(k as int))
    ensures FitsColumn(d, maxDigits, places) <==> w < Pow10(maxDigits - places)
  {
    var p := Pow10(k);
    var up := Pow10(places - k);
    Pow10Split(k, places - k);
    Pow10Split(maxDigits - places, places);
    var big := Pow10(maxDigits - places);
    var unit := Pow10(places);
    assert k + (places - k) == places;
    assert unit == p * up;
    assert maxDigits - places + places == maxDigits;
    assert Pow10(maxDigits) == big * unit;
    assert QuantizedCoefficient(d, places) == (w * p + f) * up;
    ScaleSum(w, p, f, up);
    MulStrict(f, p, up);
    WholePartBound(w, f * up, unit, big);
  }
}

=== FILE: pyint.dfy ===
/**
 * Python's conversions between integers and decimal strings, as the shop uses
 * them: `int(text)` when it reads a number out of a POST field (shipping cost,
 * cart quantity, stop-desk id) and `str(n)` when it writes one into a message or
 * a session (verification code, order counts).
 */
module PyInt {
  import opened Wrappers

  predicate IsDigit(c: char) {
    '0' <= c <= '9'
  }

  predicate AllDigits(s: string) {
    forall i :: 0 <= i < |s| ==> IsDigit(s[i])
  }

  function DigitValue(c: char): nat
    requires IsDigit(c)
  {
    c as nat - '0' as nat
  }

  function DigitChar(d: nat): (c: char)
    requires d < 10
    ensures IsDigit(c) && DigitValue(c) == d
  {
    ('0' as nat + d) as char
  }

  /** The value of a run of decimal digits, most significant first. */
  function DigitsToNat(s: string): nat
    requires AllDigits(s)
    decreases |s|
  {
    if |s| == 0 then 0
    else DigitsToNat(s[..|s| - 1]) * 10 + DigitValue(s[|s| - 1])
  }

  function Pow10(k: nat): (p: nat)
    ensures p >= 1
  {
    if k == 0 then 1 else 10 * Pow10(k - 1)
  }

  /** `str(n)` for a non-negative `n`: the shortest decimal spelling. */
  function NatToDigits(n: nat): (s: string)
    ensures |s| >= 1 && AllDigits(s)
    ensures s[0] == '0' ==> n == 0
    decreases n
  {
    if n < 10 then [DigitChar(n)]
    else NatToDigits(n / 10) + [DigitChar(n % 10)]
  }

  /** `str(n)` for any integer. */
  function IntToString(n: int): (s: string)
    ensures |s| >= 1
    ensures n < 0 <==> s[0] == '-'
    ensures n >= 0 ==> AllDigits(s)
  {
    if n < 0 then "-" + NatToDigits(-n) else NatToDigits(n)
  }

  /** A single digit is spelled by its own character. */
  lemma SingleDigitSpelling(d: nat)
    requires d < 10
    ensures IntToString(d) == [('0' as nat + d) as char]
  {
  }

  lemma {:induction false} NatDigitsRoundTrip(n: nat)
    ensures DigitsToNat(NatToDigits(n)) == n
    decreases n
  {
    if n >= 10 {
      var s := NatToDigits(n);
      NatDigitsRoundTrip(n / 10);
      assert s[..|s| - 1] == NatToDigits(n / 10);
    }
  }

  /** Each further decimal place adds one digit to the spelling. */
  lemma SpellingGrows(n: nat)
    requires n >= 10
    ensures |NatToDigits(n)| == |NatToDigits(n / 10)| + 1
  {
  }

  /** A number below 10^k needs at most `k` digits. */
  lemma {:induction false} SpellingWithin(n: nat, k: nat)
    requires k >= 1 && n < Pow10(k)
    ensures |NatToDigits(n)| <= k
    decreases k
  {
    if n >= 10 {
      assert k >= 2;
      assert n / 10 < Pow10(k - 1);
      SpellingWithin(n / 10, k - 1);
    }
  }

  /** The number of decimal digits `str(n)` uses for a six-digit `n`. */
  lemma SixDigitSpelling(n: nat)
    requires 100000 <= n <= 999999
    ensures |NatToDigits(n)| == 6
  {
    var m1 := n / 10;
    var m2 := m1 / 10;
    var m3 := m2 / 10;
    var m4 := m3 / 10;
    var m5 := m4 / 10;
    assert 10 <= m4 && m5 < 10;
    SpellingGrows(n);
    SpellingGrows(m1);
    SpellingGrows(m2);
    SpellingGrows(m3);
    SpellingGrows(m4);
  }

  // ---------------------------------------------------------------------------
  // int(text)
  // ---------------------------------------------------------------------------

  /** Python's `str.isspace()`: the characters `strip()` and `Decimal()` remove around a value. */
  predicate IsPySpace(c: char) {
    || ('\U{9}' <= c <= '\U{D}') || ('\U{1C}' <= c <= '\U{20}')
    || c == '\U{85}' || c == '\U{A0}' || c == '\U{1680}'
    || ('\U{2000}' <= c <= '\U{200A}') || c == '\U{2028}' || c == '\U{2029}'
    || c == '\U{202F}' || c == '\U{205F}' || c == '\U{3000}'
  }

  /** `text.strip()` with no argument. */
  function PyStrip(s: string): (r: string)
    ensures |r| <= |s|
    ensures |r| > 0 ==> !IsPySpace(r[0]) && !IsPySpace(r[|r| - 1])
    ensures (forall i :: 0 <= i < |s| ==> !IsPySpace(s[i])) ==> r == s
    decreases |s|
  {
    if |s| > 0 && IsPySpace(s[0]) then PyStrip(s[1..])
    else if |s| > 0 && IsPySpace(s[|s| - 1]) then PyStrip(s[..|s| - 1])
    else s
  }

  /**
   * The characters `int()` skips around a number. CPython first turns every
   * non-ASCII white space character into a space and then skips only C's
   * ASCII `isspace` set, so the separators U+001C to U+001F, which
   * `str.isspace()` accepts, are kept and make `int()` fail.
   */
  predicate IsIntSpace(c: char) {
    IsPySpace(c) && !('\U{1C}' <= c <= '\U{1F}')
  }

  /** The white space `int()` skips, removed from both ends. */
  function IntStrip(s: string): (r: string)
    ensures |r| <= |s|
    ensures |r| > 0 ==> !IsIntSpace(r[0]) && !IsIntSpace(r[|r| - 1])
    ensures (forall i :: 0 <= i < |s| ==> !IsIntSpace(s[i])) ==> r == s
    decreases |s|
  {
    if |s| > 0 && IsIntSpace(s[0]) then IntStrip(s[1..])
    else if |s| > 0 && IsIntSpace(s[|s| - 1]) then IntStrip(s[..|s| - 1])
    else s
  }

  /** Without the four separators `int()` and `strip()` remove the same white space. */
  lemma {:induction false} IntStripIsPyStrip(s: string)
    requires forall i :: 0 <= i < |s| ==> !('\U{1C}' <= s[i] <= '\U{1F}')
    ensures IntStrip(s) == PyStrip(s)
    decreases |s|
  {
    if |s| > 0 && IsPySpace(s[0]) {
      assert IsIntSpace(s[0]);
      IntStripIsPyStrip(s[1..]);
    } else if |s| > 0 && IsPySpace(s[|s| - 1]) {
      assert !IsIntSpace(s[0]) && IsIntSpace(s[|s| - 1]);
      IntStripIsPyStrip(s[..|s| - 1]);
    }
  }

  /**
   * The digit part of a base-10 integer literal as `int()` reads it: digits,
   * with single underscores allowed between two digits.
   */
  predicate IsDigitBody(s: string) {
    && |s| > 0
    && IsDigit(s[0]) && IsDigit(s[|s| - 1])
    && (forall i :: 0 <= i < |s| ==> IsDigit(s[i]) || s[i] == '_')
    && (forall i :: 0 <= i < |s| - 1 ==> !(s[i] == '_' && s[i + 1] == '_'))
  }

  function DropUnderscores(s: string): (r: string)
    requires forall i :: 0 <= i < |s| ==> IsDigit(s[i]) || s[i] == '_'
    ensures AllDigits(r)
    ensures AllDigits(s) ==> r == s
    decreases |s|
  {
    if |s| == 0 then ""
    else if s[0] == '_' then DropUnderscores(s[1..])
    else [s[0]] + DropUnderscores(s[1..])
  }

  /**
   * CPython's default `int_max_str_digits`: `int()` raises `ValueError` on a
   * decimal literal with more digits than this (underscores not counted), and
   * `str()` on an integer that would need more.
   */
  const MaxStrDigits: nat := 4300

  /** Whether `str(n)` stays within that limit. */
  predicate WithinDigitLimit(n: int) {
    |NatToDigits(if n < 0 then -n else n)| <= MaxStrDigits
  }

  function ParseBody(s: string): (r: Option<nat>)
    ensures r.Some? ==> WithinDigitLimit(r.value)
  {
    if IsDigitBody(s) && |DropUnderscores(s)| <= MaxStrDigits then
      SpellingNoLonger(DropUnderscores(s));
      Some(DigitsToNat(DropUnderscores(s)))
    else None
  }

  /** Reading digits and spelling the value back never needs more characters: leading zeros only add. */
  lemma {:induction false} SpellingNoLonger(s: string)
    requires AllDigits(s) && |s| > 0
    ensures |NatToDigits(DigitsToNat(s))| <= |s|
    decreases |s|
  {
    var n := DigitsToNat(s);
    if |s| > 1 && n >= 10 {
      var init := s[..|s| - 1];
      SpellingNoLonger(init);
      assert n / 10 == DigitsToNat(init);
    }
  }

  /** `int(text)` in base 10: `None` stands for the `ValueError` Python raises. */
  function ParseInt(text: string): (r: Option<int>)
    ensures r.Some? ==> |IntStrip(text)| > 0
    ensures r.Some? ==> WithinDigitLimit(r.value)
  {
    var t := IntStrip(text);
    if |t| > 0 && t[0] == '-' then
      match ParseBody(t[1..])
      case Some(v) => Some(-(v as int))
      case None => None
    else if |t| > 0 && t[0] == '+' then
      match ParseBody(t[1..])
      case Some(v) => Some(v)
      case None => None
    else
      match ParseBody(t)
      case Some(v) => Some(v)
      case None => None
  }

  /**
   * What `str` writes, `int` reads back: the round trip every numeric form
   * field relies on. It breaks only past the digit limit, where `int()` raises.
   */
  lemma ParseIntOfIntToString(n: int)
    ensures ParseInt(IntToString(n)) == if WithinDigitLimit(n) then Some(n) else None
  {
    var s := IntToString(n);
    var m: nat := if n < 0 then -n else n;
    SpellingUnstripped(n);
    SpellingParses(m);
    if n < 0 {
      assert s[1..] == NatToDigits(m);
    } else {
      assert s == NatToDigits(m);
    }
  }

  /** `str(n)` has no white space for `strip()` or `int()` to remove. */
  lemma SpellingUnstripped(n: int)
    ensures PyStrip(IntToString(n)) == IntToString(n)
    ensures IntStrip(IntToString(n)) == IntToString(n)
  {
    var s := IntToString(n);
    assert forall i :: 0 <= i < |s| ==> !IsPySpace(s[i]);
  }

  /** The digits of `str(m)` read back as `m`, within the digit limit. */
  lemma SpellingParses(m: nat)
    ensures ParseBody(NatToDigits(m)) == if |NatToDigits(m)| <= MaxStrDigits then Some(m) else None
  {
    var d := NatToDigits(m);
    NatDigitsRoundTrip(m);
    assert IsDigitBody(d);
    assert DropUnderscores(d) == d;
  }

  /**
   * A plain run of digits is an integer to `int()` exactly when it has at most
   * 4300 of them; past that the limit makes it raise `ValueError`.
   */
  lemma DigitStringLimit(s: string)
    requires |s| > 0 && AllDigits(s)
    ensures ParseInt(s).Some? <==> |s| <= MaxStrDigits
    ensures ParseInt(s).Some? ==> ParseInt(s).value == DigitsToNat(s)
  {
    assert forall i :: 0 <= i < |s| ==> !IsPySpace(s[i]);
    assert IsDigitBody(s);
  }

  /** A leading information separator is white space to `strip()` but not to `int()`. */
  lemma SeparatorFailsInt()
    ensures PyStrip("\U{1C}5") == "5"
    ensures ParseInt("\U{1C}5") == None
  {
    assert IsPySpace("\U{1C}5"[0]) && !IsIntSpace("\U{1C}5"[0]);
    assert "\U{1C}5"[1..] == "5";
  }
}

=== FILE: rates_seed.dfy ===
/**
 * The `populate_rates` management command: seeds the `ShippingRate` table from
 * the courier's tariff, one `update_or_create` keyed on the wilaya per entry.
 */
module RateSeed {
  import opened Shipping

  /** One tariff line: wilaya, home-delivery price, stop-desk price (0 when the courier has no desk there). */
  datatype Tariff = Tariff(wilaya: string, home: int, desk: int)

  /** The tariff the command seeds, in its order (written in parts of eight lines, each checked on its own). */
  const Tariffs: seq<Tariff> :=
    TariffPart1 + TariffPart2 + TariffPart3 + TariffPart4 + TariffPart5 + TariffPart6 + TariffPart7

  const TariffPart1: seq<Tariff> := [
    Tariff("Mostaganem", 600, 400),
    Tariff("Mascara", 750, 450),
    Tariff("Saida", 750, 450),
    Tariff("Oran", 750, 450),
    Tariff("Alger", 700, 450),
    Tariff("Boumerdès", 800, 500),
    Tariff("Blida", 800, 500),
    Tariff("Tipaza", 800, 500)
  ]

  const TariffPart2: seq<Tariff> := [
    Tariff("Tizi Ouzou", 800, 500),
    Tariff("Bouira", 800, 500),
    Tariff("Bejaia", 800, 500),
    Tariff("Médéa", 800, 500),
    Tariff("Ain Defla", 800, 500),
    Tariff("AinTimouchent", 800, 500),
    Tariff("Chlef", 800, 500),
    Tariff("Constantine", 800, 500)
  ]

  const TariffPart3: seq<Tariff> := [
    Tariff("Setif", 800, 500),
    Tariff("Tiaret", 800, 500),
    Tariff("Tlemcen", 800, 500),
    Tariff("Relizane", 800, 500),
    Tariff("Sidi Bel Abbes", 800, 500),
    Tariff("Jijel", 900, 600),
    Tariff("Bordj Bou Arreridj", 900, 600),
    Tariff("Annaba", 900, 600)
  ]

  const TariffPart4: seq<Tariff> := [
    Tariff("Batna", 900, 600),
    Tariff("Tissemsilt", 900, 600),
    Tariff("Skikda", 900, 600),
    Tariff("Mila", 900, 600),
    Tariff("M'Sila", 900, 600),
    Tariff("El Tarf", 950, 600),
    Tariff("Guelma", 950, 600),
    Tariff("Kenchela", 950, 600)
  ]

  const TariffPart5: seq<Tariff> := [
    Tariff("Oum El Bouagui", 950, 600),
    Tariff("Souk Ahrass", 950, 600),
    Tariff("Tebessa", 1000, 600),
    Tariff("Laghouat", 1000, 600),
    Tariff("Djelfa", 1000, 600),
    Tariff("Biskra", 1000, 600),
    Tariff("Ouled Djellal", 1000, 0),
    Tariff("Ghardaïa", 1100, 700)
  ]

  const TariffPart6: seq<Tariff> := [
    Tariff("El Meniaa", 1100, 700),
    Tariff("El Oued", 1100, 700),
    Tariff("El M'Ghair", 1100, 0),
    Tariff("Ouargla", 1100, 700),
    Tariff("Touggourt", 1100, 700),
    Tariff("El Bayadh", 1200, 800),
    Tariff("Naama", 1200, 800),
    Tariff("Bechar", 1200, 800)
  ]

  const TariffPart7: seq<Tariff> := [
    Tariff("Béni Abbès", 1200, 0),
    Tariff("Adrar", 1500, 1000),
    Tariff("Timimoun", 1500, 1000),
    Tariff("Tindouf", 1700, 1000),
    Tariff("In Salah", 1800, 1200),
    Tariff("Ilizi", 1900, 1500),
    Tariff("Tamenrasset", 2000, 1500),
    Tariff("Djanet", 2200, 0)
  ]

  /** The `return_cost` every seeded row gets. */
  const SeededReturnCost: int := 300

  /** The stored stop-desk price: the desk price when there is one, otherwise the home price. */
  function SeededStopDeskPrice(home: int, desk: int): (price: int)
    ensures desk > 0 ==> price == desk
    ensures desk <= 0 ==> price == home
    // The "no desk" marker 0 is never stored as a free stop-desk delivery.
    ensures home > 0 ==> price > 0
    ensures desk <= home ==> price <= home
  {
    if desk > 0 then desk else home
  }

  function SeedRow(t: Tariff): RateRow {
    RateRow(t.home, SeededStopDeskPrice(t.home, t.desk), SeededReturnCost)
  }

  function Listed(tariffs: seq<Tariff>): set<string> {
    set t | t in tariffs :: t.wilaya
  }

  /** The entry the upserts leave behind for a wilaya: the last one that names it. */
  function LastFor(tariffs: seq<Tariff>, wilaya: string): (t: Tariff)
    requires wilaya in Listed(tariffs)
    ensures t in tariffs && t.wilaya == wilaya
    decreases |tariffs|
  {
    var last := tariffs[|tariffs| - 1];
    if last.wilaya == wilaya then last
    else
      assert wilaya in Listed(tariffs[..|tariffs| - 1]) by {
        var t :| t in tariffs && t.wilaya == wilaya;
        var i :| 0 <= i < |tariffs| && tariffs[i] == t;
        assert tariffs[..|tariffs| - 1][i] == t;
      }
      LastFor(tariffs[..|tariffs| - 1], wilaya)
  }

  /** The upsert loop of `handle`, applied to the table in tariff order. */
  function PopulateRates(table: RateTable, tariffs: seq<Tariff>): (r: RateTable)
    ensures r.Keys == table.Keys + Listed(tariffs)
    ensures forall w :: w in r && w !in Listed(tariffs) ==> r[w] == table[w]
    ensures forall w :: w in Listed(tariffs) ==> r[w] == SeedRow(LastFor(tariffs, w))
    decreases |tariffs|
  {
    if |tariffs| == 0 then table
    else
      var init := tariffs[..|tariffs| - 1];
      var last := tariffs[|tariffs| - 1];
      assert tariffs == init + [last];
      assert Listed(tariffs) == Listed(init) + {last.wilaya};
      PopulateRates(table, init)[last.wilaya := SeedRow(last)]
  }

  /** Running the command twice leaves the table as running it once. */
  lemma PopulateRatesIdempotent(table: RateTable, tariffs: seq<Tariff>)
    ensures PopulateRates(PopulateRates(table, tariffs), tariffs) == PopulateRates(table, tariffs)
  {
  }

  /** Every seeded row gets the default return cost. */
  lemma SeededReturnCosts(table: RateTable, tariffs: seq<Tariff>)
    ensures forall t :: t in tariffs ==> PopulateRates(table, tariffs)[t.wilaya].returnCost == SeededReturnCost
  {
    forall t | t in tariffs
      ensures PopulateRates(table, tariffs)[t.wilaya].returnCost == SeededReturnCost
    {
      assert t.wilaya in Listed(tariffs);
    }
  }

  predicate DeskNotAboveHome(tariffs: seq<Tariff>) {
    forall i :: 0 <= i < |tariffs| ==> tariffs[i].desk <= tariffs[i].home
  }

  /** Whenever no tariff line quotes its desk above its home price, no seeded row does either. */
  lemma SeededStopNotAboveHome(table: RateTable, tariffs: seq<Tariff>)
    requires DeskNotAboveHome(tariffs)
    ensures forall w :: w in Listed(tariffs) ==>
      PopulateRates(table, tariffs)[w].stopDeskPrice <= PopulateRates(table, tariffs)[w].homeDeliveryPrice
  {
    forall w | w in Listed(tariffs)
      ensures PopulateRates(table, tariffs)[w].stopDeskPrice <= PopulateRates(table, tariffs)[w].homeDeliveryPrice
    {
      var t := LastFor(tariffs, w);
      var i :| 0 <= i < |tariffs| && tariffs[i] == t;
    }
  }

  lemma DeskNotAboveHomeAppend(a: seq<Tariff>, b: seq<Tariff>)
    requires DeskNotAboveHome(a) && DeskNotAboveHome(b)
    ensures DeskNotAboveHome(a + b)
  {
    assert forall i :: |a| <= i < |a + b| ==> (a + b)[i] == b[i - |a|];
  }

  /** The shipped tariff never quotes a desk above the home price. */
  lemma TariffDesksNotAboveHome()
    ensures DeskNotAboveHome(Tariffs)
  {
    assert DeskNotAboveHome(TariffPart1) && DeskNotAboveHome(TariffPart2) && DeskNotAboveHome(TariffPart3);
    assert DeskNotAboveHome(TariffPart4) && DeskNotAboveHome(TariffPart5);
    assert DeskNotAboveHome(TariffPart6) && DeskNotAboveHome(TariffPart7);
    DeskNotAboveHomeAppend(TariffPart1, TariffPart2);
    DeskNotAboveHomeAppend(TariffPart1 + TariffPart2, TariffPart3);
    DeskNotAboveHomeAppend(TariffPart1 + TariffPart2 + TariffPart3, TariffPart4);
    DeskNotAboveHomeAppend(TariffPart1 + TariffPart2 + TariffPart3 + TariffPart4, TariffPart5);
    DeskNotAboveHomeAppend(TariffPart1 + TariffPart2 + TariffPart3 + TariffPart4 + TariffPart5, TariffPart6);
    DeskNotAboveHomeAppend(TariffPart1 + TariffPart2 + TariffPart3 + TariffPart4 + TariffPart5 + TariffPart6, TariffPart7);
  }

  /** `handle`: seeds the table and reports the number of tariff lines. */
  function PopulateCommand(table: RateTable): (r: (RateTable, nat))
    ensures r.1 == |Tariffs|
    ensures r.0.Keys == table.Keys + Listed(Tariffs)
    ensures forall w :: w in Listed(Tariffs) ==> r.0[w].stopDeskPrice <= r.0[w].homeDeliveryPrice
    ensures forall w :: w in Listed(Tariffs) ==> r.0[w].returnCost == SeededReturnCost
  {
    TariffDesksNotAboveHome();
    SeededStopNotAboveHome(table, Tariffs);
    (PopulateRates(table, Tariffs), |Tariffs|)
  }
}

=== FILE: register_page.dfy ===
/**
 * The registration page script: the password strength bar, the checks run
 * when the form is submitted, and the formatter applied to the phone input on
 * every keystroke. The phone pattern check itself is `Phone.ValidatePhone`.
 */
module RegisterPage {
  import opened Wrappers
  import opened PyInt
  import opened Phone
  import Accounts

  // ---------------------------------------------------------------------------
  // Lengths as JavaScript counts them
  // ---------------------------------------------------------------------------

  /** `String.prototype.length`: UTF-16 code units, two for a character outside the Basic Multilingual Plane. */
  function JsLength(s: string): (n: nat)
    ensures n >= |s|
    ensures (forall i :: 0 <= i < |s| ==> s[i] as int <= 0xFFFF) ==> n == |s|
    decreases |s|
  {
    if |s| == 0 then 0
    else (if s[0] as int > 0xFFFF then 2 else 1) + JsLength(s[1..])
  }

  /** `String.prototype.trim`: white space off both ends. */
  function JsTrim(s: string): (r: string)
    ensures |r| <= |s|
    ensures |r| > 0 ==> !IsJsSpace(r[0]) && !IsJsSpace(r[|r| - 1])
    decreases |s|
  {
    if |s| > 0 && IsJsSpace(s[0]) then JsTrim(s[1..])
    else if |s| > 0 && IsJsSpace(s[|s| - 1]) then JsTrim(s[..|s| - 1])
    else s
  }

  // ---------------------------------------------------------------------------
  // Strength bar
  // ---------------------------------------------------------------------------

  /** The bar's width (percent) and colour. */
  datatype Bar = Bar(width: int, color: string)

  const EmptyBar: Bar := Bar(0, "#e5e7eb")
  const WeakBar: Bar := Bar(33, "#ef4444")
  const StrongBar: Bar := Bar(100, "#10b981")

  /**
   * The `input` handler of the first password field, as written: no bar
   * element means nothing to draw; lengths 5 to 8 match no branch and keep
   * whatever the bar showed before.
   */
  function StrengthBarAsWritten(bar: Option<Bar>, password: string): (r: Option<Bar>)
    ensures bar.None? ==> r.None?
    ensures bar.Some? ==> r.Some?
    ensures bar.Some? && JsLength(password) == 0 ==> r == Some(EmptyBar)
    ensures bar.Some? && 1 <= JsLength(password) < 5 ==> r == Some(WeakBar)
    ensures bar.Some? && JsLength(password) > 8 ==> r == Some(StrongBar)
    ensures 5 <= JsLength(password) <= 8 ==> r == bar
  {
    var n := JsLength(password);
    if bar.None? then None
    else if n == 0 then Some(EmptyBar)
    else if n < 5 then Some(WeakBar)
    else if n > 8 then Some(StrongBar)
    else bar
  }

  /** The bar after a sequence of keystrokes, each giving the field's new content. */
  function BarAfter(bar: Option<Bar>, typed: seq<string>): Option<Bar>
    decreases |typed|
  {
    if |typed| == 0 then bar else BarAfter(StrengthBarAsWritten(bar, typed[0]), typed[1..])
  }

  const MediumBar: Bar := Bar(66, "#f59e0b")

  /** The bar with the middle band filled in: a function of the current password alone. */
  function StrengthBar(bar: Option<Bar>, password: string): (r: Option<Bar>)
    ensures bar.None? <==> r.None?
    // A full bar only for a password the submit check accepts as long enough.
    ensures r == Some(StrongBar) ==> JsLength(password) >= MinPasswordLength
    // Agrees with the page everywhere the page's branches reach.
    ensures !(5 <= JsLength(password) <= 8) ==> r == StrengthBarAsWritten(bar, password)
  {
    var n := JsLength(password);
    if bar.None? then None
    else if n == 0 then Some(EmptyBar)
    else if n < 5 then Some(WeakBar)
    else if n > 8 then Some(StrongBar)
    else Some(MediumBar)
  }

  /** Whatever the bar showed before does not matter to the corrected bar. */
  lemma StrengthBarIgnoresHistory(a: Bar, b: Bar, password: string)
    ensures StrengthBar(Some(a), password) == StrengthBar(Some(b), password)
    ensures 5 <= JsLength(password) <= 8 ==> StrengthBar(Some(a), password) == Some(MediumBar)
  { }

  /**
   * Typing nine characters and deleting back to five leaves the full green
   * bar on a password the submit check then rejects as too short.
   */
  lemma StaleStrongBar()
    ensures BarAfter(Some(EmptyBar), ["abcdefghi", "abcde"]) == Some(StrongBar)
    ensures TooShort in SubmitErrors("abcde", "abcde", "0551234567")
  {
    assert JsLength("abcdefghi") == 9;
    assert JsLength("abcde") == 5;
    assert ["abcdefghi", "abcde"][1..] == ["abcde"];
  }

  /** With the middle band, the same keystrokes end on the medium bar. */
  lemma NoStaleStrongBar()
    ensures StrengthBar(StrengthBar(Some(EmptyBar), "abcdefghi"), "abcde") == Some(MediumBar)
  {
    assert JsLength("abcdefghi") == 9;
    assert JsLength("abcde") == 5;
  }

  // ---------------------------------------------------------------------------
  // Submit check
  // ---------------------------------------------------------------------------

  const MinPasswordLength: nat := 8

  datatype SubmitError = PasswordsDiffer | InvalidPhone | TooShort

  function Rank(e: SubmitError): nat {
    match e
    case PasswordsDiffer => 0
    case InvalidPhone => 1
    case TooShort => 2
  }

  /** The submit handler's error list: every failing check, in the order they run. */
  function SubmitErrors(pass1: string, pass2: string, phone: string): (errors: seq<SubmitError>)
    ensures PasswordsDiffer in errors <==> pass1 != pass2
    ensures InvalidPhone in errors <==> !ValidatePhone(phone)
    ensures TooShort in errors <==> JsLength(pass1) < MinPasswordLength
    ensures forall i, j :: 0 <= i < j < |errors| ==> Rank(errors[i]) < Rank(errors[j])
  {
    TrimKeepsValidity(phone);
    (if pass1 != pass2 then [PasswordsDiffer] else [])
    + (if !ValidatePhone(JsTrim(phone)) then [InvalidPhone] else [])
    + (if JsLength(pass1) < MinPasswordLength then [TooShort] else [])
  }

  /** `e.preventDefault()` runs exactly when some check failed. */
  function SubmitBlocked(pass1: string, pass2: string, phone: string): (blocked: bool)
    ensures blocked <==> pass1 != pass2 || !ValidatePhone(phone) || JsLength(pass1) < MinPasswordLength
  {
    |SubmitErrors(pass1, pass2, phone)| > 0
  }

  /**
   * A form the page lets through passes the server's password comparison,
   * and its phone, typed with plain spaces only, normalises to the
   * international form the page itself accepts: the verification SMS is sent
   * to `+213` and nine digits (the user record keeps the phone as typed).
   */
  lemma SubmittedFormPassesServerChecks(st: Accounts.AuthState, form: Accounts.RegisterForm, code: int, smsDelivered: bool)
    requires Accounts.CodeLow <= code <= Accounts.CodeHigh
    requires !SubmitBlocked(form.password1, form.password2, form.phone)
    requires forall i :: 0 <= i < |form.phone| ==> IsJsSpace(form.phone[i]) ==> form.phone[i] == ' '
    ensures Accounts.Register(st, true, form, code, smsDelivered).1 != Accounts.PasswordMismatch
    ensures IsInternationalMobile(CleanPhoneNumber(form.phone))
  {
    AcceptedPhoneNormalisesToInternational(form.phone);
  }

  /** Trimming first changes nothing, since the pattern check drops white space anyway. */
  lemma {:induction false} TrimKeepsValidity(s: string)
    ensures JsStrip(JsTrim(s)) == JsStrip(s)
    ensures ValidatePhone(JsTrim(s)) == ValidatePhone(s)
    decreases |s|
  {
    if |s| > 0 && IsJsSpace(s[0]) {
      TrimKeepsValidity(s[1..]);
    } else if |s| > 0 && IsJsSpace(s[|s| - 1]) {
      var init := s[..|s| - 1];
      TrimKeepsValidity(init);
      assert init + [s[|s| - 1]] == s;
      JsStripAppend(init, [s[|s| - 1]]);
    }
  }

  // ---------------------------------------------------------------------------
  // Phone input formatter
  // ---------------------------------------------------------------------------

  /** `value.replace(/\D/g, '')`. */
  function KeepDigits(s: string): (r: string)
    ensures AllDigits(r) && |r| <= |s|
    decreases |s|
  {
    if |s| == 0 then ""
    else if IsDigit(s[0]) then [s[0]] + KeepDigits(s[1..])
    else KeepDigits(s[1..])
  }

  /** `value.substring(a, b)` for `a <= b`: both ends clamped to the length. */
  function Sub(s: string, a: nat, b: nat): (r: string)
    requires a <= b
    ensures |r| <= b - a
  {
    var lo := if a < |s| then a else |s|;
    var hi := if b < |s| then b else |s|;
    s[lo..hi]
  }

  predicate CountryPrefixed(d: string) {
    |d| >= 3 && d[..3] == "213"
  }

  predicate TrunkPrefixed(d: string) {
    |d| >= 1 && d[0] == '0'
  }

  /** Five groups joined by single spaces. */
  function Spaced(g1: string, g2: string, g3: string, g4: string, g5: string): string {
    g1 + " " + g2 + " " + g3 + " " + g4 + " " + g5
  }

  /** `+213 X XX XX XX XX` from the digits after the country code. */
  function InternationalGroups(d: string): string {
    "+213 " + Spaced(Sub(d, 3, 4), Sub(d, 4, 6), Sub(d, 6, 8), Sub(d, 8, 10), Sub(d, 10, 12))
  }

  /** `0X XX XX XX XX`. */
  function LocalGroups(d: string): string {
    Spaced(Sub(d, 0, 2), Sub(d, 2, 4), Sub(d, 4, 6), Sub(d, 6, 8), Sub(d, 8, 10))
  }

  /** The grouping applied to the digits before the final trim. */
  function GroupDigits(d: string): string {
    if CountryPrefixed(d) then (if |d| > 3 then InternationalGroups(d) else d)
    else if TrunkPrefixed(d) then (if |d| > 2 then LocalGroups(d) else d)
    else d
  }

  /** The digits a grouping keeps: twelve with the country code, ten with the trunk zero, all otherwise. */
  function Kept(d: string): (k: string)
    ensures |k| <= |d| && k == d[..|k|]
  {
    if CountryPrefixed(d) && |d| > 12 then d[..12]
    else if !CountryPrefixed(d) && TrunkPrefixed(d) && |d| > 10 then d[..10]
    else d
  }

  /** The phone field's `input` handler. */
  function FormatPhoneInput(value: string): (r: string)
    // The field keeps the typed digits, cut after the last group.
    ensures KeepDigits(r) == Kept(KeepDigits(value))
  {
    var d := KeepDigits(value);
    KeepDigitsOfFormatted(d);
    JsTrim(GroupDigits(d))
  }

  /** Running the handler again on its own output changes nothing. */
  lemma FormatIdempotent(value: string)
    ensures FormatPhoneInput(FormatPhoneInput(value)) == FormatPhoneInput(value)
  {
    KeptGroupsAlike(KeepDigits(value));
  }

  /** The digits of a formatted value are the digits it kept. */
  lemma KeepDigitsOfFormatted(d: string)
    requires AllDigits(d)
    ensures KeepDigits(JsTrim(GroupDigits(d))) == Kept(d)
    ensures KeepDigits(JsTrim(GroupDigits(d))) == KeepDigits(GroupDigits(d))
  {
    KeepDigitsTrim(GroupDigits(d));
    if CountryPrefixed(d) && |d| > 3 {
      KeepDigitsInternational(d);
    } else if !CountryPrefixed(d) && TrunkPrefixed(d) && |d| > 2 {
      KeepDigitsLocal(d);
    } else {
      KeepDigitsOfDigits(d);
    }
  }

  /** A group that ends within a prefix reads the same from the prefix. */
  lemma SubOfPrefix(s: string, n: nat, a: nat, b: nat)
    requires a <= b <= n <= |s|
    ensures Sub(s[..n], a, b) == Sub(s, a, b)
  { }

  /** Grouping the kept digits is grouping the digits. */
  lemma KeptGroupsAlike(d: string)
    requires AllDigits(d)
    ensures GroupDigits(Kept(d)) == GroupDigits(d)
  {
    var k := Kept(d);
    if CountryPrefixed(d) && |d| > 12 {
      assert k[..3] == d[..3];
      SubOfPrefix(d, 12, 3, 4);
      SubOfPrefix(d, 12, 4, 6);
      SubOfPrefix(d, 12, 6, 8);
      SubOfPrefix(d, 12, 8, 10);
      SubOfPrefix(d, 12, 10, 12);
    } else if !CountryPrefixed(d) && TrunkPrefixed(d) && |d| > 10 {
      assert !CountryPrefixed(k) by {
        if |k| >= 3 { assert k[..3] == d[..3]; }
      }
      SubOfPrefix(d, 10, 0, 2);
      SubOfPrefix(d, 10, 2, 4);
      SubOfPrefix(d, 10, 4, 6);
      SubOfPrefix(d, 10, 6, 8);
      SubOfPrefix(d, 10, 8, 10);
    }
  }

  lemma {:induction false} KeepDigitsAppend(a: string, b: string)
    ensures KeepDigits(a + b) == KeepDigits(a) + KeepDigits(b)
    decreases |a|
  {
    if |a| > 0 {
      assert (a + b)[1..] == a[1..] + b;
      KeepDigitsAppend(a[1..], b);
    } else {
      assert a + b == b;
    }
  }

  lemma {:induction false} KeepDigitsOfDigits(s: string)
    requires AllDigits(s)
    ensures KeepDigits(s) == s
    decreases |s|
  {
    if |s| > 0 {
      KeepDigitsOfDigits(s[1..]);
    }
  }

  /** Trimming removes only white space, never a digit. */
  lemma {:induction false} KeepDigitsTrim(s: string)
    ensures KeepDigits(JsTrim(s)) == KeepDigits(s)
    decreases |s|
  {
    if |s| > 0 && IsJsSpace(s[0]) {
      KeepDigitsTrim(s[1..]);
    } else if |s| > 0 && IsJsSpace(s[|s| - 1]) {
      var init := s[..|s| - 1];
      KeepDigitsTrim(init);
      assert init + [s[|s| - 1]] == s;
      KeepDigitsAppend(init, [s[|s| - 1]]);
    }
  }

  /** A space then a group of digits contributes exactly that group. */
  lemma SpacedGroup(prefix: string, g: string)
    requires AllDigits(g)
    ensures KeepDigits(prefix + " " + g) == KeepDigits(prefix) + g
  {
    KeepDigitsAppend(prefix + " ", g);
    KeepDigitsAppend(prefix, " ");
    KeepDigitsOfDigits(g);
  }

  /** Consecutive clamped substrings join up. */
  lemma SubJoin(s: string, a: nat, b: nat, c: nat)
    requires a <= b <= c
    ensures Sub(s, a, b) + Sub(s, b, c) == Sub(s, a, c)
  { }

  lemma SubDigits(s: string, a: nat, b: nat)
    requires AllDigits(s) && a <= b
    ensures AllDigits(Sub(s, a, b))
  { }

  /** Five spaced digit groups contribute just their digits. */
  lemma KeepDigitsOfSpaced(g1: string, g2: string, g3: string, g4: string, g5: string)
    requires AllDigits(g1) && AllDigits(g2) && AllDigits(g3) && AllDigits(g4) && AllDigits(g5)
    ensures KeepDigits(Spaced(g1, g2, g3, g4, g5)) == g1 + g2 + g3 + g4 + g5
  {
    KeepDigitsOfDigits(g1);
    var p2 := g1 + " " + g2;
    SpacedGroup(g1, g2);
    var p3 := p2 + " " + g3;
    SpacedGroup(p2, g3);
    var p4 := p3 + " " + g4;
    SpacedGroup(p3, g4);
    SpacedGroup(p4, g5);
  }

  /** The five clamped groups from `a` on join into one clamped substring. */
  lemma JoinGroups(d: string, a: nat)
    ensures Sub(d, a, a + 1) + Sub(d, a + 1, a + 3) + Sub(d, a + 3, a + 5) + Sub(d, a + 5, a + 7) + Sub(d, a + 7, a + 9)
         == Sub(d, a, a + 9)
  {
    SubJoin(d, a, a + 1, a + 3);
    SubJoin(d, a, a + 3, a + 5);
    SubJoin(d, a, a + 5, a + 7);
    SubJoin(d, a, a + 7, a + 9);
  }

  lemma KeepDigitsInternational(d: string)
    requires AllDigits(d) && CountryPrefixed(d) && |d| > 3
    ensures KeepDigits(InternationalGroups(d)) == Kept(d)
  {
    var g1, g2, g3, g4, g5 := Sub(d, 3, 4), Sub(d, 4, 6), Sub(d, 6, 8), Sub(d, 8, 10), Sub(d, 10, 12);
    SubDigits(d, 3, 4); SubDigits(d, 4, 6); SubDigits(d, 6, 8); SubDigits(d, 8, 10); SubDigits(d, 10, 12);
    KeepDigitsOfSpaced(g1, g2, g3, g4, g5);
    KeepDigitsAppend("+213 ", Spaced(g1, g2, g3, g4, g5));
    assert KeepDigits("+213 ") == "213";
    JoinGroups(d, 3);
    PrefixThenTail(d);
  }

  /** The country code followed by the clamped tail is what `Kept` keeps. */
  lemma PrefixThenTail(d: string)
    requires CountryPrefixed(d)
    ensures "213" + Sub(d, 3, 12) == Kept(d)
  {
    var m := if |d| < 12 then |d| else 12;
    assert Sub(d, 3, 12) == d[3..m];
    assert d[..m] == d[..3] + d[3..m];
  }

  lemma KeepDigitsLocal(d: string)
    requires AllDigits(d) && !CountryPrefixed(d) && TrunkPrefixed(d) && |d| > 2
    ensures KeepDigits(LocalGroups(d)) == Kept(d)
  {
    SubDigits(d, 0, 2); SubDigits(d, 2, 4); SubDigits(d, 4, 6); SubDigits(d, 6, 8); SubDigits(d, 8, 10);
    KeepDigitsOfSpaced(Sub(d, 0, 2), Sub(d, 2, 4), Sub(d, 4, 6), Sub(d, 6, 8), Sub(d, 8, 10));
    SubJoin(d, 0, 2, 4); SubJoin(d, 0, 4, 6); SubJoin(d, 0, 6, 8); SubJoin(d, 0, 8, 10);
  }

  // ---------------------------------------------------------------------------
  // The formatter and the pattern check
  // ---------------------------------------------------------------------------

  /** Stripping white space from spaced digit groups leaves just the digits. */
  lemma JsStripOfSpaced(g1: string, g2: string, g3: string, g4: string, g5: string)
    requires AllDigits(g1) && AllDigits(g2) && AllDigits(g3) && AllDigits(g4) && AllDigits(g5)
    ensures JsStrip(Spaced(g1, g2, g3, g4, g5)) == g1 + g2 + g3 + g4 + g5
  {
    JsStripOfDigits(g1);
    var p2 := g1 + " " + g2;
    JsStripSpacedGroup(g1, g2);
    var p3 := p2 + " " + g3;
    JsStripSpacedGroup(p2, g3);
    var p4 := p3 + " " + g4;
    JsStripSpacedGroup(p3, g4);
    JsStripSpacedGroup(p4, g5);
  }

  lemma JsStripSpacedGroup(prefix: string, g: string)
    requires AllDigits(g)
    ensures JsStrip(prefix + " " + g) == JsStrip(prefix) + g
  {
    JsStripAppend(prefix + " ", g);
    JsStripAppend(prefix, " ");
    JsStripOfDigits(g);
  }

  /** A string that neither starts nor ends with white space is its own trim. */
  lemma TrimOfTidy(s: string)
    requires |s| > 0 && !IsJsSpace(s[0]) && !IsJsSpace(s[|s| - 1])
    ensures JsTrim(s) == s
  { }

  /** Typing a valid local number, with or without separators, leaves a field the pattern check accepts. */
  lemma FormattedLocalStaysValid(value: string)
    requires IsLocalMobile(KeepDigits(value))
    ensures FormatPhoneInput(value) == LocalGroups(KeepDigits(value))
    ensures ValidatePhone(FormatPhoneInput(value))
  {
    var d := KeepDigits(value);
    var g1, g2, g3, g4, g5 := Sub(d, 0, 2), Sub(d, 2, 4), Sub(d, 4, 6), Sub(d, 6, 8), Sub(d, 8, 10);
    assert !CountryPrefixed(d);
    SubDigits(d, 0, 2); SubDigits(d, 2, 4); SubDigits(d, 4, 6); SubDigits(d, 6, 8); SubDigits(d, 8, 10);
    var f := LocalGroups(d);
    assert f == ((g1 + " " + g2 + " " + g3 + " " + g4) + " ") + g5;
    assert f[0] == '0';
    assert f[|f| - 1] == d[9];
    TrimOfTidy(f);
    JsStripOfSpaced(g1, g2, g3, g4, g5);
    SubJoin(d, 0, 2, 4); SubJoin(d, 0, 4, 6); SubJoin(d, 0, 6, 8); SubJoin(d, 0, 8, 10);
    assert JsStrip(f) == d;
  }

  /** Stripping the grouped twelve digits gives back `+213` and the nine digits after the code. */
  lemma InternationalStripped(d: string)
    requires AllDigits(d) && |d| == 12
    ensures JsStrip(InternationalGroups(d)) == "+213" + d[3..12]
  {
    var g1, g2, g3, g4, g5 := Sub(d, 3, 4), Sub(d, 4, 6), Sub(d, 6, 8), Sub(d, 8, 10), Sub(d, 10, 12);
    SubDigits(d, 3, 4); SubDigits(d, 4, 6); SubDigits(d, 6, 8); SubDigits(d, 8, 10); SubDigits(d, 10, 12);
    CodeAndGroupsStripped(g1, g2, g3, g4, g5);
    JoinGroups(d, 3);
    assert Sub(d, 3, 12) == d[3..12];
  }

  lemma CodeAndGroupsStripped(g1: string, g2: string, g3: string, g4: string, g5: string)
    requires AllDigits(g1) && AllDigits(g2) && AllDigits(g3) && AllDigits(g4) && AllDigits(g5)
    ensures JsStrip("+213 " + Spaced(g1, g2, g3, g4, g5)) == "+213" + (g1 + g2 + g3 + g4 + g5)
  {
    JsStripOfSpaced(g1, g2, g3, g4, g5);
    JsStripAppend("+213 ", Spaced(g1, g2, g3, g4, g5));
    CodeStripped();
  }

  /** The formatter's `+213 ` head loses only its space. */
  lemma CodeStripped()
    ensures JsStrip("+213 ") == "+213"
  {
    assert "+213 " == "+213" + " ";
    JsStripAppend("+213", " ");
    assert JsStrip("+213") == ['+'] + JsStrip("213");
    JsStripOfDigits("213");
  }

  /** The grouped form of twelve digits ends in a digit, so trimming leaves it alone. */
  lemma InternationalTidy(d: string)
    requires AllDigits(d) && |d| == 12
    ensures JsTrim(InternationalGroups(d)) == InternationalGroups(d)
  {
    var f := InternationalGroups(d);
    var g := Spaced(Sub(d, 3, 4), Sub(d, 4, 6), Sub(d, 6, 8), Sub(d, 8, 10), d[10..12]);
    assert g == (Sub(d, 3, 4) + " " + Sub(d, 4, 6) + " " + Sub(d, 6, 8) + " " + Sub(d, 8, 10) + " ") + d[10..12];
    assert f == "+213 " + g;
    assert f[|f| - 1] == d[11];
    TrimOfTidy(f);
  }

  /** The same for a number typed with the country code, with or without its `+`. */
  lemma FormattedInternationalStaysValid(value: string)
    requires |KeepDigits(value)| == 12 && CountryPrefixed(KeepDigits(value))
    requires IsMobileOperator(KeepDigits(value)[3])
    ensures FormatPhoneInput(value) == InternationalGroups(KeepDigits(value))
    ensures ValidatePhone(FormatPhoneInput(value))
  {
    var d := KeepDigits(value);
    InternationalTidy(d);
    InternationalStripped(d);
    var p := "+213" + d[3..12];
    assert p[..4] == "+213";
    assert p[4] == d[3];
    assert forall k :: 5 <= k < 13 ==> p[k] == d[k - 1];
    assert AllDigits(p[5..]);
    assert IsInternationalMobile(p);
  }
}

=== FILE: shipping.dfy ===
/**
 * `ShippingRate.get_shipping_cost`: the wilaya-keyed rate table read through a
 * key-value cache. Cache expiry is not a clock here: any entry may disappear at
 * any time (`Evict`), and every property below holds whatever was evicted.
 */
module Shipping {

  /** A `ShippingRate` row; the wilaya is its unique key in the table. */
  datatype RateRow = RateRow(homeDeliveryPrice: int, stopDeskPrice: int, returnCost: int)

  /** The `ShippingRate` table, keyed by wilaya (`unique=True`). */
  type RateTable = map<string, RateRow>

  /** The shared cache, keyed by `shipping_{wilaya}_{delivery_type}`. */
  type Cache = map<string, int>

  /** The model default of `return_cost`. */
  const DefaultReturnCost: int := 300

  /** What an unknown wilaya costs; this answer is never cached. */
  const FallbackCost: int := 400

  /** The delivery types the order form offers. */
  predicate IsDeliveryChoice(deliveryType: string) {
    deliveryType == "home" || deliveryType == "stop_desk"
  }

  function CacheKey(wilaya: string, deliveryType: string): string {
    "shipping_" + wilaya + "_" + deliveryType
  }

  /** The price a row quotes: the stop-desk price for `stop_desk`, the home price for anything else. */
  function RowPrice(row: RateRow, deliveryType: string): (price: int)
    ensures deliveryType == "stop_desk" ==> price == row.stopDeskPrice
    ensures deliveryType != "stop_desk" ==> price == row.homeDeliveryPrice
  {
    if deliveryType == "stop_desk" then row.stopDeskPrice else row.homeDeliveryPrice
  }

  /** The cache-free reference answer: the table's price, or the fallback for a missing wilaya. */
  function TablePrice(rates: RateTable, wilaya: string, deliveryType: string): int {
    if wilaya in rates then RowPrice(rates[wilaya], deliveryType) else FallbackCost
  }

  /** The answer of one lookup and the cache as the lookup leaves it. */
  datatype Lookup = Lookup(cost: int, cache: Cache)

  /** `ShippingRate.get_shipping_cost(wilaya, delivery_type)`. */
  function GetShippingCost(rates: RateTable, cache: Cache, wilaya: string, deliveryType: string): (r: Lookup)
    // A hit answers from the cache and writes nothing.
    ensures CacheKey(wilaya, deliveryType) in cache ==> r.cost == cache[CacheKey(wilaya, deliveryType)] && r.cache == cache
    // A miss answers what the table says.
    ensures CacheKey(wilaya, deliveryType) !in cache ==> r.cost == TablePrice(rates, wilaya, deliveryType)
    // After the call the key is cached exactly when it was before or the table had the row, and then with the answer.
    ensures CacheKey(wilaya, deliveryType) in r.cache <==> CacheKey(wilaya, deliveryType) in cache || wilaya in rates
    ensures CacheKey(wilaya, deliveryType) in r.cache ==> r.cache[CacheKey(wilaya, deliveryType)] == r.cost
    // No other key is touched.
    ensures forall k :: k != CacheKey(wilaya, deliveryType) ==> (k in r.cache <==> k in cache)
    ensures forall k :: k != CacheKey(wilaya, deliveryType) && k in cache ==> r.cache[k] == cache[k]
  {
    var key := CacheKey(wilaya, deliveryType);
    if key in cache then Lookup(cache[key], cache)
    else if wilaya in rates then
      var cost := RowPrice(rates[wilaya], deliveryType);
      Lookup(cost, cache[key := cost])
    else Lookup(FallbackCost, cache)
  }

  /** Expiry: an arbitrary set of entries disappears. */
  function Evict(cache: Cache, expired: set<string>): (r: Cache)
    ensures r.Keys == cache.Keys - expired
    ensures forall k :: k in r ==> r[k] == cache[k]
  {
    cache - expired
  }

  /** Every cached answer for a real delivery choice is what the table says now. */
  ghost predicate Coherent(rates: RateTable, cache: Cache) {
    forall w, dt :: IsDeliveryChoice(dt) && CacheKey(w, dt) in cache ==>
      w in rates && cache[CacheKey(w, dt)] == RowPrice(rates[w], dt)
  }

  /** For the two real delivery choices, distinct (wilaya, type) pairs never share a cache key. */
  lemma CacheKeyInjective(w1: string, d1: string, w2: string, d2: string)
    requires IsDeliveryChoice(d1) && IsDeliveryChoice(d2)
    requires CacheKey(w1, d1) == CacheKey(w2, d2)
    ensures w1 == w2 && d1 == d2
  {
    var k := CacheKey(w1, d1);
    assert k[|k| - 1] == d1[|d1| - 1];
    assert k[|k| - 1] == d2[|d2| - 1];
    assert d1 == d2;
    assert |w1| == |w2|;
    assert w1 == k[9..9 + |w1|];
    assert w2 == k[9..9 + |w2|];
  }

  /** With any other delivery string two different lookups can share a key. */
  lemma CacheKeyCollision()
    ensures CacheKey("Oran_x", "home") == CacheKey("Oran", "x_home")
  {
  }

  /**
   * With a coherent cache a lookup answers exactly what the table says, and the
   * cache stays coherent: caching never changes an answer.
   */
  lemma CoherentLookup(rates: RateTable, cache: Cache, wilaya: string, deliveryType: string)
    requires Coherent(rates, cache)
    requires IsDeliveryChoice(deliveryType)
    ensures GetShippingCost(rates, cache, wilaya, deliveryType).cost == TablePrice(rates, wilaya, deliveryType)
    ensures Coherent(rates, GetShippingCost(rates, cache, wilaya, deliveryType).cache)
  {
    var key := CacheKey(wilaya, deliveryType);
    var r := GetShippingCost(rates, cache, wilaya, deliveryType);
    forall w, dt | IsDeliveryChoice(dt) && CacheKey(w, dt) in r.cache
      ensures w in rates && r.cache[CacheKey(w, dt)] == RowPrice(rates[w], dt)
    {
      if CacheKey(w, dt) == key {
        CacheKeyInjective(w, dt, wilaya, deliveryType);
      }
    }
  }

  /** Expiry of any entries keeps a coherent cache coherent. */
  lemma EvictionKeepsCoherence(rates: RateTable, cache: Cache, expired: set<string>)
    requires Coherent(rates, cache)
    ensures Coherent(rates, Evict(cache, expired))
  {
  }

  /** The empty cache (a fresh process, or everything expired) is coherent. */
  lemma EmptyCacheCoherent(rates: RateTable)
    ensures Coherent(rates, map[])
  {
  }

  /** Asking twice gives the same answer and leaves the cache as the first call left it. */
  lemma RepeatedLookupStable(rates: RateTable, cache: Cache, wilaya: string, deliveryType: string)
    ensures var first := GetShippingCost(rates, cache, wilaya, deliveryType);
            GetShippingCost(rates, first.cache, wilaya, deliveryType) == first
  {
  }

  /**
   * An unknown wilaya costs the fallback and is not cached, so a row inserted
   * afterwards is what the very next lookup answers.
   */
  lemma NewRowSeenNextCall(rates: RateTable, cache: Cache, wilaya: string, deliveryType: string, row: RateRow)
    requires Coherent(rates, cache)
    requires IsDeliveryChoice(deliveryType)
    requires wilaya !in rates
    ensures GetShippingCost(rates, cache, wilaya, deliveryType) == Lookup(FallbackCost, cache)
    ensures GetShippingCost(rates[wilaya := row], cache, wilaya, deliveryType).cost == RowPrice(row, deliveryType)
  {
    assert CacheKey(wilaya, deliveryType) !in cache;
  }

  /**
   * A price change is not seen while the old answer is cached; once that
   * entry expires the next lookup answers the new price.
   */
  lemma RateChangeSeenAfterExpiry(rates: RateTable, cache: Cache, wilaya: string, deliveryType: string, row: RateRow)
    requires wilaya in rates
    ensures var first := GetShippingCost(rates, cache, wilaya, deliveryType);
            var changed := rates[wilaya := row];
            && GetShippingCost(changed, first.cache, wilaya, deliveryType).cost == first.cost
            && GetShippingCost(changed, Evict(first.cache, {CacheKey(wilaya, deliveryType)}), wilaya, deliveryType).cost
               == RowPrice(row, deliveryType)
  {
  }
}

=== FILE: stopdesks.dfy ===
/**
 * Stop desks (pick-up points): the `StopDesk` model, its `get_by_wilaya`
 * query, and the `populate_shipping` command that upserts desks keyed by
 * (name, wilaya). The table is the sequence of its rows in id order.
 */
module StopDesks {
  import opened Wrappers

  /** A `StopDesk` row. Coordinates are in millionths of a degree (six decimal places). */
  datatype StopDesk = StopDesk(
    id: nat, name: string, wilaya: string, city: string, address: string, phone: string,
    latitude: int, longitude: int, workingHours: string, workingDays: string, isActive: bool)

  /** The fields one entry of the seeding list sets (every field but the id and the active flag). */
  datatype DeskData = DeskData(
    name: string, wilaya: string, city: string, address: string, phone: string,
    latitude: int, longitude: int, workingHours: string, workingDays: string)

  const DefaultWorkingHours: string := "08:00 - 18:00"
  const DefaultWorkingDays: string := "Sunday - Thursday"

  function Key(d: StopDesk): (string, string) {
    (d.name, d.wilaya)
  }

  function DataKey(data: DeskData): (string, string) {
    (data.name, data.wilaya)
  }

  function Fields(d: StopDesk): DeskData {
    DeskData(d.name, d.wilaya, d.city, d.address, d.phone, d.latitude, d.longitude, d.workingHours, d.workingDays)
  }

  function KeysOf(desks: seq<StopDesk>): set<(string, string)> {
    set d | d in desks :: Key(d)
  }

  function FieldsOf(desks: seq<StopDesk>): set<DeskData> {
    set d | d in desks :: Fields(d)
  }

  function ListedKeys(list: seq<DeskData>): set<(string, string)> {
    set data | data in list :: DataKey(data)
  }

  /** No two rows share a (name, wilaya) pair. */
  predicate UniqueKeys(desks: seq<StopDesk>) {
    forall i, j :: 0 <= i < j < |desks| ==> Key(desks[i]) != Key(desks[j])
  }

  /** No two seeding entries share a (name, wilaya) pair. */
  predicate DistinctDataKeys(list: seq<DeskData>) {
    forall i, j :: 0 <= i < j < |list| ==> DataKey(list[i]) != DataKey(list[j])
  }

  // ---------------------------------------------------------------------------
  // Queries
  // ---------------------------------------------------------------------------

  /**
   * `StopDesk.get_by_wilaya`: the active desks of one wilaya. The model keeps
   * them in id order; the database returns them by city, then name.
   */
  function GetByWilaya(desks: seq<StopDesk>, wilaya: string): (r: seq<StopDesk>)
    ensures forall d :: d in r <==> d in desks && d.wilaya == wilaya && d.isActive
    ensures |r| <= |desks|
    decreases |desks|
  {
    if |desks| == 0 then []
    else
      var rest := GetByWilaya(desks[1..], wilaya);
      assert forall d :: d in desks <==> d == desks[0] || d in desks[1..];
      if desks[0].wilaya == wilaya && desks[0].isActive then [desks[0]] + rest else rest
  }

  /**
   * `StopDesk.objects.filter(is_active=True)`: every active desk. The model
   * keeps them in id order; the database returns them by wilaya, city, then name.
   */
  function ActiveDesks(desks: seq<StopDesk>): (r: seq<StopDesk>)
    ensures forall d :: d in r <==> d in desks && d.isActive
    ensures |r| <= |desks|
    decreases |desks|
  {
    if |desks| == 0 then []
    else
      var rest := ActiveDesks(desks[1..]);
      assert forall d :: d in desks <==> d == desks[0] || d in desks[1..];
      if desks[0].isActive then [desks[0]] + rest else rest
  }

  /** `StopDesk.objects.get(id=…)`: the row with that id, if any. */
  function FindById(desks: seq<StopDesk>, id: int): (r: Option<StopDesk>)
    ensures r.Some? ==> r.value in desks && r.value.id == id
    ensures r.None? ==> forall d :: d in desks ==> d.id != id
    decreases |desks|
  {
    if |desks| == 0 then None
    else if desks[0].id == id then Some(desks[0])
    else FindById(desks[1..], id)
  }

  // ---------------------------------------------------------------------------
  // populate_shipping
  // ---------------------------------------------------------------------------

  /** How many rows carry the (name, wilaya) pair `key`. */
  function CountMatches(desks: seq<StopDesk>, key: (string, string)): (n: nat)
    ensures n == 0 <==> key !in KeysOf(desks)
    ensures n <= |desks|
    decreases |desks|
  {
    if |desks| == 0 then 0
    else
      assert KeysOf(desks) == {Key(desks[0])} + KeysOf(desks[1..]) by {
        assert forall d :: d in desks <==> d == desks[0] || d in desks[1..];
      }
      (if Key(desks[0]) == key then 1 else 0) + CountMatches(desks[1..], key)
  }

  /** The position of the row carrying `key`, if any. */
  function FindKey(desks: seq<StopDesk>, key: (string, string)): (r: Option<nat>)
    ensures r.Some? ==> r.value < |desks| && Key(desks[r.value]) == key
    ensures r.None? <==> key !in KeysOf(desks)
    decreases |desks|
  {
    if |desks| == 0 then None
    else if Key(desks[0]) == key then Some(0)
    else
      match FindKey(desks[1..], key)
      case Some(i) => Some(i + 1)
      case None =>
        assert KeysOf(desks) == {Key(desks[0])} + KeysOf(desks[1..]) by {
          assert forall d :: d in desks <==> d == desks[0] || d in desks[1..];
        }
        None
  }

  /** A row whose key occurs once: the `get` of `update_or_create` finds exactly it. */
  lemma UniqueKeysCountAtMostOne(desks: seq<StopDesk>, key: (string, string))
    requires UniqueKeys(desks)
    ensures CountMatches(desks, key) <= 1
    decreases |desks|
  {
    if |desks| > 0 {
      UniqueKeysCountAtMostOne(desks[1..], key);
      if Key(desks[0]) == key {
        assert forall d :: d in desks[1..] ==> Key(d) != key by {
          forall d | d in desks[1..] ensures Key(d) != key {
            var j :| 0 <= j < |desks[1..]| && desks[1..][j] == d;
            assert desks[j + 1] == d;
          }
        }
        assert key !in KeysOf(desks[1..]);
      }
    }
  }

  /** One more than the largest id: what the database assigns to a new row. */
  function NextId(desks: seq<StopDesk>): (id: nat)
    ensures forall d :: d in desks ==> d.id < id
    decreases |desks|
  {
    if |desks| == 0 then 1
    else
      var rest := NextId(desks[1..]);
      assert forall d :: d in desks ==> d == desks[0] || d in desks[1..];
      if desks[0].id + 1 > rest then desks[0].id + 1 else rest
  }

  function NewDesk(id: nat, data: DeskData): StopDesk {
    StopDesk(id, data.name, data.wilaya, data.city, data.address, data.phone,
             data.latitude, data.longitude, data.workingHours, data.workingDays, true)
  }

  /** `update_or_create(defaults=data)` on an existing row: every listed field replaced, id and flag kept. */
  function Overwrite(d: StopDesk, data: DeskData): (r: StopDesk)
    ensures Fields(r) == data && r.id == d.id && r.isActive == d.isActive
  {
    StopDesk(d.id, data.name, data.wilaya, data.city, data.address, data.phone,
             data.latitude, data.longitude, data.workingHours, data.workingDays, d.isActive)
  }

  /** The result of one `update_or_create`: a new row, an updated row, or `MultipleObjectsReturned`. */
  datatype Upsert = Created(desks: seq<StopDesk>) | Updated(desks: seq<StopDesk>) | MultipleRows

  /** One `StopDesk.objects.update_or_create(name=…, wilaya=…, defaults=data)`. */
  function UpsertDesk(desks: seq<StopDesk>, data: DeskData): (r: Upsert)
    ensures r.Created? <==> DataKey(data) !in KeysOf(desks)
    ensures r.MultipleRows? <==> CountMatches(desks, DataKey(data)) >= 2
    ensures !r.MultipleRows? ==> data in FieldsOf(r.desks)
    ensures !r.MultipleRows? ==> KeysOf(r.desks) == KeysOf(desks) + {DataKey(data)}
    // Rows with any other key are untouched, and no row disappears.
    ensures !r.MultipleRows? ==> |r.desks| >= |desks|
    ensures !r.MultipleRows? ==> forall j :: 0 <= j < |desks| && Key(desks[j]) != DataKey(data) ==> r.desks[j] == desks[j]
    ensures r.Created? ==> |r.desks| == |desks| + 1
    ensures r.Updated? ==> |r.desks| == |desks|
  {
    var key := DataKey(data);
    var n := CountMatches(desks, key);
    if n == 0 then
      var d := NewDesk(NextId(desks), data);
      assert Key(d) == key && Fields(d) == data;
      var r := desks + [d];
      assert forall x :: x in r <==> x in desks || x == d;
      Created(r)
    else if n == 1 then
      var i := FindKey(desks, key).value;
      var d := Overwrite(desks[i], data);
      var r := desks[i := d];
      assert r[i] == d;
      assert KeysOf(r) == KeysOf(desks) + {key} by {
        forall k | k in KeysOf(desks) ensures k in KeysOf(r) {
          var x :| x in desks && Key(x) == k;
          var j :| 0 <= j < |desks| && desks[j] == x;
          if j != i { assert r[j] == x; } else { assert Key(r[i]) == k; }
        }
        forall k | k in KeysOf(r) ensures k in KeysOf(desks) + {key} {
          var x :| x in r && Key(x) == k;
          var j :| 0 <= j < |r| && r[j] == x;
          if j != i { assert desks[j] == x; }
        }
      }
      Updated(r)
    else MultipleRows
  }

  /** An upsert into a table with unique keys never finds two rows and keeps the keys unique. */
  lemma UpsertKeepsKeysUnique(desks: seq<StopDesk>, data: DeskData)
    requires UniqueKeys(desks)
    ensures !UpsertDesk(desks, data).MultipleRows?
    ensures UniqueKeys(UpsertDesk(desks, data).desks)
  {
    UniqueKeysCountAtMostOne(desks, DataKey(data));
    var r := UpsertDesk(desks, data);
    if r.Created? {
      forall i, j | 0 <= i < j < |r.desks| ensures Key(r.desks[i]) != Key(r.desks[j]) {
        if j == |desks| {
          assert desks[i] in desks;
        }
      }
    } else {
      var i := FindKey(desks, DataKey(data)).value;
      forall a, b | 0 <= a < b < |r.desks| ensures Key(r.desks[a]) != Key(r.desks[b]) {
        if a == i || b == i {
          var other := if a == i then b else a;
          assert Key(desks[other]) != Key(desks[i]);
        }
      }
    }
  }

  /** An entry whose key is already in a table with unique keys is an update, never a creation. */
  lemma UpsertOfPresentKeyUpdates(desks: seq<StopDesk>, data: DeskData)
    requires UniqueKeys(desks)
    requires DataKey(data) in KeysOf(desks)
    ensures UpsertDesk(desks, data).Updated?
  {
    UniqueKeysCountAtMostOne(desks, DataKey(data));
  }

  /**
   * An upsert keeps the listed values of every seeded entry whose key differs
   * from the one it writes.
   */
  lemma UpsertKeepsOtherFields(desks: seq<StopDesk>, data: DeskData, other: DeskData)
    requires UniqueKeys(desks)
    requires other in FieldsOf(desks)
    requires DataKey(other) != DataKey(data)
    ensures !UpsertDesk(desks, data).MultipleRows?
    ensures other in FieldsOf(UpsertDesk(desks, data).desks)
  {
    UniqueKeysCountAtMostOne(desks, DataKey(data));
    var x :| x in desks && Fields(x) == other;
    var j :| 0 <= j < |desks| && desks[j] == x;
    var r := UpsertDesk(desks, data).desks;
    assert r[j] == desks[j];
  }

  /** With distinct keys, entry `i` carries a key none of the earlier entries has. */
  lemma NextEntryNotYetListed(list: seq<DeskData>, i: nat)
    requires DistinctDataKeys(list) && i < |list|
    ensures DataKey(list[i]) !in ListedKeys(list[..i])
  {
    forall x | x in list[..i] ensures DataKey(x) != DataKey(list[i]) {
      var k :| 0 <= k < i && list[..i][k] == x;
      assert list[k] == x;
    }
  }

  /** What holds after the first `i` listed desks were upserted without an abort. */
  ghost predicate Progress(desks: seq<StopDesk>, list: seq<DeskData>, i: nat, result: seq<StopDesk>, created: nat, updated: nat) {
    && i <= |list|
    && created + updated == i
    && (UniqueKeys(desks) ==> UniqueKeys(result))
    && KeysOf(result) == KeysOf(desks) + ListedKeys(list[..i])
    && |result| >= |desks|
    && (forall j :: 0 <= j < |desks| && Key(desks[j]) !in ListedKeys(list[..i]) ==> result[j] == desks[j])
    && (UniqueKeys(desks) && DistinctDataKeys(list) ==> forall k :: 0 <= k < i ==> list[k] in FieldsOf(result))
    && (UniqueKeys(desks) && ListedKeys(list) <= KeysOf(desks) ==> created == 0)
    && (UniqueKeys(desks) && DistinctDataKeys(list) && ListedKeys(list) !! KeysOf(desks) ==> created == i)
  }

  /** The keys of a one-longer prefix: the earlier ones and the new entry's. */
  lemma ListedKeysStep(list: seq<DeskData>, i: nat)
    requires i < |list|
    ensures ListedKeys(list[..i + 1]) == ListedKeys(list[..i]) + {DataKey(list[i])}
  {
    assert list[..i + 1] == list[..i] + [list[i]];
  }

  /** One more upsert extends the keys by the entry's key and touches no row with another key. */
  lemma StepKeysAndRows(desks: seq<StopDesk>, list: seq<DeskData>, i: nat, result: seq<StopDesk>)
    requires i < |list|
    requires KeysOf(result) == KeysOf(desks) + ListedKeys(list[..i])
    requires |result| >= |desks|
    requires forall j :: 0 <= j < |desks| && Key(desks[j]) !in ListedKeys(list[..i]) ==> result[j] == desks[j]
    requires !UpsertDesk(result, list[i]).MultipleRows?
    ensures var r := UpsertDesk(result, list[i]).desks;
      && KeysOf(r) == KeysOf(desks) + ListedKeys(list[..i + 1])
      && |r| >= |desks|
      && forall j :: 0 <= j < |desks| && Key(desks[j]) !in ListedKeys(list[..i + 1]) ==> r[j] == desks[j]
  {
    ListedKeysStep(list, i);
    var r := UpsertDesk(result, list[i]).desks;
    forall j | 0 <= j < |desks| && Key(desks[j]) !in ListedKeys(list[..i + 1]) ensures r[j] == desks[j] {
      assert Key(result[j]) != DataKey(list[i]);
    }
  }

  /** With distinct listed keys, one more upsert keeps every earlier entry's values and adds this one's. */
  lemma StepFields(list: seq<DeskData>, i: nat, result: seq<StopDesk>)
    requires i < |list| && UniqueKeys(result) && DistinctDataKeys(list)
    requires forall k :: 0 <= k < i ==> list[k] in FieldsOf(result)
    ensures !UpsertDesk(result, list[i]).MultipleRows?
    ensures forall k :: 0 <= k < i + 1 ==> list[k] in FieldsOf(UpsertDesk(result, list[i]).desks)
  {
    UpsertKeepsKeysUnique(result, list[i]);
    forall k | 0 <= k < i ensures list[k] in FieldsOf(UpsertDesk(result, list[i]).desks) {
      UpsertKeepsOtherFields(result, list[i], list[k]);
    }
  }

  /** Which kind of upsert happens, when the run is a re-run or a first run. */
  lemma StepKind(desks: seq<StopDesk>, list: seq<DeskData>, i: nat, result: seq<StopDesk>)
    requires i < |list| && UniqueKeys(result)
    requires KeysOf(result) == KeysOf(desks) + ListedKeys(list[..i])
    ensures ListedKeys(list) <= KeysOf(desks) ==> UpsertDesk(result, list[i]).Updated?
    ensures DistinctDataKeys(list) && ListedKeys(list) !! KeysOf(desks) ==> UpsertDesk(result, list[i]).Created?
  {
    assert list[i] in list;
    if ListedKeys(list) <= KeysOf(desks) {
      UpsertOfPresentKeyUpdates(result, list[i]);
    }
    if DistinctDataKeys(list) {
      NextEntryNotYetListed(list, i);
    }
  }

  /** One more upsert keeps the progress facts, and cannot abort on a table with unique keys. */
  lemma ProgressStep(desks: seq<StopDesk>, list: seq<DeskData>, i: nat, result: seq<StopDesk>, created: nat, updated: nat)
    requires Progress(desks, list, i, result, created, updated) && i < |list|
    ensures UniqueKeys(desks) ==> !UpsertDesk(result, list[i]).MultipleRows?
    ensures UpsertDesk(result, list[i]).Created? ==>
      Progress(desks, list, i + 1, UpsertDesk(result, list[i]).desks, created + 1, updated)
    ensures UpsertDesk(result, list[i]).Updated? ==>
      Progress(desks, list, i + 1, UpsertDesk(result, list[i]).desks, created, updated + 1)
  {
    if !UpsertDesk(result, list[i]).MultipleRows? {
      StepKeysAndRows(desks, list, i, result);
    }
    if UniqueKeys(desks) {
      UpsertKeepsKeysUnique(result, list[i]);
      StepKind(desks, list, i, result);
      if DistinctDataKeys(list) {
        StepFields(list, i, result);
      }
    }
  }

  /** What holds once a run has aborted after `i` steps: the rows it did not reach are as they were. */
  ghost predicate Aborted(desks: seq<StopDesk>, list: seq<DeskData>, i: nat, result: seq<StopDesk>, created: nat, updated: nat) {
    && i <= |list|
    && created + updated < i && !UniqueKeys(desks) && |result| >= |desks|
    && forall j :: 0 <= j < |desks| && Key(desks[j]) !in ListedKeys(list[..i]) ==> result[j] == desks[j]
  }

  /** An upsert that finds two rows ends the run in the aborted state. */
  lemma AbortStep(desks: seq<StopDesk>, list: seq<DeskData>, i: nat, result: seq<StopDesk>, created: nat, updated: nat)
    requires Progress(desks, list, i, result, created, updated) && i < |list|
    requires UpsertDesk(result, list[i]).MultipleRows?
    ensures Aborted(desks, list, i + 1, result, created, updated)
  {
    ProgressStep(desks, list, i, result, created, updated);
    ListedKeysGrow(list, i);
  }

  /** A run that went through the whole list meets the command's promises. */
  lemma ProgressComplete(desks: seq<StopDesk>, list: seq<DeskData>, result: seq<StopDesk>, created: nat, updated: nat)
    requires Progress(desks, list, |list|, result, created, updated)
    ensures created + updated == |list|
    ensures UniqueKeys(desks) ==> UniqueKeys(result)
    ensures KeysOf(result) == KeysOf(desks) + ListedKeys(list)
    ensures |result| >= |desks|
    ensures forall j :: 0 <= j < |desks| && Key(desks[j]) !in ListedKeys(list) ==> result[j] == desks[j]
    ensures UniqueKeys(desks) && DistinctDataKeys(list) ==> forall data :: data in list ==> data in FieldsOf(result)
    ensures UniqueKeys(desks) && ListedKeys(list) <= KeysOf(desks) ==> created == 0
    ensures UniqueKeys(desks) && DistinctDataKeys(list) && ListedKeys(list) !! KeysOf(desks) ==> created == |list|
  {
    assert list[..|list|] == list;
    assert forall data :: data in list ==> exists k :: 0 <= k < |list| && list[k] == data;
  }

  /** What a finished run, aborted or not, has achieved. */
  lemma RunOutcome(desks: seq<StopDesk>, list: seq<DeskData>, i: nat, run: Run)
    requires i <= |list| && RunInv(desks, list, i, run) && (i == |list| || run.aborted)
    ensures !run.aborted ==> run.created + run.updated == |list|
    ensures run.aborted ==> run.created + run.updated < |list|
    ensures UniqueKeys(desks) ==> !run.aborted && UniqueKeys(run.result)
    ensures !run.aborted ==> KeysOf(run.result) == KeysOf(desks) + ListedKeys(list)
    ensures |run.result| >= |desks|
    ensures forall j :: 0 <= j < |desks| && Key(desks[j]) !in ListedKeys(list) ==> run.result[j] == desks[j]
    ensures UniqueKeys(desks) && DistinctDataKeys(list) ==> forall data :: data in list ==> data in FieldsOf(run.result)
    ensures UniqueKeys(desks) && ListedKeys(list) <= KeysOf(desks) ==> run.created == 0
    ensures UniqueKeys(desks) && DistinctDataKeys(list) && ListedKeys(list) !! KeysOf(desks) ==> run.created == |list|
  {
    if run.aborted {
      AbortedComplete(desks, list, i, run.result, run.created, run.updated);
    } else {
      ProgressComplete(desks, list, run.result, run.created, run.updated);
    }
  }

  /** An aborted run still leaves every row whose key is not listed alone. */
  lemma AbortedComplete(desks: seq<StopDesk>, list: seq<DeskData>, i: nat, result: seq<StopDesk>, created: nat, updated: nat)
    requires Aborted(desks, list, i, result, created, updated)
    ensures created + updated < |list|
    ensures forall j :: 0 <= j < |desks| && Key(desks[j]) !in ListedKeys(list) ==> result[j] == desks[j]
  {
    assert ListedKeys(list[..i]) <= ListedKeys(list) by {
      assert list == list[..i] + list[i..];
    }
  }

  /** The listed keys of a prefix only grow. */
  lemma ListedKeysGrow(list: seq<DeskData>, i: nat)
    requires i < |list|
    ensures ListedKeys(list[..i]) <= ListedKeys(list[..i + 1])
  {
    assert list[..i + 1] == list[..i] + [list[i]];
  }

  /** The command's running state: the table so far, the two counters, and whether an upsert raised. */
  datatype Run = Run(result: seq<StopDesk>, created: nat, updated: nat, aborted: bool)

  /** One iteration of the loop: upsert the entry and bump the matching counter. */
  function RunStep(run: Run, data: DeskData): Run {
    match UpsertDesk(run.result, data)
    case Created(r) => run.(result := r, created := run.created + 1)
    case Updated(r) => run.(result := r, updated := run.updated + 1)
    case MultipleRows => run.(aborted := true)
  }

  ghost predicate RunInv(desks: seq<StopDesk>, list: seq<DeskData>, i: nat, run: Run) {
    if run.aborted then Aborted(desks, list, i, run.result, run.created, run.updated)
    else Progress(desks, list, i, run.result, run.created, run.updated)
  }

  lemma RunStepKeeps(desks: seq<StopDesk>, list: seq<DeskData>, i: nat, run: Run)
    requires i < |list| && !run.aborted && RunInv(desks, list, i, run)
    ensures RunInv(desks, list, i + 1, RunStep(run, list[i]))
  {
    ProgressStep(desks, list, i, run.result, run.created, run.updated);
    if UpsertDesk(run.result, list[i]).MultipleRows? {
      AbortStep(desks, list, i, run.result, run.created, run.updated);
    }
  }

  /**
   * `populate_shipping.handle`: one upsert per listed desk, counting creations
   * and updates. `aborted` stands for `MultipleObjectsReturned` escaping the
   * loop; upserts done before it stay in the table.
   */
  method PopulateShipping(desks: seq<StopDesk>, list: seq<DeskData>)
    returns (result: seq<StopDesk>, created: nat, updated: nat, aborted: bool)
    ensures !aborted ==> created + updated == |list|
    ensures aborted ==> created + updated < |list|
    // Only a table that already held two rows with one (name, wilaya) pair can abort the run.
    ensures UniqueKeys(desks) ==> !aborted && UniqueKeys(result)
    ensures !aborted ==> KeysOf(result) == KeysOf(desks) + ListedKeys(list)
    // Rows whose key is not listed are untouched.
    ensures |result| >= |desks|
    ensures forall j :: 0 <= j < |desks| && Key(desks[j]) !in ListedKeys(list) ==> result[j] == desks[j]
    // Every listed desk ends up with exactly its listed values.
    ensures UniqueKeys(desks) && DistinctDataKeys(list) ==> forall data :: data in list ==> data in FieldsOf(result)
    // A second run over a table that already has every listed key creates nothing.
    ensures UniqueKeys(desks) && ListedKeys(list) <= KeysOf(desks) ==> created == 0
    // A run over a table with none of the (distinct) listed keys creates them all.
    ensures UniqueKeys(desks) && DistinctDataKeys(list) && ListedKeys(list) !! KeysOf(desks) ==> created == |list|
  {
    var run := Run(desks, 0, 0, false);
    var i := 0;
    assert list[..0] == [];
    while i < |list| && !run.aborted
      invariant 0 <= i <= |list|
      invariant RunInv(desks, list, i, run)
      decreases |list| - i
    {
      RunStepKeeps(desks, list, i, run);
      run := RunStep(run, list[i]);
      i := i + 1;
    }
    RunOutcome(desks, list, i, run);
    result, created, updated, aborted := run.result, run.created, run.updated, run.aborted;
  }
}

=== FILE: wrappers.dfy ===
/** `Option`, the absent-or-present value every module of the model uses. */
module Wrappers {

  /** A value that may be absent: Python's `None`, a missing POST field, a regex without a match. */
  datatype Option<+T> = None | Some(value: T) {

    /** The wrapped value, or `default` when there is none. */
    function GetOr(default: T): T {
      match this
      case Some(v) => v
      case None => default
    }
  }
}
